=== FILE: README.md ===
# RSAP navmesh kernel in Dafny

A Dafny model of the integer and bit-level kernel under the RSAP sparse-octree
navigation mesh, with proofs of its properties. The navmesh divides the world
into chunks. Each chunk holds an octree of nodes over ten layers below the
chunk itself. Chunks and nodes are addressed by morton codes:

- a chunk by a 64-bit interleaving of three 21-bit chunk coordinates;
- a node by a 32-bit interleaving of three 10-bit coordinates local to its chunk.

The modules follow the source files:

| module | file | models | source lines |
|---|---|---|---|
| `Definitions` | `definitions.dfy` | layer indices, node sizes and masks per layer, the child masks of a node, the grouped-leaf masks and the six-bit direction encoding | Source/Game/Public/Rsap/Definitions.h:21-176 |
| `Signed` | `int32.dfy` | `int32` as two's-complement `bv32`: signed order, wrapping sums, arithmetic shift, sign extension | Game/Plugins/MBNavigation/Source/MBNavigation/Public/MBNavigation/Types/Math.h:271 and 560-566; Source/Game/Public/Math/Morton.h:262-264 |
| `Interleave` | `interleave.dfy` | the three-axis bit interleaving the code takes from libmorton, implemented here and proved a bijection on in-range coordinates | Source/Game/Public/Math/Morton.h:57-72 and 256-278 |
| `MortonNode` | `morton_node.dfy` | node codes (`FMortonUtils::Node`): per-axis add and subtract on the interleaved code, parent, child, child index, children, neighbours, lane copies and tests, leaving the chunk | Source/Game/Public/Math/Morton.h:14-243 |
| `MortonChunk` | `morton_chunk.dfy` | chunk codes (`FMortonUtils::Chunk`): encode and decode of world coordinates, one-chunk steps, lane copies | Source/Game/Public/Math/Morton.h:245-369 |
| `Vectors` | `vectors.dfy` | `FRsapVector32` rounding to a layer's node grid or to the chunk grid, and the world location of a node code | Source/RsapShared/Public/Rsap/Math/Vectors.h:160-208 |
| `Aabb` | `bounds.dfy` | `FRsapBounds`: initialisation, volume, rounding, clamp, overlap and intersection classification, boolean cut, and the split per chunk | Source/Game/Public/Rsap/Math/Bounds.h:34-267 |
| `MbMath` | `mb_math.dfy` | the MBNavigation integer vectors and bounds: 64-bit chunk keys, bounds with a validity flag, morton-space rounding, intersection, cut, and conversion between global and morton space | Game/Plugins/MBNavigation/Source/MBNavigation/Public/MBNavigation/Types/Math.h:269-293 and 431-701 |
| `Relations` | `relations.dfy` | `FNodeRelations`: the layer and type of the neighbour on each of the six sides, packed into 30 bits | Game/Plugins/RSAP/Source/RSAP/Public/RSAP/NavMesh/Types/Relations.h:17-118 |
| `RsapNode` | `rsap_node.dfy` | `IRsapNodeBase` and `FRsapNode`: the child mask, child locations, the walk over existing children, 64-bit packing | Source/RsapShared/Public/Rsap/NavMesh/Types/Node.h:23-163 |
| `PluginNode` | `plugin_node.dfy` | the plugin `FNode`: the chunk border a child inherits, flags, 64-bit packing | Game/Plugins/RSAP/Source/RSAP/Public/RSAP/NavMesh/Types/Node.h:71-230 |
| `Generator` | `generator.dfy` | `CalculateOptimalStartingLayer` and `GetChildrenToRasterizeAndUpdateEdges` | Source/Game/Private/NavMesh/Processing/Generator.cpp:22-94; Source/Game/Public/Rsap/NavMesh/Processing/Generator.h:20-51 |
| `Updater` | `updater.dfy` | `FRsapUpdater::StageData`, the per-actor staging of previous and current bounds | Source/Editor/Private/NavMesh/Update/Updater.cpp:13-50 |
| `Serialize` | `serialize.dfy` | the layer stream of (code, packed node) pairs and the preorder child-mask stream of the static octree | Source/RsapShared/Private/NavMesh/Serialize.cpp:11-42 and 112-186 |
| `Wrappers` | `wrappers.dfy` | `Option` | (none) |

Fixed-width arithmetic is stated explicitly:

- C++ `int32` is `bv32` read as two's complement, with signed comparisons written out.
- Bit-fields are `bv4`, `bv6`, `bv10` and so on, so an assignment keeps the low bits.
- A 64-bit intermediate converted back to `int32` keeps its low word.
- The MBNavigation `int_fast32_t` components are taken as 32 bits wide. The standard only guarantees at least 32, so a platform with a wider type would wrap later than the model.

## Model

| member | source | states |
|---|---|---|---|
| Definitions.ChunkConstants | Source/Game/Public/Rsap/Definitions.h:21-47 | the chunk size in bits is the node depth plus the size shift, the chunk size is 1 << 13 with its mask its complement, and the sign offset is ((1 << 20) - 1) << 13, whose low 32 bits are minus the chunk size |
| Definitions.SizesHalve | Source/Game/Public/Rsap/Definitions.h:51-65 | the size table starts at the chunk size, each layer's size is twice the next one's, and every size is 1 shifted by its entry in the size-bits table |
| Definitions.SizesMaskIsComplement | Source/Game/Public/Rsap/Definitions.h:56-70 | every size mask is the complement of its size minus one, every half size doubled is the size, and the chunk size has no bit below any layer's mask |
| Definitions.ChildMaskTables | Source/Game/Public/Rsap/Definitions.h:75-82 | child mask i is 1 << i and the inverse table holds its 8-bit complement |
| Definitions.ClearMasksComplement | Source/Game/Public/Rsap/Definitions.h:85-114 | each negative clear mask is the complement of the positive one, and the set masks mirror the clear masks |
| Definitions.ClearNegativeKeepsPositiveHalf | Source/Game/Public/Rsap/Definitions.h:89-96 | the negative X and Y clear masks keep exactly the children whose X or Y index bit is set, and the positive ones exactly those where it is clear |
| Definitions.ClearNegativeZKeepsNegativeHalf | Source/Game/Public/Rsap/Definitions.h:91-97 | as written, the negative Z clear mask keeps the children whose Z bit is clear and the positive one those where it is set: the other way round from X and Y |
| Definitions.ClearNegativeZFixedKeepsPositiveHalf | Source/Game/Public/Rsap/Definitions.h:91-97 | with the two Z masks exchanged, the negative Z clear mask keeps the children whose Z bit is set, as X and Y do |
| Definitions.LeafMasksAreBytes | Source/Game/Public/Rsap/Definitions.h:131-142 | every grouped-leaf mask is the base byte shifted by its shift entry, and the shifts step by 8 |
| Definitions.LeafMasksPartition | Source/Game/Public/Rsap/Definitions.h:139-142 | two different grouped-leaf masks share no bit, and all eight together cover the 64 bits |
| Definitions.DirectionTables | Source/Game/Public/Rsap/Definitions.h:147-175 | every NOT mask is the six-bit complement of its direction, the XYZ masks are the unions of their sides, and the list holds six distinct one-bit directions |
| Definitions.SingleDirectionIsOneBit | Source/Game/Public/Rsap/Definitions.h:147-175 | a direction is one of the six sides exactly when it is a single bit within the six direction bits |
| Definitions.OppositeInvolution | Game/Plugins/RSAP/Source/RSAP/Public/RSAP/NavMesh/Types/Relations.h:60-72 | the opposite of the opposite side is the side itself, and the two differ by a shift of three bits |
| Relations.GetFromDirection | Game/Plugins/RSAP/Source/RSAP/Public/RSAP/NavMesh/Types/Relations.h:31-43 | what a side reads as always fits the 4-bit layer field |
| Relations.DefaultIsEmpty | Game/Plugins/RSAP/Source/RSAP/Public/RSAP/NavMesh/Types/Relations.h:17-29 | in a new record every side is empty, reads as the empty layer 15, and every state is static |
| Relations.GetAfterSet | Game/Plugins/RSAP/Source/RSAP/Public/RSAP/NavMesh/Types/Relations.h:31-57 | a side reads back as the low four bits of the layer it was set to, so as the layer itself below 16 |
| Relations.SetLeavesOtherSides | Game/Plugins/RSAP/Source/RSAP/Public/RSAP/NavMesh/Types/Relations.h:45-57 | setting one side changes no other side and no state |
| Relations.SetInverseIsOpposite | Game/Plugins/RSAP/Source/RSAP/Public/RSAP/NavMesh/Types/Relations.h:60-72 | setting the inverse of a side is setting the opposite side |
| Relations.OtherDirectionsIgnored | Game/Plugins/RSAP/Source/RSAP/Public/RSAP/NavMesh/Types/Relations.h:41-84 | anything but one of the six sides reads as empty, is never reported empty, and neither setter changes the record |
| Relations.EmptyMeansEmptyLayer | Game/Plugins/RSAP/Source/RSAP/Public/RSAP/NavMesh/Types/Relations.h:74-86 | a side is reported empty exactly when it is one of the six and reads as the empty layer |
| Relations.UnpackPack | Game/Plugins/RSAP/Source/RSAP/Public/RSAP/NavMesh/Types/Relations.h:88-118 | unpacking a packed record restores all twelve fields |
| Relations.PackUnpack | Game/Plugins/RSAP/Source/RSAP/Public/RSAP/NavMesh/Types/Relations.h:88-118 | packing an unpacked word gives back its low 30 bits: no two fields share a bit |
| RsapNode.SetChildActiveFrame | Source/RsapShared/Public/Rsap/NavMesh/Types/Node.h:23-40 | after setting child i, child j exists exactly when j is i or it existed before |
| RsapNode.ClearChildFrame | Source/RsapShared/Public/Rsap/NavMesh/Types/Node.h:28-40 | after clearing child i, child j exists exactly when j is not i and it existed before |
| RsapNode.HasChildrenIffSomeChild | Source/RsapShared/Public/Rsap/NavMesh/Types/Node.h:33-40 | a node has children exactly when one of its eight children exists |
| RsapNode.ChildLocationAxes | Source/RsapShared/Public/Rsap/NavMesh/Types/Node.h:42-58 | child i's corner is the parent's corner moved by the child size along X, Y and Z exactly where index bits 0, 1 and 2 are set; an index above 7 gives the parent's corner |
| RsapNode.ChildIndices | Source/RsapShared/Public/Rsap/NavMesh/Types/Node.h:60-70 | the indices below n that the walk reaches are strictly ascending, and an index is among them exactly when that child exists |
| RsapNode.ForEachChild | Source/RsapShared/Public/Rsap/NavMesh/Types/Node.h:60-70 | the callback receives the codes of exactly the existing children, in ascending index order, and nothing for a node without children |
| RsapNode.UnpackPack | Source/RsapShared/Public/Rsap/NavMesh/Types/Node.h:148-163 | unpacking a packed node restores the children, the child types, the sound preset and the relations |
| RsapNode.PackUnpack | Source/RsapShared/Public/Rsap/NavMesh/Types/Node.h:148-163 | packing an unpacked word gives back its low 62 bits |
| PluginNode.DefaultRelationsInvalid | Game/Plugins/RSAP/Source/RSAP/Public/RSAP/NavMesh/Types/Node.h:18-43 | no side of a new record is valid, and every side reads as the invalid layer index |
| PluginNode.ValidMeansKnownLayer | Game/Plugins/RSAP/Source/RSAP/Public/RSAP/NavMesh/Types/Node.h:32-69 | a side is valid exactly when it is one of the six and does not read as the invalid layer index |
| PluginNode.ValidAfterSet | Game/Plugins/RSAP/Source/RSAP/Public/RSAP/NavMesh/Types/Node.h:45-69 | a side set to a layer reads back as its low four bits, and is valid exactly when those are not the invalid index |
| PluginNode.ChildBorderWithinParent | Game/Plugins/RSAP/Source/RSAP/Public/RSAP/NavMesh/Types/Node.h:128-137 | a child's chunk border is a subset of its parent's, and empty when the parent's is |
| PluginNode.ChildBorderOneSidePerAxis | Game/Plugins/RSAP/Source/RSAP/Public/RSAP/NavMesh/Types/Node.h:128-137 | a child's chunk border never holds both sides of one axis |
| PluginNode.ChildBorderSides | Game/Plugins/RSAP/Source/RSAP/Public/RSAP/NavMesh/Types/Node.h:128-137 | a child is against side d exactly when its parent is and the child lies in the half of the parent facing d |
| PluginNode.FlagsReadBack | Game/Plugins/RSAP/Source/RSAP/Public/RSAP/NavMesh/Types/Node.h:151-165 | each flag reads back as set, and setting one flag leaves the other flag and the relations alone |
| PluginNode.GetRelationsFollowsDirections | Game/Plugins/RSAP/Source/RSAP/Public/RSAP/NavMesh/Types/Node.h:167-177 | entry k of the relations array is the layer read towards the k-th direction of the direction list |
| PluginNode.ForEachChildYieldsChildren | Game/Plugins/RSAP/Source/RSAP/Public/RSAP/NavMesh/Types/Node.h:179-185 | the walk yields eight codes exactly when the node has children and none otherwise, and for a node of the layer above they are its children in index order |
| PluginNode.UnpackPack | Game/Plugins/RSAP/Source/RSAP/Public/RSAP/NavMesh/Types/Node.h:210-230 | unpacking a packed node restores the border, the preset, both flags, the child states and the relations |
| PluginNode.PackUnpack | Game/Plugins/RSAP/Source/RSAP/Public/RSAP/NavMesh/Types/Node.h:210-230 | packing an unpacked word gives back its low 62 bits: no two fields share a bit |
| Generator.QuotientAboveOne | Source/Game/Private/NavMesh/Processing/Generator.cpp:30 | a quotient truncated toward zero by a positive divisor exceeds one exactly when the dividend is at least twice the divisor |
| Generator.CalculateOptimalStartingLayer | Source/Game/Private/NavMesh/Processing/Generator.cpp:22-36 | the result is the first layer whose node size the largest side spans at least twice, or the leaf layer 12 when no layer does |
| Generator.StartingLayerMonotone | Source/Game/Private/NavMesh/Processing/Generator.cpp:22-36 | a longer largest side never gives a deeper starting layer |
| Generator.StartingLayerUnique | Source/Game/Private/NavMesh/Processing/Generator.cpp:22-36 | one side has one starting layer |
| Generator.Field10Exact | Source/Game/Public/Rsap/NavMesh/Processing/Generator.h:22-41 | a gap below 1024 is stored in its ten-bit field exactly |
| Generator.RoundedBoundsSkipNothing | Source/Game/Public/Rsap/NavMesh/Processing/Generator.h:30-42 | skip masks made from bounds that are already rounded are zero on every side |
| Generator.LayerMasksAreLayerBits | Source/Game/Public/Rsap/NavMesh/Processing/Generator.h:45-50 | in the corrected tables layer l owns bit 9 - l, and its parent mask is every bit below that one |
| Generator.MaskTablesAsWritten | Source/Game/Public/Rsap/NavMesh/Processing/Generator.h:45-50 | as written, layers 2 and 3 share one bit, and the parent masks of layers 4 to 8 are those of the next layer down |
| Generator.NotDirectionsTable | Source/Game/Public/Rsap/Definitions.h:151-171 | the NOT mask of a side clears that side and keeps the other five |
| Generator.EdgesOnlyCleared | Source/Game/Private/NavMesh/Processing/Generator.cpp:53-91 | the checks only ever clear bits of the sides to check, never set one |
| Generator.LaterSideUntouched | Source/Game/Private/NavMesh/Processing/Generator.cpp:53-91 | a side's bit is not touched by the checks made before its own |
| Generator.ChildrenAreConjunction | Source/Game/Private/NavMesh/Processing/Generator.cpp:47-91 | the children left after the checks are the conjunction of the masks each check applies, each judged on the sides given |
| Generator.KeepAllOfNoSides | Source/Game/Private/NavMesh/Processing/Generator.cpp:47-91 | with no sides to check, no check removes a child |
| Generator.NothingToCheck | Source/Game/Private/NavMesh/Processing/Generator.cpp:47-93 | with no sides to check, all eight children are rasterized and no side is left |
| Generator.KeepAllBit | Source/Game/Private/NavMesh/Processing/Generator.cpp:47-91 | a child survives the combined mask exactly when every single check's mask keeps it |
| Generator.ClearsRemoveFacing | Source/Game/Public/Rsap/Definitions.h:85-98 | the clear mask used for a side keeps a child exactly when the child does not lie against that side |
| Generator.KeepBit | Source/Game/Private/NavMesh/Processing/Generator.cpp:53-91 | a child survives one check's mask exactly when that check does not drop the children against the side the child faces |
| Generator.ChildrenAfterBit | Source/Game/Private/NavMesh/Processing/Generator.cpp:47-91 | after the first n checks a child is left exactly when none of them dropped the side it faces |
| Generator.ChildrenToRasterize | Source/Game/Private/NavMesh/Processing/Generator.cpp:41-94 | child i is rasterized exactly when, for each of the six sides it lies against, the side is not to be checked or this layer's node fills the gap on it |
| Generator.EarlierSideKept | Source/Game/Private/NavMesh/Processing/Generator.cpp:55-93 | the checks after a side's own check leave that side's bit of EdgesToCheck as its own check left it |
| Generator.OwnCheck | Source/Game/Private/NavMesh/Processing/Generator.cpp:55-93 | a side's own check leaves it no longer to be checked exactly when it was not to be checked or the check runs and the gap holds no node of a deeper layer |
| Generator.EdgesAfterSide | Source/Game/Private/NavMesh/Processing/Generator.cpp:49-93 | after the checks up to and including side k, side k is no longer to be checked exactly when it was not to be checked, or its check ran (always for negative X, otherwise only with no node of this layer in the gap) and the gap holds no node of a deeper layer |
| Generator.EdgesToUpdate | Source/Game/Private/NavMesh/Processing/Generator.cpp:49-93 | with the corrected tables, GetChildrenToRasterizeAndUpdateEdges clears side k from EdgesToCheck exactly when it was not set, or its check ran and no bit of a deeper layer is left in that side's gap |
| Generator.ZClearsSwappedAsWritten | Source/Game/Private/NavMesh/Processing/Generator.cpp:67-71 | with the Z masks as written, checking negative Z with no gap keeps the four children against negative Z and drops the other four; corrected, the opposite |
| Generator.LayerTwoMaskAsWritten | Source/Game/Public/Rsap/NavMesh/Processing/Generator.h:45-46 | with the layer table as written, a gap holding exactly layer 2's node still drops the negative X children at layer 2; corrected, none are dropped |
| Generator.ParentMaskAsWritten | Source/Game/Public/Rsap/NavMesh/Processing/Generator.h:49-50 | with the parent table as written, a gap holding a layer 5 node no longer keeps negative X to check at layer 4; corrected, it stays |
| Updater.StageOne | Source/Editor/Private/NavMesh/Update/Updater.cpp:32-50 | after staging one move the actor is staged with the To bounds as current and the From bounds as its latest previous bounds; the keys grow by that actor alone and every other actor is unchanged |
| Updater.StageOnePrevious | Source/Editor/Private/NavMesh/Update/Updater.cpp:34-48 | an actor staged for the first time has its From bounds twice in its previous list; a staged actor gets From appended to the list it had |
| Updater.KeysOfCons | Source/Editor/Private/NavMesh/Update/Updater.cpp:23-29 | the actors of a batch are its first actor and the actors of the rest |
| Updater.StageMovesKeys | Source/Editor/Private/NavMesh/Update/Updater.cpp:23-29 | staging a batch of moves adds exactly the actors of the batch |
| Updater.StageMovesOthers | Source/Editor/Private/NavMesh/Update/Updater.cpp:23-29 | an actor outside the batch keeps its staged entry |
| Updater.StageMovesAt | Source/Editor/Private/NavMesh/Update/Updater.cpp:23-29 | in a batch of distinct actors each actor ends up as one single stage on the map before the batch would leave it |
| Updater.StageActorsFromEmpty | Source/Editor/Private/NavMesh/Update/Updater.cpp:13-20 | staging a batch of actors with their bounds makes each one's bounds current with the empty bounds as its latest previous bounds, adds exactly those actors, and leaves all others alone |
| Updater.StageMovesSplit | Source/Editor/Private/NavMesh/Update/Updater.cpp:23-29 | staging two batches in turn is staging the concatenated batch |
| Updater.StagedHistory | Source/Editor/Private/NavMesh/Update/Updater.cpp:32-50 | after a run of moves of a new actor, its previous bounds are the first From followed by every From in order, and its current bounds are the last To |
| Serialize.SavePairs | Source/RsapShared/Private/NavMesh/Serialize.cpp:16-26 | each entry of a layer becomes its 32-bit code followed by its packed 64-bit node, in iteration order |
| Serialize.Emplace | Source/RsapShared/Private/NavMesh/Serialize.cpp:37 | emplace adds the key, keeps every entry already there, and stores the value only under a key that was absent |
| Serialize.LoadSavePairs | Source/RsapShared/Private/NavMesh/Serialize.cpp:11-42 | reading back the pairs a layer wrote emplaces every entry's node under its code and leaves the following fields unread |
| Serialize.LoadSaveLayer | Source/RsapShared/Private/NavMesh/Serialize.cpp:11-42 | loading what a layer saved reads its size and exactly its pairs, and emplaces every saved node, unpacked from its packed form, under its code |
| Serialize.Codes | Source/RsapShared/Private/NavMesh/Serialize.cpp:18-25 | every code of a saved layer is a key of the loaded layer |
| Serialize.CodesFromEntries | Source/RsapShared/Private/NavMesh/Serialize.cpp:18-25 | every loaded key is the code of some saved entry |
| Serialize.EmplaceEntriesFresh | Source/RsapShared/Private/NavMesh/Serialize.cpp:29-38 | emplacing entries with distinct new codes gives each code its own node and keeps every key already present |
| Serialize.DistinctTail | Source/RsapShared/Private/NavMesh/Serialize.cpp:18-25 | the entries after the first of a layer still have distinct codes, none equal to the first |
| Serialize.LoadSaveLayerFresh | Source/RsapShared/Private/NavMesh/Serialize.cpp:11-42 | a saved layer loaded into an empty layer is exactly the saved layer: the same codes, each with its own node |
| Serialize.SaveNodes | Source/RsapShared/Private/NavMesh/Serialize.cpp:112-131 | the stream of a node starts with its child mask, and is that byte alone for a node of layer 9 or deeper or a node without children |
| Serialize.SaveChildren | Source/RsapShared/Private/NavMesh/Serialize.cpp:122-130 | a node without children writes no child streams |
| Serialize.Visit | Source/RsapShared/Private/NavMesh/Serialize.cpp:112-131 | the walk of SaveNodes starts at the node itself |
| Serialize.KeySet | Source/RsapShared/Private/NavMesh/Serialize.cpp:112-131 | every visited key is in the set of visited keys |
| Serialize.KeySetAppend | Source/RsapShared/Private/NavMesh/Serialize.cpp:122-130 | the keys of two visits in turn are the union of their keys |
| Serialize.VisitInTree | Source/RsapShared/Private/NavMesh/Serialize.cpp:127-128 | in a tree where every set child bit above layer 9 has its node, the walk from an existing node only reaches existing nodes |
| Serialize.VisitChildrenInTree | Source/RsapShared/Private/NavMesh/Serialize.cpp:122-130 | the same for the walks of children i to 7 |
| Serialize.VisitInTreeStep | Source/RsapShared/Private/NavMesh/Serialize.cpp:122-130 | a set child whose walk stays in the tree, followed by later children that do, keeps the whole walk in the tree |
| Serialize.Masks | Source/RsapShared/Private/NavMesh/Serialize.cpp:114 | the masks of a run of nodes has one byte per node |
| Serialize.MasksAt | Source/RsapShared/Private/NavMesh/Serialize.cpp:114 | byte j of the masks of a run is the child mask of node j |
| Serialize.MasksAppend | Source/RsapShared/Private/NavMesh/Serialize.cpp:122-130 | the masks of two runs in turn are the masks of each run in turn |
| Serialize.SaveIsPreorderMasks | Source/RsapShared/Private/NavMesh/Serialize.cpp:112-131 | the saved stream holds one byte per visited node, in preorder, and that byte is the node's child mask |
| Serialize.SaveChildrenArePreorderMasks | Source/RsapShared/Private/NavMesh/Serialize.cpp:122-130 | the child streams from child i on are the masks of the nodes their walks visit |
| Serialize.PreorderMasksStep | Source/RsapShared/Private/NavMesh/Serialize.cpp:122-130 | a set child's stream, followed by the later children's, is the masks of the combined walk |
| Serialize.FromMaskKeepsChildren | Source/RsapShared/Private/NavMesh/Serialize.cpp:163 | a node made from a loaded byte has that byte as its child mask, and its types and sound preset are zero |
| Serialize.LoadNodesKeeps | Source/RsapShared/Private/NavMesh/Serialize.cpp:159-175 | a load that succeeds holds the node it started from, keeps every node already there, and leaves a suffix of the archive |
| Serialize.LoadChildrenKeeps | Source/RsapShared/Private/NavMesh/Serialize.cpp:167-174 | the same for loading children i to 7 |
| Serialize.EmplaceMasksAppend | Source/RsapShared/Private/NavMesh/Serialize.cpp:167-174 | emplacing two runs of nodes in turn is emplacing their concatenation |
| Serialize.LoadSaveNodes | Source/RsapShared/Private/NavMesh/Serialize.cpp:112-131 | loading what SaveNodes wrote reads exactly that stream and emplaces the visited nodes, in the order visited, each made from its mask |
| Serialize.LoadLeafStep | Source/RsapShared/Private/NavMesh/Serialize.cpp:116-120 | a node of layer 9 or deeper is read back as one byte and one emplace |
| Serialize.LoadParentStep | Source/RsapShared/Private/NavMesh/Serialize.cpp:159-175 | a node above layer 9 reads back its byte and then its children's streams, given those load back |
| Serialize.LoadParentUnfold | Source/RsapShared/Private/NavMesh/Serialize.cpp:159-175 | loading a node above layer 9 emplaces it from the first byte and loads its children from the rest |
| Serialize.LoadSaveChildren | Source/RsapShared/Private/NavMesh/Serialize.cpp:167-174 | the child streams from child i on load back into the nodes their walks visit |
| Serialize.SaveChildStream | Source/RsapShared/Private/NavMesh/Serialize.cpp:122-130 | from a set child i on, the stream is child i's stream followed by the later children's |
| Serialize.VisitChildStream | Source/RsapShared/Private/NavMesh/Serialize.cpp:122-130 | from a set child i on, the walk is child i's walk followed by the later children's |
| Serialize.SkipChild | Source/RsapShared/Private/NavMesh/Serialize.cpp:124 | a clear child adds nothing to the stream or to the walk |
| Serialize.LoadChildStep | Source/RsapShared/Private/NavMesh/Serialize.cpp:167-174 | a set child whose stream loads back, followed by later children that do, loads back the whole |
| Serialize.LoadChildUnfold | Source/RsapShared/Private/NavMesh/Serialize.cpp:167-174 | loading from a set child i loads that child's stream, then the later children from what is left |
| Serialize.EmplaceMasksKeys | Source/RsapShared/Private/NavMesh/Serialize.cpp:163 | emplacing nodes made from their masks adds exactly their keys, and every node present is the one its mask makes |
| Serialize.LoadRecreatesVisitedNodes | Source/RsapShared/Private/NavMesh/Serialize.cpp:112-175 | in a tree where every set child has its node, loading a node's stream into an empty octree reads exactly that stream and re-creates exactly the visited keys, each as the node its mask makes |
| Serialize.SaveStaticOctree | Source/RsapShared/Private/NavMesh/Serialize.cpp:138-157 | the saved octree starts with the root's child mask |
| Serialize.LoadSaveStaticOctree | Source/RsapShared/Private/NavMesh/Serialize.cpp:138-186 | an octree saved and loaded into an empty octree reads exactly its stream, and gives back exactly the nodes reachable from the root through set child bits, each with its child mask and no types |
| MortonNode.LanesDetermineCode | Source/Game/Public/Math/Morton.h:16-22 | two codes with the same three coordinate lanes have the same 30 code bits |
| MortonNode.LaneXZero | Source/Game/Public/Math/Morton.h:224 | the X coordinate is zero exactly when no X bit is set |
| MortonNode.LaneYZero | Source/Game/Public/Math/Morton.h:225 | the Y coordinate is zero exactly when no Y bit is set |
| MortonNode.LaneZZero | Source/Game/Public/Math/Morton.h:226 | the Z coordinate is zero exactly when no Z bit is set |
| MortonNode.Encode | Source/Game/Public/Math/Morton.h:57-61 | a node code uses only the low 30 bits |
| MortonNode.Decode | Source/Game/Public/Math/Morton.h:64-72 | every decoded coordinate fits in ten bits |
| MortonNode.DecodeEncode | Source/Game/Public/Math/Morton.h:57-72 | decoding an encoded triple gives back each coordinate's low ten bits |
| MortonNode.EncodeDecode | Source/Game/Public/Math/Morton.h:57-72 | encoding a decoded code gives back its 30 code bits |
| MortonNode.AddX | Source/Game/Public/Math/Morton.h:147-151 | adding on X leaves the Y and Z bits alone and stays within the code bits |
| MortonNode.AddY | Source/Game/Public/Math/Morton.h:161-165 | adding on Y leaves the X and Z bits alone and stays within the code bits |
| MortonNode.AddZ | Source/Game/Public/Math/Morton.h:175-179 | adding on Z leaves the X and Y bits alone and stays within the code bits |
| MortonNode.SubtractX | Source/Game/Public/Math/Morton.h:154-158 | subtracting on X leaves the Y and Z bits alone and stays within the code bits |
| MortonNode.SubtractY | Source/Game/Public/Math/Morton.h:168-172 | subtracting on Y leaves the X and Z bits alone and stays within the code bits |
| MortonNode.SubtractZ | Source/Game/Public/Math/Morton.h:182-186 | subtracting on Z leaves the X and Y bits alone and stays within the code bits |
| MortonNode.Add | Source/Game/Public/Math/Morton.h:189-195 | adding on all axes stays within the code bits |
| MortonNode.Subtract | Source/Game/Public/Math/Morton.h:198-204 | subtracting on all axes stays within the code bits |
| MortonNode.AddXLane | Source/Game/Public/Math/Morton.h:147-151 | AddX adds the layer's node size to the X coordinate, modulo 1024 |
| MortonNode.AddYLane | Source/Game/Public/Math/Morton.h:161-165 | AddY adds the layer's node size to the Y coordinate, modulo 1024 |
| MortonNode.AddZLane | Source/Game/Public/Math/Morton.h:175-179 | AddZ adds the layer's node size to the Z coordinate, modulo 1024 |
| MortonNode.SubtractXLane | Source/Game/Public/Math/Morton.h:154-158 | SubtractX subtracts the layer's node size from the X coordinate, modulo 1024 |
| MortonNode.SubtractYLane | Source/Game/Public/Math/Morton.h:168-172 | SubtractY subtracts the layer's node size from the Y coordinate, modulo 1024 |
| MortonNode.SubtractZLane | Source/Game/Public/Math/Morton.h:182-186 | SubtractZ subtracts the layer's node size from the Z coordinate, modulo 1024 |
| MortonNode.AddXKeepsOtherLanes | Source/Game/Public/Math/Morton.h:147-151 | AddX leaves the Y and Z coordinates unchanged |
| MortonNode.AddYKeepsOtherLanes | Source/Game/Public/Math/Morton.h:161-165 | AddY leaves the X and Z coordinates unchanged |
| MortonNode.AddZKeepsOtherLanes | Source/Game/Public/Math/Morton.h:175-179 | AddZ leaves the X and Y coordinates unchanged |
| MortonNode.SubtractXKeepsOtherLanes | Source/Game/Public/Math/Morton.h:154-158 | SubtractX leaves the Y and Z coordinates unchanged |
| MortonNode.SubtractYKeepsOtherLanes | Source/Game/Public/Math/Morton.h:168-172 | SubtractY leaves the X and Z coordinates unchanged |
| MortonNode.SubtractZKeepsOtherLanes | Source/Game/Public/Math/Morton.h:182-186 | SubtractZ leaves the X and Y coordinates unchanged |
| MortonNode.SubtractAddX | Source/Game/Public/Math/Morton.h:147-158 | subtracting a layer's size on X undoes adding it, up to the two unused top bits |
| MortonNode.AddSubtractX | Source/Game/Public/Math/Morton.h:147-158 | adding a layer's size on X undoes subtracting it, up to the two unused top bits |
| MortonNode.SubtractAddY | Source/Game/Public/Math/Morton.h:161-172 | the same on Y |
| MortonNode.AddSubtractY | Source/Game/Public/Math/Morton.h:161-172 | the same on Y, the other way round |
| MortonNode.SubtractAddZ | Source/Game/Public/Math/Morton.h:175-186 | the same on Z |
| MortonNode.AddSubtractZ | Source/Game/Public/Math/Morton.h:175-186 | the same on Z, the other way round |
| MortonNode.AddLanes | Source/Game/Public/Math/Morton.h:189-195 | Add moves all three coordinates forward by the layer's node size, modulo 1024 |
| MortonNode.SubtractLanes | Source/Game/Public/Math/Morton.h:198-204 | Subtract moves all three coordinates back by the layer's node size, modulo 1024 |
| MortonNode.ParentMaskOfOffset | Source/Game/Public/Math/Morton.h:25-54 | the parent mask of a layer keeps exactly the bits at or above that layer's offset |
| MortonNode.ParentMaskAboveChild | Source/Game/Public/Math/Morton.h:25-54 | below the root, a parent layer's mask starts one octant, three bits, above its children's offset |
| MortonNode.OffsetIsPowerOfTwo | Source/Game/Public/Math/Morton.h:40-54 | every layer offset is a single bit |
| MortonNode.GetParent | Source/Game/Public/Math/Morton.h:75-78 | the parent code only clears bits of the code |
| MortonNode.GetParentIsNode | Source/Game/Public/Math/Morton.h:75-78 | the parent of a code is a node of the parent layer |
| MortonNode.GetParentOfNode | Source/Game/Public/Math/Morton.h:75-78 | a node of a layer is its own parent in that layer |
| MortonNode.GetParentIdempotent | Source/Game/Public/Math/Morton.h:75-78 | taking the parent twice in one layer is taking it once |
| MortonNode.GetParentFloorsX | Source/Game/Public/Math/Morton.h:75-78 | the parent's X coordinate is the node's rounded down to the parent layer's node size |
| MortonNode.GetParentFloorsY | Source/Game/Public/Math/Morton.h:75-78 | the same for Y |
| MortonNode.GetParentFloorsZ | Source/Game/Public/Math/Morton.h:75-78 | the same for Z |
| MortonNode.GetChildIndexAsWritten | Source/Game/Public/Math/Morton.h:81-88 | with the ten-entry shift table as written, a child index exists exactly for layers 0 to 9 |
| MortonNode.GetChildIndex | Source/Game/Public/Math/Morton.h:81-88 | the corrected GetChildIndex is an octant index below 8 for every node layer |
| MortonNode.GetChildIndexAgrees | Source/Game/Public/Math/Morton.h:81-88 | where the written shift table has an entry, the corrected GetChildIndex gives the same index |
| MortonNode.GetChildIndexAsWrittenMissesDeepestLayer | Source/Game/Public/Math/Morton.h:86 | a node of layer 10 at octant 1 has child index 1, but the written table has no shift for layer 10 |
| MortonNode.GetChildIsOr | Source/Game/Public/Math/Morton.h:90-104 | the child of a node is the parent code with the octant's offset bits set |
| MortonNode.GetChildIndexOfChild | Source/Game/Public/Math/Morton.h:81-104 | the child index of a parent's child i is i |
| MortonNode.GetParentOfChild | Source/Game/Public/Math/Morton.h:75-104 | the parent of a parent's child is that parent |
| MortonNode.GetChildIsNode | Source/Game/Public/Math/Morton.h:90-104 | a child of a node of layer cl - 1 is a node of layer cl |
| MortonNode.GetChildInjective | Source/Game/Public/Math/Morton.h:90-104 | distinct octants give distinct children |
| MortonNode.GetChildren | Source/Game/Public/Math/Morton.h:106-123 | GetChildren lists eight codes, the first being the parent's |
| MortonNode.GetChildrenAreChildren | Source/Game/Public/Math/Morton.h:90-123 | entry i of GetChildren is GetChild of octant i |
| MortonNode.MoveOpposite | Source/Game/Public/Math/Morton.h:126-138 | moving in a direction and back in the opposite one returns the code, up to the two unused top bits |
| MortonNode.MoveNoDirection | Source/Game/Public/Math/Morton.h:126-138 | a value that is not one of the six directions leaves the code as it is |
| MortonNode.MoveStaysInCode | Source/Game/Public/Math/Morton.h:126-138 | a move of a code stays within the 30 code bits |
| MortonNode.MoveByKeepsAlignment | Source/Game/Public/Math/Morton.h:126-186 | a move by a single-bit offset keeps the bits below the offset clear |
| MortonNode.MoveKeepsNode | Source/Game/Public/Math/Morton.h:126-138 | moving a node of a layer by that layer's size gives a node of the same layer |
| MortonNode.GetNeighbourIsNode | Source/Game/Public/Math/Morton.h:141-144 | a neighbour is a node of the layer asked for |
| MortonNode.GetNeighbourOfNode | Source/Game/Public/Math/Morton.h:141-144 | for a node of the layer asked for, GetNeighbour is the plain move |
| MortonNode.CopyXDecodes | Source/Game/Public/Math/Morton.h:207-210 | CopyX decodes to the X coordinate of the right side and the Y and Z of the left |
| MortonNode.CopyYDecodes | Source/Game/Public/Math/Morton.h:213-216 | CopyY decodes to the Y coordinate of the right side and the X and Z of the left |
| MortonNode.CopyZDecodes | Source/Game/Public/Math/Morton.h:219-222 | CopyZ decodes to the Z coordinate of the right side and the X and Y of the left |
| MortonNode.XEqualsZero | Source/Game/Public/Math/Morton.h:224 | true exactly when the decoded X coordinate is zero |
| MortonNode.YEqualsZero | Source/Game/Public/Math/Morton.h:225 | true exactly when the decoded Y coordinate is zero |
| MortonNode.ZEqualsZero | Source/Game/Public/Math/Morton.h:226 | true exactly when the decoded Z coordinate is zero |
| MortonNode.HasMovedIntoNewChunk | Source/Game/Public/Math/Morton.h:228-240 | a value that is not one of the six directions never leaves the chunk |
| MortonNode.NodeLaneXAligned | Source/Game/Public/Math/Morton.h:40-54 | every coordinate of a node of a layer is a multiple of that layer's node size |
| MortonNode.LeavesChunkPositiveX | Source/Game/Public/Math/Morton.h:228-240 | a node moved towards positive X leaves the chunk exactly when its coordinate plus its size passes 1023 |
| MortonNode.LeavesChunkNegativeX | Source/Game/Public/Math/Morton.h:228-240 | a node moved towards negative X leaves the chunk exactly when its coordinate is below its size |
| MortonNode.LeavesChunkPositiveY | Source/Game/Public/Math/Morton.h:228-240 | the same towards positive Y |
| MortonNode.LeavesChunkNegativeY | Source/Game/Public/Math/Morton.h:228-240 | the same towards negative Y |
| MortonNode.LeavesChunkPositiveZ | Source/Game/Public/Math/Morton.h:228-240 | the same towards positive Z |
| MortonNode.LeavesChunkNegativeZ | Source/Game/Public/Math/Morton.h:228-240 | the same towards negative Z |
| MortonChunk.LanesDetermineCode | Source/Game/Public/Math/Morton.h:247-253 | two chunk codes with the same three lanes have the same 63 code bits |
| MortonChunk.ChunkCoord | Source/Game/Public/Math/Morton.h:262-264 | every int32 world coordinate, offset and shifted, lands inside the 21-bit lane |
| MortonChunk.WorldOfChunkCoord | Source/Game/Public/Math/Morton.h:262-277 | a world coordinate taken to its lane and back comes out rounded down to the chunk grid |
| MortonChunk.WorldCoordAligned | Source/Game/Public/Math/Morton.h:275-277 | every decoded coordinate is a chunk corner |
| MortonChunk.ChunkOfWorldCoord | Source/Game/Public/Math/Morton.h:262-277 | a lane value that world coordinates reach survives the trip through its world coordinate |
| MortonChunk.Encode | Source/Game/Public/Math/Morton.h:256-267 | a chunk code uses only the low 63 bits |
| MortonChunk.DecodeEncode | Source/Game/Public/Math/Morton.h:256-278 | decoding an encoded location gives the corner of the chunk that holds it |
| MortonChunk.DecodeEncodeAligned | Source/Game/Public/Math/Morton.h:256-278 | for chunk-aligned coordinates the round trip is exact |
| MortonChunk.EncodeDecode | Source/Game/Public/Math/Morton.h:256-278 | a code whose lanes world locations reach is the encoding of its own decoding |
| MortonChunk.IncrementX | Source/Game/Public/Math/Morton.h:311-315 | IncrementX leaves the Y and Z bits alone and stays within the code bits |
| MortonChunk.DecrementX | Source/Game/Public/Math/Morton.h:318-322 | DecrementX leaves the Y and Z bits alone and stays within the code bits |
| MortonChunk.IncrementY | Source/Game/Public/Math/Morton.h:325-329 | IncrementY leaves the X and Z bits alone and stays within the code bits |
| MortonChunk.DecrementY | Source/Game/Public/Math/Morton.h:332-336 | DecrementY leaves the X and Z bits alone and stays within the code bits |
| MortonChunk.IncrementZ | Source/Game/Public/Math/Morton.h:339-343 | IncrementZ leaves the X and Y bits alone and stays within the code bits |
| MortonChunk.DecrementZ | Source/Game/Public/Math/Morton.h:346-350 | DecrementZ leaves the X and Y bits alone and stays within the code bits |
| MortonChunk.DecrementIncrementX | Source/Game/Public/Math/Morton.h:311-322 | DecrementX undoes IncrementX, up to the unused top bit |
| MortonChunk.IncrementDecrementX | Source/Game/Public/Math/Morton.h:311-322 | IncrementX undoes DecrementX, up to the unused top bit |
| MortonChunk.DecrementIncrementY | Source/Game/Public/Math/Morton.h:325-336 | the same on Y |
| MortonChunk.IncrementDecrementY | Source/Game/Public/Math/Morton.h:325-336 | the same on Y, the other way round |
| MortonChunk.DecrementIncrementZ | Source/Game/Public/Math/Morton.h:339-350 | the same on Z |
| MortonChunk.IncrementDecrementZ | Source/Game/Public/Math/Morton.h:339-350 | the same on Z, the other way round |
| MortonChunk.IncrementXLane | Source/Game/Public/Math/Morton.h:311-315 | IncrementX adds one to the X lane, modulo 2^21 |
| MortonChunk.IncrementYLane | Source/Game/Public/Math/Morton.h:325-329 | IncrementY adds one to the Y lane, modulo 2^21 |
| MortonChunk.IncrementZLane | Source/Game/Public/Math/Morton.h:339-343 | IncrementZ adds one to the Z lane, modulo 2^21 |
| MortonChunk.DecrementXLane | Source/Game/Public/Math/Morton.h:318-322 | DecrementX subtracts one from the X lane, modulo 2^21 |
| MortonChunk.DecrementYLane | Source/Game/Public/Math/Morton.h:332-336 | DecrementY subtracts one from the Y lane, modulo 2^21 |
| MortonChunk.DecrementZLane | Source/Game/Public/Math/Morton.h:346-350 | DecrementZ subtracts one from the Z lane, modulo 2^21 |
| MortonChunk.WorldCoordStep | Source/Game/Public/Math/Morton.h:275-277 | one lane step is one chunk size in world space |
| MortonChunk.IncrementXMovesOneChunk | Source/Game/Public/Math/Morton.h:311-315 | below the top lane, IncrementX moves the decoded X one chunk size up and keeps Y and Z |
| MortonChunk.DecrementXMovesOneChunk | Source/Game/Public/Math/Morton.h:318-322 | above lane zero, DecrementX moves the decoded X one chunk size down and keeps Y and Z |
| MortonChunk.IncrementYMovesOneChunk | Source/Game/Public/Math/Morton.h:325-329 | the same for IncrementY on Y |
| MortonChunk.DecrementYMovesOneChunk | Source/Game/Public/Math/Morton.h:332-336 | the same for DecrementY on Y |
| MortonChunk.IncrementZMovesOneChunk | Source/Game/Public/Math/Morton.h:339-343 | the same for IncrementZ on Z |
| MortonChunk.DecrementZMovesOneChunk | Source/Game/Public/Math/Morton.h:346-350 | the same for DecrementZ on Z |
| MortonChunk.GetNeighbourIsMove | Source/Game/Public/Math/Morton.h:281-308 | GetNeighbour and Move agree on every code and direction |
| MortonChunk.MoveNoDirection | Source/Game/Public/Math/Morton.h:281-293 | a value that is not one of the six directions leaves the code unchanged |
| MortonChunk.MoveOpposite | Source/Game/Public/Math/Morton.h:281-293 | moving one chunk and back in the opposite direction returns the code, up to the unused top bit |
| MortonChunk.CopyXDecodes | Source/Game/Public/Math/Morton.h:353-356 | CopyX decodes to the right side's X and the left side's Y and Z |
| MortonChunk.CopyYDecodes | Source/Game/Public/Math/Morton.h:359-362 | CopyY decodes to the right side's Y and the left side's X and Z |
| MortonChunk.CopyZDecodes | Source/Game/Public/Math/Morton.h:365-368 | CopyZ decodes to the right side's Z and the left side's X and Y |
| Aabb.IsZeroIsEmptyBounds | Source/Game/Public/Rsap/Math/Bounds.h:73-76 | operator! holds exactly for the empty bounds |
| Aabb.EmptyBoundsHasNoVolume | Source/Game/Public/Rsap/Math/Bounds.h:73-76 | the empty bounds convert to false |
| Aabb.Deepen | Source/Game/Public/Rsap/Math/Bounds.h:47-49 | an axis whose Max equals Min gets one unit of depth; any other axis keeps its Max |
| Aabb.Initialize | Source/Game/Public/Rsap/Math/Bounds.h:34-50 | Initialize keeps Min, gives every axis some depth, and keeps each Max that already differs from Min |
| Aabb.ChunkBoxIsOneChunk | Source/Game/Public/Rsap/Math/Bounds.h:66-70 | a chunk box is one chunk size wide on every axis |
| Aabb.FromChunkMortonOfCorner | Source/Game/Public/Rsap/Math/Bounds.h:66-70 | the box of an encoded chunk corner is the chunk box at that corner |
| Aabb.FloorViaIsMask | Source/Game/Public/Rsap/Math/Bounds.h:125 | rounding Min down through the sign offset is the plain mask |
| Aabb.CeilViaIsMask | Source/Game/Public/Rsap/Math/Bounds.h:125-131 | moving the rounded Max up one node only when it lies below Max is the usual round-up |
| Aabb.RoundToLayerFloorsMin | Source/Game/Public/Rsap/Math/Bounds.h:123-133 | RoundToLayer moves Min down onto the layer's node grid, by less than one node |
| Aabb.RoundToLayerCeilsMax | Source/Game/Public/Rsap/Math/Bounds.h:123-133 | RoundToLayer moves Max up onto the layer's node grid, by less than one node, unless that overflows |
| Aabb.RoundToLayerContains | Source/Game/Public/Rsap/Math/Bounds.h:123-133 | the rounded bounds contain the original when rounding Max up does not overflow |
| Aabb.RoundToChunkFloors | Source/Game/Public/Rsap/Math/Bounds.h:181-189 | RoundToChunk moves both corners down onto the chunk grid, by less than one chunk |
| Aabb.ChunkMaskFloors | Source/Game/Public/Rsap/Math/Bounds.h:183 | the chunk mask rounds one coordinate down to a chunk multiple |
| Aabb.Clamp | Source/Game/Public/Rsap/Math/Bounds.h:137-148 | the clamped bounds lie inside both boxes, and every box inside both lies inside them: the clamp is the largest such box |
| Aabb.ClampToContaining | Source/Game/Public/Rsap/Math/Bounds.h:137-148 | clamping to bounds that contain the box changes nothing |
| Aabb.ClampToSelf | Source/Game/Public/Rsap/Math/Bounds.h:137-148 | clamping a box to itself changes nothing |
| Aabb.OverlapIsSymmetric | Source/Game/Public/Rsap/Math/Bounds.h:238-243 | HasAABBOverlap does not depend on which box asks |
| Aabb.TouchingFacesDoNotOverlap | Source/Game/Public/Rsap/Math/Bounds.h:238-243 | boxes that only meet at a face do not overlap |
| Aabb.Intersection | Source/Game/Public/Rsap/Math/Bounds.h:246-267 | the result is NoOverlap exactly when the boxes do not overlap |
| Aabb.InsideIsContained | Source/Game/Public/Rsap/Math/Bounds.h:246-267 | overlapping boxes where one lies inside the other are classified Contained |
| Aabb.ContainedMeansAxisContainment | Source/Game/Public/Rsap/Math/Bounds.h:246-267 | Contained means that on each axis one extent contains the other, not necessarily the same box on every axis |
| Aabb.IntersectionIsSymmetric | Source/Game/Public/Rsap/Math/Bounds.h:246-267 | the classification does not depend on which box asks |
| Aabb.Present | Source/Game/Public/Rsap/Math/Bounds.h:155-177 | the pieces kept are the filled slots, in order |
| Aabb.Cut | Source/Game/Public/Rsap/Math/Bounds.h:151-178 | a cut of a box it does not overlap is that box alone; otherwise at most six pieces |
| Aabb.PresentKeepsApart | Source/Game/Public/Rsap/Math/Bounds.h:155-177 | dropping the empty slots keeps the pieces pairwise disjoint |
| Aabb.CutPiecesInsideOther | Source/Game/Public/Rsap/Math/Bounds.h:151-178 | every piece of a cut lies inside the box being cut |
| Aabb.CutPiecesMissReceiver | Source/Game/Public/Rsap/Math/Bounds.h:151-178 | no piece of a cut overlaps the box cutting it |
| Aabb.CutPiecesOutside | Source/Game/Public/Rsap/Math/Bounds.h:151-178 | every piece lies inside the box being cut and outside the box cutting it |
| Aabb.CutPiecesHaveVolume | Source/Game/Public/Rsap/Math/Bounds.h:151-178 | when both boxes have volume, every piece of the cut has volume |
| Aabb.CutPiecesDisjoint | Source/Game/Public/Rsap/Math/Bounds.h:151-178 | for a cutting box whose Max is nowhere below its Min, the pieces are pairwise disjoint |
| Aabb.CutOfContained | Source/Game/Public/Rsap/Math/Bounds.h:151-178 | a cutting box that contains the other box leaves nothing |
| Aabb.SeparatedOnX | Source/Game/Public/Rsap/Math/Bounds.h:238-243 | boxes apart along X do not overlap |
| Aabb.SeparatedOnY | Source/Game/Public/Rsap/Math/Bounds.h:238-243 | boxes apart along Y do not overlap |
| Aabb.SeparatedOnZ | Source/Game/Public/Rsap/Math/Bounds.h:238-243 | boxes apart along Z do not overlap |
| Aabb.ClampedExtent | Source/Game/Public/Rsap/Math/Bounds.h:137-148 | two overlapping extents with length clamp to an extent with length |
| Aabb.Corners | Source/Game/Public/Rsap/Math/Bounds.h:222-224 | a chunk loop visits nothing exactly when its start is past its end, and starts at its start |
| Aabb.CornersWithin | Source/Game/Public/Rsap/Math/Bounds.h:222-224 | a chunk loop never visits a value past its end |
| Aabb.CornersConsecutive | Source/Game/Public/Rsap/Math/Bounds.h:222-224 | consecutive values of a chunk loop are one chunk apart |
| Aabb.CornersAligned | Source/Game/Public/Rsap/Math/Bounds.h:222-224 | a chunk loop that starts on a chunk corner only visits chunk corners |
| Aabb.GridMembers | Source/Game/Public/Rsap/Math/Bounds.h:222-224 | the three nested loops visit exactly the corners whose coordinates each loop visits |
| Aabb.StoreKeepsPieces | Source/Game/Public/Rsap/Math/Bounds.h:225-229 | one loop body keeps every stored entry a clamped piece with volume, and drops no key |
| Aabb.VisitKeepsPieces | Source/Game/Public/Rsap/Math/Bounds.h:222-232 | all loop bodies keep every stored entry a clamped piece with volume |
| Aabb.VisitStoresSolidPieces | Source/Game/Public/Rsap/Math/Bounds.h:222-232 | every visited chunk whose piece has volume ends up as a key |
| Aabb.RoundToChunkAligned | Source/Game/Public/Rsap/Math/Bounds.h:181-183 | the rounded Min lies on chunk corners |
| Aabb.ChunkCornersAligned | Source/Game/Public/Rsap/Math/Bounds.h:220-226 | every corner the loops visit is a chunk corner |
| Aabb.SplitPerChunk | Source/Game/Public/Rsap/Math/Bounds.h:217-235 | every entry is the clamp of the box to the chunk its key names and has volume, and every corner the chunk loops visit whose clamp has volume is a key |
| Vectors.SumIsAddition | Source/RsapShared/Public/Rsap/Math/Vectors.h:292-295 | a component of a vector sum is the 32-bit wrapping sum |
| Vectors.OffsetOfSum | Source/RsapShared/Public/Rsap/Math/Vectors.h:292-300 | subtracting a vector undoes adding it, wrap-around included |
| Vectors.AddComponents | Source/RsapShared/Public/Rsap/Math/Vectors.h:292-295 | a vector sum adds each component separately |
| Vectors.FloorCoordIsMask | Source/RsapShared/Public/Rsap/Math/Vectors.h:170-177 | both branches of a floor, with and without the sign offset detour, compute the same mask |
| Vectors.CeilCoordIsMask | Source/RsapShared/Public/Rsap/Math/Vectors.h:180-188 | both branches of a ceiling compute the same round-up mask |
| Vectors.FloorCoordFloors | Source/RsapShared/Public/Rsap/Math/Vectors.h:170-177 | a floor to a power-of-two size lands on a multiple of it, not above the value and less than one size below |
| Vectors.CeilCoordCeils | Source/RsapShared/Public/Rsap/Math/Vectors.h:180-188 | a ceiling to a power-of-two size lands on a multiple of it, not below the value and less than one size above, when the sum does not overflow |
| Vectors.AlignedIsFixed | Source/RsapShared/Public/Rsap/Math/Vectors.h:170-188 | a value already on the grid is its own floor and its own ceiling |
| Vectors.SizeIsGranule | Source/RsapShared/Public/Rsap/Math/Vectors.h:170-177 | every layer's node size is a power of two up to the chunk size, and its node mask clears the bits below it |
| Vectors.FloorToLayerFloors | Source/RsapShared/Public/Rsap/Math/Vectors.h:170-177 | FloorToLayer rounds every component down to a multiple of the layer's node size, by less than that size |
| Vectors.CeilToLayerCeils | Source/RsapShared/Public/Rsap/Math/Vectors.h:180-188 | CeilToLayer rounds every component up to a multiple of the layer's node size, by less than that size, unless that overflows |
| Vectors.FloorToChunkFloors | Source/RsapShared/Public/Rsap/Math/Vectors.h:191-197 | FloorToChunk rounds every component down to a chunk multiple, by less than a chunk |
| Vectors.CeilToChunkCeils | Source/RsapShared/Public/Rsap/Math/Vectors.h:200-208 | CeilToChunk rounds every component up to a chunk multiple, by less than a chunk, unless that overflows |
| Vectors.FloorToLayerIdempotent | Source/RsapShared/Public/Rsap/Math/Vectors.h:170-188 | a floored vector floors and ceils to itself |
| Vectors.LocalOffsetInChunk | Source/RsapShared/Public/Rsap/Math/Vectors.h:160-168 | a ten-bit lane value in world units stays inside the chunk and on the grid of the smallest node |
| Vectors.FromLanesComponents | Source/RsapShared/Public/Rsap/Math/Vectors.h:160-168 | each component of a node location lies its lane's world offset past the chunk corner |
| Vectors.FromNodeMortonInChunk | Source/RsapShared/Public/Rsap/Math/Vectors.h:160-168 | a node's location lies inside its chunk, on the grid of the smallest node |
| Vectors.FromNodeMortonOfEncode | Source/RsapShared/Public/Rsap/Math/Vectors.h:56-61 | the location of an encoded node is the chunk corner plus its local coordinates in world units |
| Vectors.SizeOfLaneStep | Source/RsapShared/Public/Rsap/Math/Vectors.h:160-168 | a layer's node size is its lane step in world units |
| Vectors.FromNodeMortonOfNode | Source/RsapShared/Public/Rsap/Math/Vectors.h:160-168 | a node of a layer lies on that layer's world grid, relative to its chunk corner |
| MbMath.KeyField32 | Game/Plugins/MBNavigation/Source/MBNavigation/Public/MBNavigation/Types/Math.h:270-274 | a key field fits in 21 bits, and its bit 20 is set exactly when the coordinate is negative |
| MbMath.FieldRoundTripPositive | Game/Plugins/MBNavigation/Source/MBNavigation/Public/MBNavigation/Types/Math.h:270-286 | a non-negative key field survives decoding and encoding again |
| MbMath.FieldRoundTripNegative | Game/Plugins/MBNavigation/Source/MBNavigation/Public/MBNavigation/Types/Math.h:270-286 | a negative key field survives decoding and encoding again |
| MbMath.CoordinateRoundTripPositive | Game/Plugins/MBNavigation/Source/MBNavigation/Public/MBNavigation/Types/Math.h:270-286 | a non-negative coordinate on the key grid below 2^30 survives encoding and decoding |
| MbMath.CoordinateRoundTripNegative | Game/Plugins/MBNavigation/Source/MBNavigation/Public/MBNavigation/Types/Math.h:270-286 | a negative coordinate on the key grid at or above -2^30 survives encoding and decoding |
| MbMath.ToKeyFields | Game/Plugins/MBNavigation/Source/MBNavigation/Public/MBNavigation/Types/Math.h:269-276 | ToKey stores X, Y and Z in disjoint 21-bit fields, exactly where FromKey reads them, and leaves bit 63 clear |
| MbMath.DecodeOfKeyField | Game/Plugins/MBNavigation/Source/MBNavigation/Public/MBNavigation/Types/Math.h:270-286 | a coordinate the key keeps exactly decodes to itself |
| MbMath.KeyFieldOfDecode | Game/Plugins/MBNavigation/Source/MBNavigation/Public/MBNavigation/Types/Math.h:270-286 | every 21-bit field encodes back to itself after decoding |
| MbMath.FromKeyOfToKey | Game/Plugins/MBNavigation/Source/MBNavigation/Public/MBNavigation/Types/Math.h:269-292 | a location whose coordinates the key keeps exactly comes back from its key |
| MbMath.ToKeyOfFromKey | Game/Plugins/MBNavigation/Source/MBNavigation/Public/MBNavigation/Types/Math.h:269-292 | every key with bit 63 clear is the key of the location it decodes to |
| MbMath.UnpackPack | Game/Plugins/MBNavigation/Source/MBNavigation/Public/MBNavigation/Types/Math.h:275-292 | a key reassembled from its three fields is the key without bit 63 |
| MbMath.GetIntersection | Game/Plugins/MBNavigation/Source/MBNavigation/Public/MBNavigation/Types/Math.h:557-568 | the intersection lies inside both bounds, every box inside both lies inside it, and it keeps the receiver's validity |
| MbMath.IntersectionWithContaining | Game/Plugins/MBNavigation/Source/MBNavigation/Public/MBNavigation/Types/Math.h:557-568 | intersecting with bounds that contain the receiver gives the receiver back |
| MbMath.MarkValid | Game/Plugins/MBNavigation/Source/MBNavigation/Public/MBNavigation/Types/Math.h:580-596 | the pieces of a cut are made valid bounds over the same boxes |
| MbMath.Cut | Game/Plugins/MBNavigation/Source/MBNavigation/Public/MBNavigation/Types/Math.h:572-599 | a cut gives at most six pieces |
| MbMath.CutIsWholeExactlyWhenApart | Game/Plugins/MBNavigation/Source/MBNavigation/Public/MBNavigation/Types/Math.h:572-599 | the cut gives Other back unchanged exactly when one bounds is invalid or they do not overlap |
| MbMath.CutPiecesOutside | Game/Plugins/MBNavigation/Source/MBNavigation/Public/MBNavigation/Types/Math.h:572-599 | every piece of a real cut is valid, lies inside Other and does not overlap the receiver |
| MbMath.CutPiecesDisjoint | Game/Plugins/MBNavigation/Source/MBNavigation/Public/MBNavigation/Types/Math.h:572-599 | the pieces of a cut by a receiver with Max nowhere below Min do not overlap one another |
| MbMath.EmptyBoundsAreIgnored | Game/Plugins/MBNavigation/Source/MBNavigation/Public/MBNavigation/Types/Math.h:458-462 | empty bounds give an invalid intersection and cut nothing away |
| MbMath.MinRoundTrip | Game/Plugins/MBNavigation/Source/MBNavigation/Public/MBNavigation/Types/Math.h:688-701 | a lower face inside the chunk survives the trip to morton space and back |
| MbMath.MaxRoundTrip | Game/Plugins/MBNavigation/Source/MBNavigation/Public/MBNavigation/Types/Math.h:688-701 | an upper face inside the chunk survives the trip to morton space and back |
| MbMath.LocalMinRoundTrip | Game/Plugins/MBNavigation/Source/MBNavigation/Public/MBNavigation/Types/Math.h:688-701 | a morton-space lower face survives the trip to global space and back |
| MbMath.LocalMaxRoundTrip | Game/Plugins/MBNavigation/Source/MBNavigation/Public/MBNavigation/Types/Math.h:688-701 | a morton-space upper face survives the trip to global space and back |
| MbMath.GlobalRoundTrip | Game/Plugins/MBNavigation/Source/MBNavigation/Public/MBNavigation/Types/Math.h:688-701 | bounds inside a chunk survive the trip to morton space and back |
| MbMath.MortonRoundTrip | Game/Plugins/MBNavigation/Source/MBNavigation/Public/MBNavigation/Types/Math.h:688-701 | every morton-space bounds survives the trip to global space and back |
| MbMath.MortonLayerTable | Game/Plugins/MBNavigation/Source/MBNavigation/Public/MBNavigation/Types/Math.h:540-546 | each layer mask clears exactly the cell offsets within that layer's nodes, and a node of layer l spans 1024 >> l cells |
| MbMath.RoundDownFirst | Game/Plugins/MBNavigation/Source/MBNavigation/Public/MBNavigation/Types/Math.h:548 | a rounded Min coordinate is the first cell of the node holding it |
| MbMath.RoundUpLast | Game/Plugins/MBNavigation/Source/MBNavigation/Public/MBNavigation/Types/Math.h:548-552 | a rounded Max coordinate is the last cell of the node holding it |
| MbMath.RoundToLayerFloorsMin | Game/Plugins/MBNavigation/Source/MBNavigation/Public/MBNavigation/Types/Math.h:536-554 | morton-space RoundToLayer moves every Min coordinate to the first cell of its node and keeps the validity |
| MbMath.RoundToLayerCeilsMax | Game/Plugins/MBNavigation/Source/MBNavigation/Public/MBNavigation/Types/Math.h:536-554 | morton-space RoundToLayer moves every Max coordinate to the last cell of its node |
| Interleave.GatherSpread10 | Source/Game/Public/Math/Morton.h:57-72 | gathering a spread ten-bit value gives back its low ten bits |
| Interleave.SpreadGather10 | Source/Game/Public/Math/Morton.h:57-72 | spreading a gathered lane restores exactly the lane's bits |
| Interleave.GatherSpread21 | Source/Game/Public/Math/Morton.h:256-278 | gathering a spread 21-bit value gives back its low 21 bits |
| Interleave.Interleave32 | Source/Game/Public/Math/Morton.h:57-61 | a 32-bit code uses only the low 30 bits |
| Interleave.Interleave32Lanes | Source/Game/Public/Math/Morton.h:57-72 | each lane of a 32-bit code reads back its coordinate's low ten bits |
| Interleave.Interleave64 | Source/Game/Public/Math/Morton.h:256-267 | a 64-bit code uses only the low 63 bits |
| Interleave.Interleave64Lanes | Source/Game/Public/Math/Morton.h:256-278 | each lane of a 64-bit code reads back its coordinate's low 21 bits |
| Interleave.Interleave32OfLanes | Source/Game/Public/Math/Morton.h:57-72 | a 32-bit code is determined by its three lanes, bits 30 and 31 aside |
| Interleave.Interleave64OfLanes | Source/Game/Public/Math/Morton.h:256-278 | a 64-bit code is determined by its three lanes, bit 63 aside |
| Signed.Max | Game/Plugins/MBNavigation/Source/MBNavigation/Public/MBNavigation/Types/Math.h:560-562 | FMath::Max is at least both arguments in the signed order, and is one of them |
| Signed.Min | Game/Plugins/MBNavigation/Source/MBNavigation/Public/MBNavigation/Types/Math.h:564-566 | FMath::Min is at most both arguments in the signed order, and is one of them |
| Signed.Asr | Game/Plugins/MBNavigation/Source/MBNavigation/Public/MBNavigation/Types/Math.h:271 | a right shift of an int32 keeps its sign |
| Signed.SignExtendShape | Source/Game/Public/Math/Morton.h:262-264 | a sign-extended int32 truncates back to itself and is all zeros or all ones from bit 31 up |
| Signed.SignExtendOfSigned | Source/Game/Public/Math/Morton.h:262-264 | a 64-bit value that already is a sign extension is unchanged by truncating and extending again |

## Left out

- Physics overlap queries (`HasOverlap`, `HasComponentOverlap`, `FRsapOverlap`): they call the engine's collision system, which is not part of this model.
- The rasterize and re-rasterize recursions of Generator.cpp and the update passes of Updater.cpp: they are driven by those overlap queries. Only their integer decisions are modelled: the starting layer, the children to re-rasterize and the staging.
- Threading, background tasks and the editor's tick and update events: this is concurrency.
- `FArchive` byte I/O: a stream is a sequence of typed fields (layer) or of bytes (static octree), and an archive that runs out reads as `None`.
- File paths, chunk GUIDs, `SerializeChunk` and the chunk and navmesh `operator<<` (Serialize.cpp:188-348): these are I/O.
- The leaf-layer and actor-entries `operator<<` (Serialize.cpp:44-110): they write plain containers with no logic beyond the layer stream's.
- Serialize.SaveStaticOctree and Serialize.LoadStaticOctree take the child-code function (`FMortonUtils::Node::GetChildMCFromMask`) as a parameter. Its definition is not part of this model.
- Serialize.SaveNodes: `GetNode` on a key the octree does not hold reads as a childless node. The source only calls it on children whose bit is set.
- Float conversions (`Initialize` from `FVector`, `ToVector`, `RoundToInt`) and `Draw`: they use floating point or the renderer.
- libmorton's encode and decode are foreign code. `Interleave` implements the magic-bits interleaving they compute.
- Aabb.SplitPerChunk requires every rounded Max coordinate to lie below the topmost chunk. At the top chunk the source's loop counter overflows `int32`, which is undefined behaviour.
- Aabb.RoundToLayerCeilsMax: it states the ceiling only where it fits in `int32`. Above that, the source's rounding wraps.
- Aabb.Clamp: it states that the clamp is the largest box inside both boxes, and Clamp(b, b) == b. It does not state that the clamp has volume exactly when the boxes overlap.
- Aabb.SplitPerChunk: coverage is stated only for the corners the chunk loops visit, not for every chunk the box overlaps. It does not state that the loops visit every chunk-aligned corner between the rounded Min and Max. That needs the signed order on `bv32` coordinates to be transitive and to step from one aligned value to the next, for the reason given under Aabb.Cut.
- Aabb.Cut: it states that the pieces lie inside Other, miss the receiver, are pairwise disjoint and have volume. It does not state that together they cover the part of Other outside the receiver. That proof needs transitivity of the signed order on `bv32` coordinates, which the solver does not reach even for three plain `bv32` values.
- MbMath.Cut: it states at most six pieces, Other unchanged exactly when a bounds is invalid or they do not overlap, and pieces that are valid, inside Other, clear of the receiver and pairwise disjoint. It does not state that the pieces cover the part of Other outside the receiver, "the remaining parts", for the reason given under Aabb.Cut.
- Aabb.RoundToLayerContains: it does not state that rounding preserves volume.
- RoundToLayer in Bounds.h calls a vector `RoundToLayer` that the RsapShared Vectors.h does not declare. The model uses the Source/Game definition, which floors both corners with the layer's size mask.
- `FRsapRelations` (Source/RsapShared) is not part of this model. The node records use the plugin's `FNodeRelations` layout.
- Generator.ChildrenToRasterize: it states which children survive each side's clear mask. It does not state what the deeper recursion then does with the updated edges.

## Findings

| source | as written | input that shows it | evidently intended | confidence | as-written member | corrected member |
|---|---|---|---|---|---|---|
| Source/Game/Public/Rsap/Definitions.h:91-97 | `Clear::Negative::Z` is 0b00001111 and `Clear::Positive::Z` is 0b11110000. These keep the children on the negative Z side, where the X and Y masks keep the children away from that side. Generator.cpp:67-71 uses them as it uses the X and Y masks. | EdgesToCheck = negative Z, no gap in the skip masks, layer 0: as written it re-rasterizes children 0-3; corrected it re-rasterizes 4-7 | the two Z masks exchanged, 0b11110000 for negative Z | high, not executed | Generator.ZClearsSwappedAsWritten | Generator.ChildrenToRasterize |
| Source/Game/Public/Rsap/NavMesh/Processing/Generator.h:45-46 | `FLayerSkipMasks::Masks[2]` is 0b0001000000, the same as `Masks[3]` | EdgesToCheck = negative X, X_Negative = 0b0010000000, layer 2: as written children 1, 3, 5, 7 are kept; corrected, all eight are kept | `Masks[2]` = 0b0010000000, one bit per layer | high, not executed | Generator.LayerTwoMaskAsWritten | Generator.LayerMasksAreLayerBits |
| Source/Game/Public/Rsap/NavMesh/Processing/Generator.h:49-50 | `ClearParentMasks[4..8]` are 0b0000001111 down to 0, which skips 0b0000011111. Each of these entries is the next layer's. | EdgesToCheck = negative X, X_Negative = 0b0000010000, layer 4: as written the X edge is dropped; corrected it is kept | `ClearParentMasks[l]` = `Masks[l]` - 1 for every layer | medium, not executed | Generator.ParentMaskAsWritten | Generator.LayerMasksAreLayerBits |
| Source/Game/Public/Math/Morton.h:86 | `GetChildIndex` reads `Shifts[LayerIdx]` from a ten-entry table, so layer 10 (the deepest node layer) reads past its end | child 1 of node 0 at layer 10: its index is 1, but the written table has no shift for layer 10 | an eleventh entry, shift 0 for layer 10 | medium, not executed | MortonNode.GetChildIndexAsWrittenMissesDeepestLayer | MortonNode.GetChildIndexOfChild |

=== FILE: bounds.dfy ===
/**
 * Integer axis-aligned boxes (`FRsapBounds`): a Min and a Max corner in world
 * units. All comparisons are signed `int32` comparisons; overlap is strict, so
 * boxes that only share a face do not overlap.
 */
module Aabb {
  import opened Signed
  import opened Definitions
  import opened Vectors
  import MortonChunk
  import opened Wrappers

  datatype Bounds = Bounds(min: Vector32, max: Vector32)

  /** A box with no dimensions at the origin (the default-constructed bounds). */
  const EmptyBounds: Bounds := Bounds(Vector32(0, 0, 0), Vector32(0, 0, 0))

  /** `operator!`: every coordinate of both corners is zero. */
  predicate IsZero(b: Bounds)
  {
    b.max.x == 0 && b.max.y == 0 && b.max.z == 0 && b.min.x == 0 && b.min.y == 0 && b.min.z == 0
  }

  /** `operator bool`: Max lies strictly above Min on all three axes. */
  predicate HasVolume(b: Bounds)
  {
    Lt(b.min.x, b.max.x) && Lt(b.min.y, b.max.y) && Lt(b.min.z, b.max.z)
  }

  /** `a` lies inside `b` on every axis (faces may touch). */
  predicate Inside(a: Bounds, b: Bounds)
  {
    Le(b.min.x, a.min.x) && Le(a.max.x, b.max.x) &&
    Le(b.min.y, a.min.y) && Le(a.max.y, b.max.y) &&
    Le(b.min.z, a.min.z) && Le(a.max.z, b.max.z)
  }

  lemma IsZeroIsEmptyBounds(b: Bounds)
    ensures IsZero(b) <==> b == EmptyBounds
  {
  }

  lemma EmptyBoundsHasNoVolume()
    ensures !HasVolume(EmptyBounds)
  {
  }

  // ---------------------------------------------------------------------------
  // Construction

  /** Moves `hi` one unit up when it equals `lo`, so that the axis has some depth. */
  function Deepen(lo: Int32, hi: Int32): (r: Int32)
    ensures r != lo
    ensures hi != lo ==> r == hi
  {
    if hi == lo then
      assert Sum(hi, 1) == hi + 1;
      Sum(hi, 1)
    else hi
  }

  /**
   * `Initialize` on the corners already rounded to integers: Min is kept, and
   * each axis of Max that equals Min is moved one unit up.
   */
  function Initialize(lo: Vector32, hi: Vector32): (r: Bounds)
    ensures r.min == lo
    ensures r.max.x != r.min.x && r.max.y != r.min.y && r.max.z != r.min.z
    ensures hi.x != lo.x ==> r.max.x == hi.x
    ensures hi.y != lo.y ==> r.max.y == hi.y
    ensures hi.z != lo.z ==> r.max.z == hi.z
  {
    Bounds(lo, Vector32(Deepen(lo.x, hi.x), Deepen(lo.y, hi.y), Deepen(lo.z, hi.z)))
  }

  /** The box of the chunk with code `c`: from its corner to the corner plus the chunk size. */
  function FromChunkMorton(c: MortonChunk.ChunkMorton): (r: Bounds)
  {
    var corner := Vectors.FromChunkMorton(c);
    Bounds(corner, AddScalar(corner, ChunkSize))
  }

  /** The box of the chunk whose corner is `corner`. */
  function ChunkBox(corner: Vector32): (r: Bounds)
  {
    Bounds(corner, AddScalar(corner, ChunkSize))
  }

  lemma AddScalarComponents(a: Vector32, k: Int32)
    ensures AddScalar(a, k).x == Sum(a.x, k) && AddScalar(a, k).y == Sum(a.y, k) && AddScalar(a, k).z == Sum(a.z, k)
  {
  }

  /** A chunk box is one chunk wide on every axis. */
  lemma ChunkBoxIsOneChunk(corner: Vector32)
    ensures Offset(ChunkBox(corner).max.x, ChunkBox(corner).min.x) == ChunkSize
    ensures Offset(ChunkBox(corner).max.y, ChunkBox(corner).min.y) == ChunkSize
    ensures Offset(ChunkBox(corner).max.z, ChunkBox(corner).min.z) == ChunkSize
  {
    AddScalarComponents(corner, ChunkSize);
    OffsetOfSum(corner.x, ChunkSize);
    OffsetOfSum(corner.y, ChunkSize);
    OffsetOfSum(corner.z, ChunkSize);
  }

  /** The box of an encoded chunk-aligned location is the chunk box at that location. */
  lemma FromChunkMortonOfCorner(corner: Vector32)
    requires corner.x & 0x1FFF == 0 && corner.y & 0x1FFF == 0 && corner.z & 0x1FFF == 0
    ensures FromChunkMorton(MortonChunk.Encode(corner.x, corner.y, corner.z)) == ChunkBox(corner)
  {
    MortonChunk.DecodeEncodeAligned(corner.x, corner.y, corner.z);
  }

  // ---------------------------------------------------------------------------
  // Rounding

  /** Rounds one coordinate down with mask `m`, by way of the SignOffset detour. */
  function FloorVia(a: Int32, m: bv32): (r: Int32)
  {
    ((a + SignOffset32) & m) - SignOffset32
  }

  /** Rounds a Max coordinate: the floor, moved up by `s` when the floor lies below the coordinate. */
  function CeilVia(a: Int32, s: bv32, m: bv32): (r: Int32)
  {
    var f := FloorVia(a, m);
    if Lt(f, a) then Sum(f, s) else f
  }

  /** Rounds Min down and Max up to the node grid of layer `l`. */
  function RoundToLayer(b: Bounds, l: nat): (r: Bounds)
    requires l < TotalLayers
  {
    var s, m := Sizes[l], SizesMask[l];
    Bounds(Vector32(FloorVia(b.min.x, m), FloorVia(b.min.y, m), FloorVia(b.min.z, m)),
           Vector32(CeilVia(b.max.x, s, m), CeilVia(b.max.y, s, m), CeilVia(b.max.z, s, m)))
  }

  /** The SignOffset detour does not change the floor: it is the plain mask. */
  lemma FloorViaIsMask(a: Int32, s: bv32)
    ensures IsGranule(s) ==> FloorVia(a, !(s - 1)) == a & !(s - 1)
  {
    GranuleMaskOfSize(s);
    OffsetCommutesWithMask(a, !(s - 1));
  }

  lemma FloorViaFloors(a: Int32, s: bv32)
    ensures IsGranule(s) ==> FloorsTo(a, FloorVia(a, !(s - 1)), s)
  {
    FloorViaIsMask(a, s);
    MaskFloors(a, s);
  }

  lemma FloorBelowIffUnaligned(a: Int32, s: bv32)
    ensures IsGranule(s) ==> (Lt(a & !(s - 1), a) <==> a & (s - 1) != 0)
  {
  }

  lemma UnalignedCeil(a: Int32, s: bv32)
    ensures IsGranule(s) && a & (s - 1) != 0 ==> (a & !(s - 1)) + s == (a + s - 1) & !(s - 1)
  {
  }

  lemma AlignedCeil(a: Int32, s: bv32)
    ensures IsGranule(s) && a & (s - 1) == 0 ==> (a + s - 1) & !(s - 1) == a && a & !(s - 1) == a
  {
  }

  lemma CeilViaOfUnaligned(a: Int32, s: bv32)
    ensures IsGranule(s) && a & (s - 1) != 0 ==> CeilVia(a, s, !(s - 1)) == Sum(a & !(s - 1), s)
  {
    FloorViaIsMask(a, s);
    FloorBelowIffUnaligned(a, s);
  }

  lemma CeilViaOfAligned(a: Int32, s: bv32)
    ensures IsGranule(s) && a & (s - 1) == 0 ==> CeilVia(a, s, !(s - 1)) == a
  {
    FloorViaIsMask(a, s);
    FloorBelowIffUnaligned(a, s);
    AlignedCeil(a, s);
  }

  lemma SumOfUnaligned(a: Int32, s: bv32)
    ensures IsGranule(s) && a & (s - 1) != 0 ==> Sum(a & !(s - 1), s) == (a + s - 1) & !(s - 1)
  {
    UnalignedCeil(a, s);
    SumIsAddition(a & !(s - 1), s);
  }

  /** Moving the floor up only when it lies below the coordinate is the usual round-up mask. */
  lemma CeilViaIsMask(a: Int32, s: bv32)
    ensures IsGranule(s) ==> CeilVia(a, s, !(s - 1)) == (a + s - 1) & !(s - 1)
  {
    CeilViaOfUnaligned(a, s);
    CeilViaOfAligned(a, s);
    SumOfUnaligned(a, s);
    AlignedCeil(a, s);
  }

  lemma CeilViaCeils(a: Int32, s: bv32)
    ensures IsGranule(s) && CeilFits(a, s) ==> CeilsTo(a, CeilVia(a, s, !(s - 1)), s)
  {
    CeilViaIsMask(a, s);
    MaskCeils(a, s);
  }

  /** RoundToLayer moves Min down to the layer's grid, by less than one node. */
  lemma RoundToLayerFloorsMin(b: Bounds, l: nat)
    requires l < TotalLayers
    ensures FloorsTo(b.min.x, RoundToLayer(b, l).min.x, Sizes[l])
    ensures FloorsTo(b.min.y, RoundToLayer(b, l).min.y, Sizes[l])
    ensures FloorsTo(b.min.z, RoundToLayer(b, l).min.z, Sizes[l])
  {
    SizeIsGranule(l);
    FloorViaFloors(b.min.x, Sizes[l]);
    FloorViaFloors(b.min.y, Sizes[l]);
    FloorViaFloors(b.min.z, Sizes[l]);
  }

  /** RoundToLayer moves Max up to the layer's grid, by less than one node, unless that overflows. */
  lemma RoundToLayerCeilsMax(b: Bounds, l: nat)
    requires l < TotalLayers
    ensures CeilFits(b.max.x, Sizes[l]) ==> CeilsTo(b.max.x, RoundToLayer(b, l).max.x, Sizes[l])
    ensures CeilFits(b.max.y, Sizes[l]) ==> CeilsTo(b.max.y, RoundToLayer(b, l).max.y, Sizes[l])
    ensures CeilFits(b.max.z, Sizes[l]) ==> CeilsTo(b.max.z, RoundToLayer(b, l).max.z, Sizes[l])
  {
    SizeIsGranule(l);
    CeilViaCeils(b.max.x, Sizes[l]);
    CeilViaCeils(b.max.y, Sizes[l]);
    CeilViaCeils(b.max.z, Sizes[l]);
  }

  /** The rounded box contains the original whenever rounding Max up does not overflow. */
  lemma RoundToLayerContains(b: Bounds, l: nat)
    requires l < TotalLayers
    ensures CeilFits(b.max.x, Sizes[l]) && CeilFits(b.max.y, Sizes[l]) && CeilFits(b.max.z, Sizes[l])
            ==> Inside(b, RoundToLayer(b, l))
  {
    RoundToLayerFloorsMin(b, l);
    RoundToLayerCeilsMax(b, l);
  }

  /** Rounds both corners down to the chunk grid with the unsigned chunk mask. */
  function RoundToChunk(b: Bounds): (r: Bounds)
  {
    Bounds(Vector32(ChunkFloor(b.min.x), ChunkFloor(b.min.y), ChunkFloor(b.min.z)),
           Vector32(ChunkFloor(b.max.x), ChunkFloor(b.max.y), ChunkFloor(b.max.z)))
  }

  /** One coordinate with the bits below the chunk size cleared. */
  function ChunkFloor(a: Int32): (r: Int32)
  {
    a & ChunkSizeMask
  }

  /** RoundToChunk moves both corners down to a chunk multiple, by less than a chunk. */
  lemma RoundToChunkFloors(b: Bounds)
    ensures FloorsTo(b.min.x, RoundToChunk(b).min.x, ChunkSize) && FloorsTo(b.max.x, RoundToChunk(b).max.x, ChunkSize)
    ensures FloorsTo(b.min.y, RoundToChunk(b).min.y, ChunkSize) && FloorsTo(b.max.y, RoundToChunk(b).max.y, ChunkSize)
    ensures FloorsTo(b.min.z, RoundToChunk(b).min.z, ChunkSize) && FloorsTo(b.max.z, RoundToChunk(b).max.z, ChunkSize)
  {
    ChunkMaskFloors(b.min.x);
    ChunkMaskFloors(b.min.y);
    ChunkMaskFloors(b.min.z);
    ChunkMaskFloors(b.max.x);
    ChunkMaskFloors(b.max.y);
    ChunkMaskFloors(b.max.z);
  }

  lemma ChunkMaskFloors(a: Int32)
    ensures FloorsTo(a, ChunkFloor(a), ChunkSize)
  {
    MaskFloors(a, ChunkSize);
  }

  // ---------------------------------------------------------------------------
  // Clamping and overlap

  /**
   * The part of `b` that lies within `o`: the larger Min and the smaller Max on
   * each axis. It lies inside both, and every box inside both lies inside it.
   */
  function Clamp(b: Bounds, o: Bounds): (r: Bounds)
    ensures Inside(r, b) && Inside(r, o)
    ensures forall c :: Inside(c, b) && Inside(c, o) ==> Inside(c, r)
  {
    Bounds(Vector32(Max(b.min.x, o.min.x), Max(b.min.y, o.min.y), Max(b.min.z, o.min.z)),
           Vector32(Min(b.max.x, o.max.x), Min(b.max.y, o.max.y), Min(b.max.z, o.max.z)))
  }

  /** HasAABBOverlap: the open boxes share a point on every axis. */
  predicate Overlaps(b: Bounds, o: Bounds)
  {
    Lt(o.min.x, b.max.x) && Lt(b.min.x, o.max.x) &&
    Lt(o.min.y, b.max.y) && Lt(b.min.y, o.max.y) &&
    Lt(o.min.z, b.max.z) && Lt(b.min.z, o.max.z)
  }

  lemma OverlapIsSymmetric(b: Bounds, o: Bounds)
    ensures Overlaps(b, o) <==> Overlaps(o, b)
  {
  }

  /** Boxes that meet only at a face, on any axis, do not overlap. */
  lemma TouchingFacesDoNotOverlap(b: Bounds, o: Bounds)
    ensures b.max.x == o.min.x || b.max.y == o.min.y || b.max.z == o.min.z ==> !Overlaps(b, o)
    ensures b.min.x == o.max.x || b.min.y == o.max.y || b.min.z == o.max.z ==> !Overlaps(b, o)
  {
  }

  /** Clamping to a box that contains `b` changes nothing; in particular Clamp(b, b) == b. */
  lemma ClampToContaining(b: Bounds, o: Bounds)
    ensures Inside(b, o) ==> Clamp(b, o) == b
  {
  }

  lemma ClampToSelf(b: Bounds)
    ensures Clamp(b, b) == b
  {
    ClampToContaining(b, b);
  }

  // ---------------------------------------------------------------------------
  // Intersection classification

  datatype OverlapResult = NoOverlap | Contained | Intersect

  /** One axis of `b` lies within that axis of `o`, or the other way round. */
  predicate AxisContained(b0: Int32, b1: Int32, o0: Int32, o1: Int32)
  {
    (Le(o0, b0) && Le(b1, o1)) || (Le(b0, o0) && Le(o1, b1))
  }

  /** HasAABBIntersection. */
  function Intersection(b: Bounds, o: Bounds): (r: OverlapResult)
    ensures r == NoOverlap <==> !Overlaps(b, o)
  {
    if !Overlaps(b, o) then NoOverlap
    else if AxisContained(b.min.x, b.max.x, o.min.x, o.max.x)
         && AxisContained(b.min.y, b.max.y, o.min.y, o.max.y)
         && AxisContained(b.min.z, b.max.z, o.min.z, o.max.z) then Contained
    else Intersect
  }

  /** An overlapping box that lies inside the other, in either direction, is classified Contained. */
  lemma InsideIsContained(b: Bounds, o: Bounds)
    ensures Overlaps(b, o) && (Inside(o, b) || Inside(b, o)) ==> Intersection(b, o) == Contained
  {
  }

  /** Contained means one box contains the other axis by axis, not necessarily the same box on every axis. */
  lemma ContainedMeansAxisContainment(b: Bounds, o: Bounds)
    ensures Intersection(b, o) == Contained <==>
      (Overlaps(b, o)
       && AxisContained(b.min.x, b.max.x, o.min.x, o.max.x)
       && AxisContained(b.min.y, b.max.y, o.min.y, o.max.y)
       && AxisContained(b.min.z, b.max.z, o.min.z, o.max.z))
  {
  }

  /** The classification does not depend on which box asks. */
  lemma IntersectionIsSymmetric(b: Bounds, o: Bounds)
    ensures Intersection(b, o) == Intersection(o, b)
  {
    OverlapIsSymmetric(b, o);
  }

  // ---------------------------------------------------------------------------
  // Boolean cut

  /** Other with its Max.X pulled back to the receiver's, when Other sticks out on +X. */
  function AfterPlusX(b: Bounds, o: Bounds): (r: Bounds)
  {
    if Lt(b.max.x, o.max.x) then o.(max := o.max.(x := b.max.x)) else o
  }

  function AfterMinusX(b: Bounds, o: Bounds): (r: Bounds)
  {
    var rem := AfterPlusX(b, o);
    if Lt(o.min.x, b.min.x) then rem.(min := rem.min.(x := b.min.x)) else rem
  }

  function AfterPlusY(b: Bounds, o: Bounds): (r: Bounds)
  {
    var rem := AfterMinusX(b, o);
    if Lt(b.max.y, o.max.y) then rem.(max := rem.max.(y := b.max.y)) else rem
  }

  function AfterMinusY(b: Bounds, o: Bounds): (r: Bounds)
  {
    var rem := AfterPlusY(b, o);
    if Lt(o.min.y, b.min.y) then rem.(min := rem.min.(y := b.min.y)) else rem
  }

  /** The slab of Other beyond the receiver's Max.X. */
  function CutPlusX(b: Bounds, o: Bounds): (r: Option<Bounds>)
  {
    if Lt(b.max.x, o.max.x) then Some(Bounds(Vector32(b.max.x, o.min.y, o.min.z), o.max)) else None
  }

  function CutMinusX(b: Bounds, o: Bounds): (r: Option<Bounds>)
  {
    var rem := AfterPlusX(b, o);
    if Lt(o.min.x, b.min.x) then Some(Bounds(rem.min, Vector32(b.min.x, rem.max.y, rem.max.z))) else None
  }

  function CutPlusY(b: Bounds, o: Bounds): (r: Option<Bounds>)
  {
    var rem := AfterMinusX(b, o);
    if Lt(b.max.y, o.max.y) then Some(Bounds(Vector32(rem.min.x, b.max.y, rem.min.z), rem.max)) else None
  }

  function CutMinusY(b: Bounds, o: Bounds): (r: Option<Bounds>)
  {
    var rem := AfterPlusY(b, o);
    if Lt(o.min.y, b.min.y) then Some(Bounds(rem.min, Vector32(rem.max.x, b.min.y, rem.max.z))) else None
  }

  /** The +Z and -Z slabs are both cut from what is left after the X and Y slabs. */
  function CutPlusZ(b: Bounds, o: Bounds): (r: Option<Bounds>)
  {
    var rem := AfterMinusY(b, o);
    if Lt(b.max.z, o.max.z) then Some(Bounds(Vector32(rem.min.x, rem.min.y, b.max.z), rem.max)) else None
  }

  function CutMinusZ(b: Bounds, o: Bounds): (r: Option<Bounds>)
  {
    var rem := AfterMinusY(b, o);
    if Lt(o.min.z, b.min.z) then Some(Bounds(rem.min, Vector32(rem.max.x, rem.max.y, b.min.z))) else None
  }

  /** The six candidate pieces in the order the cut produces them. */
  function CutSlots(b: Bounds, o: Bounds): (r: seq<Option<Bounds>>)
  {
    [CutPlusX(b, o), CutMinusX(b, o), CutPlusY(b, o), CutMinusY(b, o), CutPlusZ(b, o), CutMinusZ(b, o)]
  }

  /** The values of the present slots, in order. */
  function Present(t: seq<Option<Bounds>>): (r: seq<Bounds>)
    ensures |r| <= |t|
    ensures forall p <- r :: Some(p) in t
  {
    if t == [] then []
    else (if t[0].Some? then [t[0].value] else []) + Present(t[1..])
  }

  /**
   * The parts of Other that lie outside the receiver, as at most six boxes;
   * Other itself when the two do not overlap.
   */
  function Cut(b: Bounds, o: Bounds): (r: seq<Bounds>)
    ensures !Overlaps(b, o) ==> r == [o]
    ensures |r| <= 6
  {
    if !Overlaps(b, o) then [o] else Present(CutSlots(b, o))
  }

  predicate PairwiseDisjoint(s: seq<Bounds>)
  {
    forall i, j | 0 <= i < j < |s| :: !Overlaps(s[i], s[j])
  }

  /** Two slots do not both hold boxes that overlap. */
  predicate Apart(p: Option<Bounds>, q: Option<Bounds>)
  {
    p.Some? && q.Some? ==> !Overlaps(p.value, q.value)
  }

  predicate SlotsApart(t: seq<Option<Bounds>>)
  {
    forall i, j | 0 <= i < j < |t| :: Apart(t[i], t[j])
  }

  /** Dropping the empty slots keeps the present boxes pairwise disjoint. */
  lemma {:induction false} PresentKeepsApart(t: seq<Option<Bounds>>)
    requires SlotsApart(t)
    ensures PairwiseDisjoint(Present(t))
  {
    if t != [] {
      var head := if t[0].Some? then [t[0].value] else [];
      var rest := Present(t[1..]);
      assert SlotsApart(t[1..]) by {
        forall i, j | 0 <= i < j < |t[1..]|
          ensures Apart(t[1..][i], t[1..][j])
        {
          assert t[1..][i] == t[i + 1] && t[1..][j] == t[j + 1];
        }
      }
      PresentKeepsApart(t[1..]);
      assert Present(t) == head + rest;
      forall i, j | 0 <= i < j < |head + rest|
        ensures !Overlaps((head + rest)[i], (head + rest)[j])
      {
        if i < |head| {
          var q := rest[j - |head|];
          assert Some(q) in t[1..];
          var k :| 0 <= k < |t[1..]| && t[1..][k] == Some(q);
          assert t[k + 1] == Some(q);
          assert Apart(t[0], t[k + 1]);
        } else {
          assert (head + rest)[i] == rest[i - |head|];
        }
      }
    }
  }

  /** Each axis of the receiver has Max not below Min. */
  predicate NotInverted(b: Bounds)
  {
    Le(b.min.x, b.max.x) && Le(b.min.y, b.max.y) && Le(b.min.z, b.max.z)
  }

  // ---------------------------------------------------------------------------
  // Properties of the cut. After each slab the remainder is Other clamped to the
  // receiver's faces; RaiseTo and LowerTo name those clamped faces, and the shape
  // lemmas spell out each piece in their terms. Order facts are recorded case by
  // case in small lemmas, which keeps every proof obligation below small.

  /** The receiver's lower face where it lies above Other's, else Other's: the lower face of the remainder. */
  function RaiseTo(bmin: Int32, omin: Int32): (r: Int32)
  {
    if Lt(omin, bmin) then bmin else omin
  }

  /** The receiver's upper face where it lies below Other's, else Other's: the upper face of the remainder. */
  function LowerTo(bmax: Int32, omax: Int32): (r: Int32)
  {
    if Lt(bmax, omax) then bmax else omax
  }

  lemma RaiseToWithin(bmin: Int32, omin: Int32)
    ensures Le(omin, RaiseTo(bmin, omin))
    ensures Lt(omin, bmin) ==> RaiseTo(bmin, omin) == bmin
  {
    if Lt(omin, bmin) {
      assert RaiseTo(bmin, omin) == bmin;
    } else {
      assert RaiseTo(bmin, omin) == omin;
    }
  }

  lemma LowerToWithin(bmax: Int32, omax: Int32)
    ensures Le(LowerTo(bmax, omax), omax)
    ensures Lt(bmax, omax) ==> LowerTo(bmax, omax) == bmax
  {
    if Lt(bmax, omax) {
      assert LowerTo(bmax, omax) == bmax;
    } else {
      assert LowerTo(bmax, omax) == omax;
    }
  }

  /** Two non-empty extents that overlap clamp to a non-empty extent. */
  lemma ClampedExtent(bmin: Int32, bmax: Int32, omin: Int32, omax: Int32)
    requires Lt(bmin, bmax) && Lt(omin, omax) && Lt(bmin, omax) && Lt(omin, bmax)
    ensures Lt(RaiseTo(bmin, omin), LowerTo(bmax, omax))
  {
    if Lt(omin, bmin) {
      assert RaiseTo(bmin, omin) == bmin;
      if Lt(bmax, omax) {
        assert LowerTo(bmax, omax) == bmax;
      } else {
        assert LowerTo(bmax, omax) == omax;
      }
    } else {
      assert RaiseTo(bmin, omin) == omin;
      if Lt(bmax, omax) {
        assert LowerTo(bmax, omax) == bmax;
      } else {
        assert LowerTo(bmax, omax) == omax;
      }
    }
  }

  lemma AfterXShape(b: Bounds, o: Bounds)
    ensures AfterMinusX(b, o) == Bounds(o.min.(x := RaiseTo(b.min.x, o.min.x)), o.max.(x := LowerTo(b.max.x, o.max.x)))
  {
  }

  lemma AfterYShape(b: Bounds, o: Bounds)
    ensures AfterMinusY(b, o) == Bounds(Vector32(RaiseTo(b.min.x, o.min.x), RaiseTo(b.min.y, o.min.y), o.min.z),
                                        Vector32(LowerTo(b.max.x, o.max.x), LowerTo(b.max.y, o.max.y), o.max.z))
  {
  }

  lemma CutMinusXShape(b: Bounds, o: Bounds)
    ensures CutMinusX(b, o) == if Lt(o.min.x, b.min.x) then Some(Bounds(o.min, Vector32(b.min.x, o.max.y, o.max.z))) else None
  {
  }

  lemma CutPlusYShape(b: Bounds, o: Bounds)
    ensures CutPlusY(b, o) == if Lt(b.max.y, o.max.y)
      then Some(Bounds(Vector32(RaiseTo(b.min.x, o.min.x), b.max.y, o.min.z), o.max.(x := LowerTo(b.max.x, o.max.x))))
      else None
  {
    AfterXShape(b, o);
  }

  lemma CutMinusYShape(b: Bounds, o: Bounds)
    ensures CutMinusY(b, o) == if Lt(o.min.y, b.min.y)
      then Some(Bounds(o.min.(x := RaiseTo(b.min.x, o.min.x)), Vector32(LowerTo(b.max.x, o.max.x), b.min.y, o.max.z)))
      else None
  {
    AfterXShape(b, o);
  }

  lemma CutPlusZShape(b: Bounds, o: Bounds)
    ensures CutPlusZ(b, o) == if Lt(b.max.z, o.max.z)
      then Some(Bounds(Vector32(RaiseTo(b.min.x, o.min.x), RaiseTo(b.min.y, o.min.y), b.max.z),
                       Vector32(LowerTo(b.max.x, o.max.x), LowerTo(b.max.y, o.max.y), o.max.z)))
      else None
  {
    AfterYShape(b, o);
  }

  lemma CutMinusZShape(b: Bounds, o: Bounds)
    ensures CutMinusZ(b, o) == if Lt(o.min.z, b.min.z)
      then Some(Bounds(Vector32(RaiseTo(b.min.x, o.min.x), RaiseTo(b.min.y, o.min.y), o.min.z),
                       Vector32(LowerTo(b.max.x, o.max.x), LowerTo(b.max.y, o.max.y), b.min.z)))
      else None
  {
    AfterYShape(b, o);
  }

  /** A slot is empty or holds a box inside `o`. */
  predicate InsideOther(p: Option<Bounds>, o: Bounds)
  {
    p.Some? ==> Inside(p.value, o)
  }

  /** A slot is empty or holds a box that does not overlap the receiver `b`. */
  predicate MissesReceiver(p: Option<Bounds>, b: Bounds)
  {
    p.Some? ==> !Overlaps(b, p.value)
  }

  /** A slot is empty or holds a box with volume. */
  predicate Solid(p: Option<Bounds>)
  {
    p.Some? ==> HasVolume(p.value)
  }

  lemma CutPlusXInsideOther(b: Bounds, o: Bounds)
    requires Overlaps(b, o)
    ensures InsideOther(CutPlusX(b, o), o)
  {
  }

  lemma CutMinusXInsideOther(b: Bounds, o: Bounds)
    requires Overlaps(b, o)
    ensures InsideOther(CutMinusX(b, o), o)
  {
    CutMinusXShape(b, o);
    assert Le(b.min.x, o.max.x);
  }

  lemma CutPlusYInsideOther(b: Bounds, o: Bounds)
    requires Overlaps(b, o)
    ensures InsideOther(CutPlusY(b, o), o)
  {
    CutPlusYShape(b, o);
    RaiseToWithin(b.min.x, o.min.x);
    LowerToWithin(b.max.x, o.max.x);
    assert Le(o.min.y, b.max.y);
  }

  lemma CutMinusYInsideOther(b: Bounds, o: Bounds)
    requires Overlaps(b, o)
    ensures InsideOther(CutMinusY(b, o), o)
  {
    CutMinusYShape(b, o);
    RaiseToWithin(b.min.x, o.min.x);
    LowerToWithin(b.max.x, o.max.x);
    assert Le(b.min.y, o.max.y);
  }

  /** The remainder after the X and Y slabs lies inside Other; the Z slabs are cut from it. */
  lemma AfterYInsideOther(b: Bounds, o: Bounds)
    ensures Inside(AfterMinusY(b, o), o)
  {
    AfterYShape(b, o);
    RaiseToWithin(b.min.x, o.min.x);
    LowerToWithin(b.max.x, o.max.x);
    RaiseToWithin(b.min.y, o.min.y);
    LowerToWithin(b.max.y, o.max.y);
  }

  lemma CutPlusZInsideOther(b: Bounds, o: Bounds)
    requires Overlaps(b, o)
    ensures InsideOther(CutPlusZ(b, o), o)
  {
    AfterYInsideOther(b, o);
    assert AfterMinusY(b, o).min.z == o.min.z by { AfterYShape(b, o); }
    assert Le(o.min.z, b.max.z);
  }

  lemma CutMinusZInsideOther(b: Bounds, o: Bounds)
    requires Overlaps(b, o)
    ensures InsideOther(CutMinusZ(b, o), o)
  {
    AfterYInsideOther(b, o);
    assert AfterMinusY(b, o).max.z == o.max.z by { AfterYShape(b, o); }
    assert Le(b.min.z, o.max.z);
  }

  /** Each slab starts or ends at one of the receiver's faces, so it cannot overlap the receiver. */
  lemma CutXMissesReceiver(b: Bounds, o: Bounds)
    ensures MissesReceiver(CutPlusX(b, o), b) && MissesReceiver(CutMinusX(b, o), b)
  {
    CutMinusXShape(b, o);
  }

  lemma CutYMissesReceiver(b: Bounds, o: Bounds)
    ensures MissesReceiver(CutPlusY(b, o), b) && MissesReceiver(CutMinusY(b, o), b)
  {
    CutPlusYShape(b, o);
    CutMinusYShape(b, o);
  }

  lemma CutZMissesReceiver(b: Bounds, o: Bounds)
    ensures MissesReceiver(CutPlusZ(b, o), b) && MissesReceiver(CutMinusZ(b, o), b)
  {
    CutPlusZShape(b, o);
    CutMinusZShape(b, o);
  }

  lemma CutPiecesInsideOther(b: Bounds, o: Bounds)
    requires Overlaps(b, o)
    ensures forall p <- Cut(b, o) :: Inside(p, o)
  {
    var t := CutSlots(b, o);
    CutPlusXInsideOther(b, o);
    CutMinusXInsideOther(b, o);
    CutPlusYInsideOther(b, o);
    CutMinusYInsideOther(b, o);
    CutPlusZInsideOther(b, o);
    CutMinusZInsideOther(b, o);
    assert forall i | 0 <= i < |t| :: InsideOther(t[i], o);
    forall p <- Cut(b, o)
      ensures Inside(p, o)
    {
      assert Some(p) in t;
    }
  }

  lemma CutPiecesMissReceiver(b: Bounds, o: Bounds)
    requires Overlaps(b, o)
    ensures forall p <- Cut(b, o) :: !Overlaps(b, p)
  {
    var t := CutSlots(b, o);
    CutXMissesReceiver(b, o);
    CutYMissesReceiver(b, o);
    CutZMissesReceiver(b, o);
    assert forall i | 0 <= i < |t| :: MissesReceiver(t[i], b);
    forall p <- Cut(b, o)
      ensures !Overlaps(b, p)
    {
      assert Some(p) in t;
    }
  }

  /** Every piece of a cut lies inside Other and misses the receiver. */
  lemma CutPiecesOutside(b: Bounds, o: Bounds)
    requires Overlaps(b, o)
    ensures forall p <- Cut(b, o) :: Inside(p, o) && !Overlaps(b, p)
  {
    CutPiecesInsideOther(b, o);
    CutPiecesMissReceiver(b, o);
  }

  lemma CutXSolid(b: Bounds, o: Bounds)
    requires HasVolume(o)
    ensures Solid(CutPlusX(b, o)) && Solid(CutMinusX(b, o))
  {
    CutMinusXShape(b, o);
  }

  lemma CutYSolid(b: Bounds, o: Bounds)
    requires HasVolume(b) && HasVolume(o) && Overlaps(b, o)
    ensures Solid(CutPlusY(b, o)) && Solid(CutMinusY(b, o))
  {
    CutPlusYShape(b, o);
    CutMinusYShape(b, o);
    ClampedExtent(b.min.x, b.max.x, o.min.x, o.max.x);
  }

  lemma CutZSolid(b: Bounds, o: Bounds)
    requires HasVolume(b) && HasVolume(o) && Overlaps(b, o)
    ensures Solid(CutPlusZ(b, o)) && Solid(CutMinusZ(b, o))
  {
    CutPlusZShape(b, o);
    CutMinusZShape(b, o);
    ClampedExtent(b.min.x, b.max.x, o.min.x, o.max.x);
    ClampedExtent(b.min.y, b.max.y, o.min.y, o.max.y);
  }

  /** With two boxes that have volume, every piece of the cut has volume. */
  lemma CutPiecesHaveVolume(b: Bounds, o: Bounds)
    requires HasVolume(b) && HasVolume(o)
    ensures forall p <- Cut(b, o) :: HasVolume(p)
  {
    if Overlaps(b, o) {
      var t := CutSlots(b, o);
      CutXSolid(b, o);
      CutYSolid(b, o);
      CutZSolid(b, o);
      assert forall i | 0 <= i < |t| :: Solid(t[i]);
      forall p <- Cut(b, o)
        ensures HasVolume(p)
      {
        assert Some(p) in t;
      }
    }
  }

  /** Boxes separated along X, Y or Z (one ends where or before the other starts) do not overlap. */
  lemma SeparatedOnX(p: Bounds, q: Bounds)
    requires Le(p.max.x, q.min.x)
    ensures !Overlaps(p, q) && !Overlaps(q, p)
  {
  }

  lemma SeparatedOnY(p: Bounds, q: Bounds)
    requires Le(p.max.y, q.min.y)
    ensures !Overlaps(p, q) && !Overlaps(q, p)
  {
  }

  lemma SeparatedOnZ(p: Bounds, q: Bounds)
    requires Le(p.max.z, q.min.z)
    ensures !Overlaps(p, q) && !Overlaps(q, p)
  {
  }

  // One lemma per pair of slots: each pair is separated along the axis of the earlier slab.

  lemma PlusXApartMinusX(b: Bounds, o: Bounds)
    requires NotInverted(b)
    ensures Apart(CutPlusX(b, o), CutMinusX(b, o))
  {
    if CutPlusX(b, o).Some? && CutMinusX(b, o).Some? {
      CutMinusXShape(b, o);
      SeparatedOnX(CutMinusX(b, o).value, CutPlusX(b, o).value);
    }
  }

  lemma PlusXApartPlusY(b: Bounds, o: Bounds)
    ensures Apart(CutPlusX(b, o), CutPlusY(b, o))
  {
    if CutPlusX(b, o).Some? && CutPlusY(b, o).Some? {
      CutPlusYShape(b, o);
      LowerToWithin(b.max.x, o.max.x);
      SeparatedOnX(CutPlusY(b, o).value, CutPlusX(b, o).value);
    }
  }

  lemma PlusXApartMinusY(b: Bounds, o: Bounds)
    ensures Apart(CutPlusX(b, o), CutMinusY(b, o))
  {
    if CutPlusX(b, o).Some? && CutMinusY(b, o).Some? {
      CutMinusYShape(b, o);
      LowerToWithin(b.max.x, o.max.x);
      SeparatedOnX(CutMinusY(b, o).value, CutPlusX(b, o).value);
    }
  }

  lemma PlusXApartPlusZ(b: Bounds, o: Bounds)
    ensures Apart(CutPlusX(b, o), CutPlusZ(b, o))
  {
    if CutPlusX(b, o).Some? && CutPlusZ(b, o).Some? {
      CutPlusZShape(b, o);
      LowerToWithin(b.max.x, o.max.x);
      SeparatedOnX(CutPlusZ(b, o).value, CutPlusX(b, o).value);
    }
  }

  lemma PlusXApartMinusZ(b: Bounds, o: Bounds)
    ensures Apart(CutPlusX(b, o), CutMinusZ(b, o))
  {
    if CutPlusX(b, o).Some? && CutMinusZ(b, o).Some? {
      CutMinusZShape(b, o);
      LowerToWithin(b.max.x, o.max.x);
      SeparatedOnX(CutMinusZ(b, o).value, CutPlusX(b, o).value);
    }
  }

  lemma MinusXApartPlusY(b: Bounds, o: Bounds)
    ensures Apart(CutMinusX(b, o), CutPlusY(b, o))
  {
    if CutMinusX(b, o).Some? && CutPlusY(b, o).Some? {
      CutMinusXShape(b, o);
      CutPlusYShape(b, o);
      RaiseToWithin(b.min.x, o.min.x);
      SeparatedOnX(CutMinusX(b, o).value, CutPlusY(b, o).value);
    }
  }

  lemma MinusXApartMinusY(b: Bounds, o: Bounds)
    ensures Apart(CutMinusX(b, o), CutMinusY(b, o))
  {
    if CutMinusX(b, o).Some? && CutMinusY(b, o).Some? {
      CutMinusXShape(b, o);
      CutMinusYShape(b, o);
      RaiseToWithin(b.min.x, o.min.x);
      SeparatedOnX(CutMinusX(b, o).value, CutMinusY(b, o).value);
    }
  }

  lemma MinusXApartPlusZ(b: Bounds, o: Bounds)
    ensures Apart(CutMinusX(b, o), CutPlusZ(b, o))
  {
    if CutMinusX(b, o).Some? && CutPlusZ(b, o).Some? {
      CutMinusXShape(b, o);
      CutPlusZShape(b, o);
      RaiseToWithin(b.min.x, o.min.x);
      SeparatedOnX(CutMinusX(b, o).value, CutPlusZ(b, o).value);
    }
  }

  lemma MinusXApartMinusZ(b: Bounds, o: Bounds)
    ensures Apart(CutMinusX(b, o), CutMinusZ(b, o))
  {
    if CutMinusX(b, o).Some? && CutMinusZ(b, o).Some? {
      CutMinusXShape(b, o);
      CutMinusZShape(b, o);
      RaiseToWithin(b.min.x, o.min.x);
      SeparatedOnX(CutMinusX(b, o).value, CutMinusZ(b, o).value);
    }
  }

  lemma PlusYApartMinusY(b: Bounds, o: Bounds)
    requires NotInverted(b)
    ensures Apart(CutPlusY(b, o), CutMinusY(b, o))
  {
    if CutPlusY(b, o).Some? && CutMinusY(b, o).Some? {
      CutPlusYShape(b, o);
      CutMinusYShape(b, o);
      SeparatedOnY(CutMinusY(b, o).value, CutPlusY(b, o).value);
    }
  }

  lemma PlusYApartPlusZ(b: Bounds, o: Bounds)
    ensures Apart(CutPlusY(b, o), CutPlusZ(b, o))
  {
    if CutPlusY(b, o).Some? && CutPlusZ(b, o).Some? {
      CutPlusYShape(b, o);
      CutPlusZShape(b, o);
      LowerToWithin(b.max.y, o.max.y);
      SeparatedOnY(CutPlusZ(b, o).value, CutPlusY(b, o).value);
    }
  }

  lemma PlusYApartMinusZ(b: Bounds, o: Bounds)
    ensures Apart(CutPlusY(b, o), CutMinusZ(b, o))
  {
    if CutPlusY(b, o).Some? && CutMinusZ(b, o).Some? {
      CutPlusYShape(b, o);
      CutMinusZShape(b, o);
      LowerToWithin(b.max.y, o.max.y);
      SeparatedOnY(CutMinusZ(b, o).value, CutPlusY(b, o).value);
    }
  }

  lemma MinusYApartPlusZ(b: Bounds, o: Bounds)
    ensures Apart(CutMinusY(b, o), CutPlusZ(b, o))
  {
    if CutMinusY(b, o).Some? && CutPlusZ(b, o).Some? {
      CutMinusYShape(b, o);
      CutPlusZShape(b, o);
      RaiseToWithin(b.min.y, o.min.y);
      SeparatedOnY(CutMinusY(b, o).value, CutPlusZ(b, o).value);
    }
  }

  lemma MinusYApartMinusZ(b: Bounds, o: Bounds)
    ensures Apart(CutMinusY(b, o), CutMinusZ(b, o))
  {
    if CutMinusY(b, o).Some? && CutMinusZ(b, o).Some? {
      CutMinusYShape(b, o);
      CutMinusZShape(b, o);
      RaiseToWithin(b.min.y, o.min.y);
      SeparatedOnY(CutMinusY(b, o).value, CutMinusZ(b, o).value);
    }
  }

  lemma PlusZApartMinusZ(b: Bounds, o: Bounds)
    requires NotInverted(b)
    ensures Apart(CutPlusZ(b, o), CutMinusZ(b, o))
  {
    if CutPlusZ(b, o).Some? && CutMinusZ(b, o).Some? {
      CutPlusZShape(b, o);
      CutMinusZShape(b, o);
      SeparatedOnZ(CutMinusZ(b, o).value, CutPlusZ(b, o).value);
    }
  }

  /** The pieces of a cut are pairwise disjoint, for a receiver whose Max is nowhere below its Min. */
  lemma CutPiecesDisjoint(b: Bounds, o: Bounds)
    requires NotInverted(b)
    ensures PairwiseDisjoint(Cut(b, o))
  {
    if Overlaps(b, o) {
      PlusXApartMinusX(b, o);
      PlusXApartPlusY(b, o);
      PlusXApartMinusY(b, o);
      PlusXApartPlusZ(b, o);
      PlusXApartMinusZ(b, o);
      MinusXApartPlusY(b, o);
      MinusXApartMinusY(b, o);
      MinusXApartPlusZ(b, o);
      MinusXApartMinusZ(b, o);
      PlusYApartMinusY(b, o);
      PlusYApartPlusZ(b, o);
      PlusYApartMinusZ(b, o);
      MinusYApartPlusZ(b, o);
      MinusYApartMinusZ(b, o);
      PlusZApartMinusZ(b, o);
      var t := CutSlots(b, o);
      forall i, j | 0 <= i < j < |t|
        ensures Apart(t[i], t[j])
      {
      }
      PresentKeepsApart(t);
    }
  }

  /** Only empty slots leave nothing. */
  lemma {:induction false} PresentOfEmpty(t: seq<Option<Bounds>>)
    requires forall i | 0 <= i < |t| :: t[i].None?
    ensures Present(t) == []
  {
    if t != [] {
      PresentOfEmpty(t[1..]);
    }
  }

  /** A receiver that contains Other cuts all of it away. */
  lemma CutOfContained(b: Bounds, o: Bounds)
    requires Overlaps(b, o) && Inside(o, b)
    ensures Cut(b, o) == []
  {
    var t := CutSlots(b, o);
    assert forall i | 0 <= i < |t| :: t[i].None?;
    PresentOfEmpty(t);
  }

  // ---------------------------------------------------------------------------
  // Splitting a box per chunk

  /** Corner of the last chunk on an axis; one more step of the chunk loop overflows `int32`. */
  const TopChunk: Int32 := 0x7FFF_E000

  predicate ChunkAligned(g: Int32)
  {
    g & 0x1FFF == 0
  }

  lemma StepKeepsAlignment(g: Int32)
    ensures ChunkAligned(g) ==> ChunkAligned(Sum(g, ChunkSize))
  {
    assert Sum(g, ChunkSize) == g + 0x2000;
  }

  /**
   * The values one of the chunk loops visits: `lo`, `lo + Chunk::Size`, ... while not
   * past `hi`. Below the top chunk the step never overflows.
   */
  function Corners(lo: Int32, hi: Int32): (r: seq<Int32>)
    requires Lt(hi, TopChunk)
    ensures r == [] <==> Lt(hi, lo)
    ensures r != [] ==> r[0] == lo
    decreases 0xFFFF_FFFF - Biased(lo)
  {
    if Lt(hi, lo) then [] else [lo] + Corners(Sum(lo, ChunkSize), hi)
  }

  /** The loop never visits a value past `hi`. */
  lemma {:induction false} CornersWithin(lo: Int32, hi: Int32)
    requires Lt(hi, TopChunk)
    ensures forall g <- Corners(lo, hi) :: Le(g, hi)
    decreases |Corners(lo, hi)|
  {
    if !Lt(hi, lo) {
      var rest := Corners(Sum(lo, ChunkSize), hi);
      CornersWithin(Sum(lo, ChunkSize), hi);
      assert Corners(lo, hi) == [lo] + rest;
    }
  }

  /** Consecutive visited values are one chunk apart. */
  lemma {:induction false} CornersConsecutive(lo: Int32, hi: Int32)
    requires Lt(hi, TopChunk)
    ensures forall i | 0 <= i && i + 1 < |Corners(lo, hi)| :: Corners(lo, hi)[i + 1] == Sum(Corners(lo, hi)[i], ChunkSize)
    decreases |Corners(lo, hi)|
  {
    if !Lt(hi, lo) {
      var r := Corners(lo, hi);
      var rest := Corners(Sum(lo, ChunkSize), hi);
      CornersConsecutive(Sum(lo, ChunkSize), hi);
      assert r == [lo] + rest;
      forall i | 0 <= i && i + 1 < |r|
        ensures r[i + 1] == Sum(r[i], ChunkSize)
      {
        if i > 0 {
          assert r[i] == rest[i - 1] && r[i + 1] == rest[i];
        }
      }
    }
  }

  /** Starting from a chunk corner, every visited value is a chunk corner. */
  lemma {:induction false} CornersAligned(lo: Int32, hi: Int32)
    requires Lt(hi, TopChunk)
    ensures ChunkAligned(lo) ==> forall i | 0 <= i < |Corners(lo, hi)| :: ChunkAligned(Corners(lo, hi)[i])
    decreases |Corners(lo, hi)|
  {
    if !Lt(hi, lo) {
      StepKeepsAlignment(lo);
      CornersAligned(Sum(lo, ChunkSize), hi);
    }
  }

  /** A row of the innermost loop: the corners along Z at fixed X and Y. */
  function Row(x: Int32, y: Int32, zs: seq<Int32>): (r: seq<Vector32>)
    ensures |r| == |zs|
    ensures forall i | 0 <= i < |r| :: r[i] == Vector32(x, y, zs[i])
  {
    if zs == [] then [] else [Vector32(x, y, zs[0])] + Row(x, y, zs[1..])
  }

  /** The corners at fixed X: one row per Y, in loop order. */
  function Plane(x: Int32, ys: seq<Int32>, zs: seq<Int32>): (r: seq<Vector32>)
  {
    if ys == [] then [] else Row(x, ys[0], zs) + Plane(x, ys[1..], zs)
  }

  /** The corners in the order of the three nested loops: X outermost, Z innermost. */
  function Grid(xs: seq<Int32>, ys: seq<Int32>, zs: seq<Int32>): (r: seq<Vector32>)
  {
    if xs == [] then [] else Plane(xs[0], ys, zs) + Grid(xs[1..], ys, zs)
  }

  lemma {:induction false} PlaneMembers(x: Int32, ys: seq<Int32>, zs: seq<Int32>, v: Vector32)
    ensures v in Plane(x, ys, zs) <==> v.x == x && v.y in ys && v.z in zs
  {
    if ys != [] {
      PlaneMembers(x, ys[1..], zs, v);
      assert v in Row(x, ys[0], zs) <==> v.x == x && v.y == ys[0] && v.z in zs by {
        if v in Row(x, ys[0], zs) {
          var i :| 0 <= i < |zs| && Row(x, ys[0], zs)[i] == v;
          assert v.z == zs[i];
        }
        if v.x == x && v.y == ys[0] && v.z in zs {
          var i :| 0 <= i < |zs| && zs[i] == v.z;
          assert Row(x, ys[0], zs)[i] == v;
        }
      }
      assert ys == [ys[0]] + ys[1..];
    }
  }

  /** The loops visit exactly the corners whose coordinates each loop visits. */
  lemma {:induction false} GridMembers(xs: seq<Int32>, ys: seq<Int32>, zs: seq<Int32>, v: Vector32)
    ensures v in Grid(xs, ys, zs) <==> v.x in xs && v.y in ys && v.z in zs
  {
    if xs != [] {
      GridMembers(xs[1..], ys, zs, v);
      PlaneMembers(xs[0], ys, zs, v);
      assert xs == [xs[0]] + xs[1..];
    }
  }

  /**
   * A chunk's morton code as a map key. The result map is keyed by chunk code; the
   * code sits in a one-field record so that updates of maps keyed by it can be reasoned about.
   */
  datatype ChunkKey = ChunkKey(code: MortonChunk.ChunkMorton)

  function KeyOf(corner: Vector32): (r: ChunkKey)
  {
    ChunkKey(MortonChunk.Encode(corner.x, corner.y, corner.z))
  }

  /** One pass of the innermost loop body: clamp to the chunk and keep the piece if it has volume. */
  function Store(b: Bounds, corner: Vector32, m: map<ChunkKey, Bounds>): (r: map<ChunkKey, Bounds>)
  {
    var piece := Clamp(b, ChunkBox(corner));
    if HasVolume(piece) then m[KeyOf(corner) := piece] else m
  }

  /** The loop bodies applied to the corners in order. */
  function Visit(b: Bounds, cs: seq<Vector32>, m: map<ChunkKey, Bounds>): (r: map<ChunkKey, Bounds>)
  {
    if cs == [] then m else Visit(b, cs[1..], Store(b, cs[0], m))
  }

  /** Every entry is the part of `b` inside the chunk its key names, and has volume. */
  predicate PiecesOfChunks(b: Bounds, m: map<ChunkKey, Bounds>)
  {
    forall k <- m :: HasVolume(m[k]) && m[k] == Clamp(b, FromChunkMorton(k.code))
  }

  predicate CornerAligned(v: Vector32)
  {
    ChunkAligned(v.x) && ChunkAligned(v.y) && ChunkAligned(v.z)
  }

  lemma StoreKeepsPieces(b: Bounds, corner: Vector32, m: map<ChunkKey, Bounds>)
    requires CornerAligned(corner) && PiecesOfChunks(b, m)
    ensures PiecesOfChunks(b, Store(b, corner, m))
    ensures m.Keys <= Store(b, corner, m).Keys
  {
    var piece := Clamp(b, ChunkBox(corner));
    if HasVolume(piece) {
      var key := KeyOf(corner);
      FromChunkMortonOfCorner(corner);
      assert piece == Clamp(b, FromChunkMorton(key.code));
      var m' := m[key := piece];
      assert Store(b, corner, m) == m';
      forall k <- m'
        ensures HasVolume(m'[k]) && m'[k] == Clamp(b, FromChunkMorton(k.code))
      {
        if k != key {
          assert m'[k] == m[k];
        }
      }
    }
  }

  lemma {:induction false} VisitKeepsPieces(b: Bounds, cs: seq<Vector32>, m: map<ChunkKey, Bounds>)
    requires forall v <- cs :: CornerAligned(v)
    requires PiecesOfChunks(b, m)
    ensures PiecesOfChunks(b, Visit(b, cs, m))
  {
    if cs != [] {
      StoreKeepsPieces(b, cs[0], m);
      VisitKeepsPieces(b, cs[1..], Store(b, cs[0], m));
    }
  }

  lemma {:induction false} VisitKeepsKeys(b: Bounds, cs: seq<Vector32>, m: map<ChunkKey, Bounds>)
    ensures m.Keys <= Visit(b, cs, m).Keys
  {
    if cs != [] {
      VisitKeepsKeys(b, cs[1..], Store(b, cs[0], m));
    }
  }

  /** Every visited corner whose piece has volume ends up as a key. */
  lemma {:induction false} VisitStoresSolidPieces(b: Bounds, cs: seq<Vector32>, m: map<ChunkKey, Bounds>)
    ensures forall v <- cs :: HasVolume(Clamp(b, ChunkBox(v))) ==> KeyOf(v) in Visit(b, cs, m)
  {
    if cs != [] {
      var m' := Store(b, cs[0], m);
      VisitStoresSolidPieces(b, cs[1..], m');
      VisitKeepsKeys(b, cs[1..], m');
      assert cs == [cs[0]] + cs[1..];
    }
  }

  /** The corners of the chunks the rounded box spans, in loop order. */
  function ChunkCorners(rounded: Bounds): (r: seq<Vector32>)
    requires Lt(rounded.max.x, TopChunk) && Lt(rounded.max.y, TopChunk) && Lt(rounded.max.z, TopChunk)
  {
    Grid(Corners(rounded.min.x, rounded.max.x), Corners(rounded.min.y, rounded.max.y), Corners(rounded.min.z, rounded.max.z))
  }

  lemma RoundToChunkAligned(b: Bounds)
    ensures ChunkAligned(RoundToChunk(b).min.x) && ChunkAligned(RoundToChunk(b).min.y) && ChunkAligned(RoundToChunk(b).min.z)
  {
  }

  lemma ChunkCornersAligned(b: Bounds)
    requires Lt(RoundToChunk(b).max.x, TopChunk) && Lt(RoundToChunk(b).max.y, TopChunk) && Lt(RoundToChunk(b).max.z, TopChunk)
    ensures forall v <- ChunkCorners(RoundToChunk(b)) :: CornerAligned(v)
  {
    var r := RoundToChunk(b);
    RoundToChunkAligned(b);
    CornersAligned(r.min.x, r.max.x);
    CornersAligned(r.min.y, r.max.y);
    CornersAligned(r.min.z, r.max.z);
    forall v <- ChunkCorners(r)
      ensures CornerAligned(v)
    {
      GridMembers(Corners(r.min.x, r.max.x), Corners(r.min.y, r.max.y), Corners(r.min.z, r.max.z), v);
    }
  }

  /**
   * The part of `b` inside each chunk it touches, keyed by the chunk's code; chunks
   * where that part has no volume are skipped. Every piece has volume and is the clamp
   * of `b` to its own chunk, and every chunk corner the loops visit with a solid piece
   * is present.
   */
  function SplitPerChunk(b: Bounds): (r: map<ChunkKey, Bounds>)
    requires Lt(RoundToChunk(b).max.x, TopChunk) && Lt(RoundToChunk(b).max.y, TopChunk) && Lt(RoundToChunk(b).max.z, TopChunk)
    ensures forall k <- r :: HasVolume(r[k]) && r[k] == Clamp(b, FromChunkMorton(k.code))
    ensures forall k <- r :: Inside(r[k], b) && Inside(r[k], FromChunkMorton(k.code))
    ensures forall v <- ChunkCorners(RoundToChunk(b)) ::
              HasVolume(Clamp(b, ChunkBox(v))) ==> KeyOf(v) in r
  {
    var cs := ChunkCorners(RoundToChunk(b));
    ChunkCornersAligned(b);
    VisitKeepsPieces(b, cs, map[]);
    VisitStoresSolidPieces(b, cs, map[]);
    Visit(b, cs, map[])
  }
}

=== FILE: definitions.dfy ===
/**
 * The constant tables of the navmesh: layer indices, node sizes per layer and
 * their masks, the child bit-masks of an octree node, the grouped-leaf masks
 * and the six-bit direction encoding (`-X -Y -Z +X +Y +Z`, most significant
 * first).
 */
module Definitions {
  import opened Signed

  // Layer indices. Layers 0..10 hold nodes, 11 and 12 are leaf levels,
  // 14 and 15 are special values stored in neighbour relations.
  const Root: nat := 0
  const StaticDepth: nat := 8
  const NodeDepth: nat := 10
  const GroupedLeaf: nat := 11
  const Leaf: nat := 12
  const ParentLayer: nat := 14
  const EmptyLayer: nat := 15
  const TotalLayers: nat := 13

  const SizeExponent: nat := 1
  /** SizeExponent plus the two leaf levels. */
  const SizeShift: nat := 3

  /** Chunk size in bits: NodeDepth + SizeShift. */
  const ChunkSizeBits: nat := 13
  /** 1 << ChunkSizeBits. */
  const ChunkSize: Int32 := 0x2000
  /** ~(ChunkSize - 1). */
  const ChunkSizeMask: bv32 := 0xFFFF_E000
  /** ((1 << 20) - 1) << ChunkSizeBits, the 64-bit offset that makes chunk coordinates positive. */
  const SignOffset: bv64 := 0x1_FFFF_E000
  /** The low 32 bits of SignOffset, which is all an `int32` sum or difference with it keeps. */
  const SignOffset32: bv32 := 0xFFFF_E000

  /** Node edge length per layer: 1 << (ChunkSizeBits - layer). */
  const Sizes: seq<Int32> :=
    [0x2000, 0x1000, 0x800, 0x400, 0x200, 0x100, 0x80, 0x40, 0x20, 0x10, 0x8, 0x4, 0x2]

  /** ~(Sizes[layer] - 1): clears the bits below a node of that layer. */
  const SizesMask: seq<bv32> :=
    [0xFFFF_E000, 0xFFFF_F000, 0xFFFF_F800, 0xFFFF_FC00, 0xFFFF_FE00, 0xFFFF_FF00, 0xFFFF_FF80,
     0xFFFF_FFC0, 0xFFFF_FFE0, 0xFFFF_FFF0, 0xFFFF_FFF8, 0xFFFF_FFFC, 0xFFFF_FFFE]

  /** log2 of Sizes. */
  const SizesBits: seq<nat> := [13, 12, 11, 10, 9, 8, 7, 6, 5, 4, 3, 2, 1]

  const HalveSizes: seq<Int32> :=
    [0x1000, 0x800, 0x400, 0x200, 0x100, 0x80, 0x40, 0x20, 0x10, 0x8, 0x4, 0x2, 0x1]

  /** Bit of child i in a node's eight-bit child mask. */
  const ChildMasks: seq<bv8> := [0x01, 0x02, 0x04, 0x08, 0x10, 0x20, 0x40, 0x80]
  const ChildMasksInverse: seq<bv8> := [0xFE, 0xFD, 0xFB, 0xF7, 0xEF, 0xDF, 0xBF, 0x7F]

  // Child masks used to drop the children on one side of a node. Child index
  // bit 0 is the X offset, bit 1 the Y offset and bit 2 the Z offset.
  const ClearNegativeX: bv8 := 0xAA
  const ClearNegativeY: bv8 := 0xCC
  const ClearNegativeZ: bv8 := 0x0F
  const ClearPositiveX: bv8 := 0x55
  const ClearPositiveY: bv8 := 0x33
  const ClearPositiveZ: bv8 := 0xF0

  const SetNegativeX: bv8 := 0x55
  const SetNegativeY: bv8 := 0x33
  const SetNegativeZ: bv8 := 0xF0
  const SetPositiveX: bv8 := 0xAA
  const SetPositiveY: bv8 := 0xCC
  const SetPositiveZ: bv8 := 0x0F

  /** The Z masks with the negative and positive halves the other way round, consistent with X and Y. */
  const ClearNegativeZFixed: bv8 := 0xF0
  const ClearPositiveZFixed: bv8 := 0x0F

  const StateStatic: bv8 := 0
  const StateDynamic: bv8 := 1

  const LeafSize: Int32 := 2
  const LeafSizeMask: bv32 := 0xFFFF_FFFE

  const LeafBaseMask: bv64 := 0xFF
  const LeafMasksShift: seq<bv64> := [0, 8, 16, 24, 32, 40, 48, 56]
  const LeafMasks: seq<bv64> :=
    [0xFF, 0xFF00, 0xFF_0000, 0xFF00_0000, 0xFF_0000_0000, 0xFF00_0000_0000,
     0xFF_0000_0000_0000, 0xFF00_0000_0000_0000]

  type Direction = bv8

  const NegativeX: Direction := 0x20
  const NegativeY: Direction := 0x10
  const NegativeZ: Direction := 0x08
  const NegativeXYZ: Direction := 0x38
  const NotNegativeX: Direction := 0x1F
  const NotNegativeY: Direction := 0x2F
  const NotNegativeZ: Direction := 0x37

  const PositiveX: Direction := 0x04
  const PositiveY: Direction := 0x02
  const PositiveZ: Direction := 0x01
  const PositiveXYZ: Direction := 0x07
  const NotPositiveX: Direction := 0x3B
  const NotPositiveY: Direction := 0x3D
  const NotPositiveZ: Direction := 0x3E

  const AllDirections: Direction := 0x3F
  const NoDirection: Direction := 0x00
  const DirectionList: seq<Direction> := [NegativeX, NegativeY, NegativeZ, PositiveX, PositiveY, PositiveZ]

  /** One of the six directions the navmesh moves in. */
  predicate IsSingleDirection(d: Direction)
  {
    d == NegativeX || d == NegativeY || d == NegativeZ || d == PositiveX || d == PositiveY || d == PositiveZ
  }

  /** The direction pointing the other way along the same axis. */
  function Opposite(d: Direction): (r: Direction)
    requires IsSingleDirection(d)
    ensures IsSingleDirection(r) && r != d
    ensures (r & NegativeXYZ == 0) == (d & NegativeXYZ != 0)
  {
    if d == NegativeX then PositiveX
    else if d == NegativeY then PositiveY
    else if d == NegativeZ then PositiveZ
    else if d == PositiveX then NegativeX
    else if d == PositiveY then NegativeY
    else NegativeZ
  }

  lemma OppositeInvolution(d: Direction)
    requires IsSingleDirection(d)
    ensures Opposite(Opposite(d)) == d
    ensures (Opposite(d) >> 3) == d || (Opposite(d) << 3) == d
  {
  }

  /** The chunk constants follow from the layer count and the size exponent. */
  lemma ChunkConstants()
    ensures ChunkSizeBits == NodeDepth + SizeShift && SizeShift == SizeExponent + 2
    ensures ChunkSize == 1 << 13 && ChunkSizeMask == !(ChunkSize - 1)
    ensures SignOffset == ((1 << 20) - 1) << 13
    ensures SignOffset & 0xFFFF_FFFF == 0xFFFF_E000 && SignOffset32 == 0 - ChunkSize
    ensures LeafSize == 1 << SizeExponent && LeafSizeMask == !(LeafSize - 1)
  {
  }

  /** Sizes starts at the chunk size and halves from one layer to the next. */
  lemma SizesHalve(i: nat)
    requires i < TotalLayers
    ensures |Sizes| == |SizesMask| == |SizesBits| == |HalveSizes| == TotalLayers
    ensures Sizes[0] == ChunkSize
    ensures i + 1 < TotalLayers ==> Sizes[i] == Sizes[i + 1] << 1
    ensures Sizes[i] == 1 << (SizesBits[i] as bv32) && SizesBits[i] == ChunkSizeBits - i
  {
  }

  /** Each SizesMask entry clears exactly the bits below its node size, and HalveSizes halves it. */
  lemma SizesMaskIsComplement(i: nat)
    requires i < TotalLayers
    ensures SizesMask[i] == !(Sizes[i] - 1)
    ensures HalveSizes[i] << 1 == Sizes[i]
    ensures ChunkSize & !SizesMask[i] == 0
  {
  }

  /** Child masks are single bits, one per index, and the inverse table is their 8-bit complement. */
  lemma ChildMaskTables(i: nat)
    requires i < 8
    ensures ChildMasks[i] == 1 << (i as bv8)
    ensures ChildMasksInverse[i] == !ChildMasks[i]
  {
  }

  /** Offset of child `i` along an axis: bit 0 of the index is X, bit 1 is Y, bit 2 is Z. */
  function ChildOffsetBit(i: nat, axis: nat): (b: bool)
    requires i < 8 && axis < 3
  {
    if axis == 0 then i % 2 == 1 else if axis == 1 then (i / 2) % 2 == 1 else i / 4 == 1
  }

  /** Child `i` lies in the half of its parent that faces side `d`. */
  predicate FacesSide(i: nat, d: Direction)
    requires i < 8 && IsSingleDirection(d)
  {
    if d == NegativeX || d == PositiveX then ChildOffsetBit(i, 0) == (d == PositiveX)
    else if d == NegativeY || d == PositiveY then ChildOffsetBit(i, 1) == (d == PositiveY)
    else ChildOffsetBit(i, 2) == (d == PositiveZ)
  }

  /** Every Clear::Negative mask is the 8-bit complement of its Clear::Positive mask, and the Set masks mirror them. */
  lemma ClearMasksComplement()
    ensures ClearNegativeX == !ClearPositiveX && ClearNegativeY == !ClearPositiveY && ClearNegativeZ == !ClearPositiveZ
    ensures SetNegativeX == ClearPositiveX && SetNegativeY == ClearPositiveY && SetNegativeZ == ClearPositiveZ
    ensures SetPositiveX == ClearNegativeX && SetPositiveY == ClearNegativeY && SetPositiveZ == ClearNegativeZ
    ensures ClearNegativeZFixed == !ClearPositiveZFixed
  {
  }

  /** Clear::Negative::X and Clear::Negative::Y keep exactly the children with the axis bit set. */
  lemma {:induction false} ClearNegativeKeepsPositiveHalf(i: nat)
    requires i < 8
    ensures (ClearNegativeX & ChildMasks[i] != 0) == ChildOffsetBit(i, 0)
    ensures (ClearNegativeY & ChildMasks[i] != 0) == ChildOffsetBit(i, 1)
    ensures (ClearPositiveX & ChildMasks[i] != 0) == !ChildOffsetBit(i, 0)
    ensures (ClearPositiveY & ChildMasks[i] != 0) == !ChildOffsetBit(i, 1)
  {
    if i == 0 {} else if i == 1 {} else if i == 2 {} else if i == 3 {}
    else if i == 4 {} else if i == 5 {} else if i == 6 {} else {}
  }

  /** As written, Clear::Negative::Z keeps the children whose Z bit is clear: the opposite of X and Y. */
  lemma {:induction false} ClearNegativeZKeepsNegativeHalf(i: nat)
    requires i < 8
    ensures (ClearNegativeZ & ChildMasks[i] != 0) == !ChildOffsetBit(i, 2)
    ensures (ClearPositiveZ & ChildMasks[i] != 0) == ChildOffsetBit(i, 2)
    ensures (SetNegativeZ & ChildMasks[i] != 0) == ChildOffsetBit(i, 2)
  {
    if i == 0 {} else if i == 1 {} else if i == 2 {} else if i == 3 {}
    else if i == 4 {} else if i == 5 {} else if i == 6 {} else {}
  }

  /** The corrected Z masks keep the same half as the X and Y masks do. */
  lemma {:induction false} ClearNegativeZFixedKeepsPositiveHalf(i: nat)
    requires i < 8
    ensures (ClearNegativeZFixed & ChildMasks[i] != 0) == ChildOffsetBit(i, 2)
    ensures (ClearPositiveZFixed & ChildMasks[i] != 0) == !ChildOffsetBit(i, 2)
  {
    if i == 0 {} else if i == 1 {} else if i == 2 {} else if i == 3 {}
    else if i == 4 {} else if i == 5 {} else if i == 6 {} else {}
  }

  /** The grouped-leaf masks are the base byte shifted to each of the eight byte positions. */
  lemma LeafMasksAreBytes(i: nat)
    requires i < 8
    ensures LeafMasks[i] == LeafBaseMask << LeafMasksShift[i]
    ensures i > 0 ==> LeafMasksShift[i] == LeafMasksShift[i - 1] + 8
  {
  }

  /** The grouped-leaf masks are pairwise disjoint and together cover all 64 bits. */
  lemma LeafMasksPartition(i: nat, j: nat)
    requires i < 8 && j < 8 && i != j
    ensures LeafMasks[i] & LeafMasks[j] == 0
    ensures LeafMasks[0] | LeafMasks[1] | LeafMasks[2] | LeafMasks[3] | LeafMasks[4] | LeafMasks[5] | LeafMasks[6] | LeafMasks[7]
            == 0xFFFF_FFFF_FFFF_FFFF
  {
  }

  /** Each NOT_d is the six-bit complement of d, and the direction list holds six distinct single bits. */
  lemma DirectionTables(i: nat, j: nat)
    requires i < 6 && j < 6
    ensures NotNegativeX == AllDirections & !NegativeX && NotNegativeY == AllDirections & !NegativeY
    ensures NotNegativeZ == AllDirections & !NegativeZ && NotPositiveX == AllDirections & !PositiveX
    ensures NotPositiveY == AllDirections & !PositiveY && NotPositiveZ == AllDirections & !PositiveZ
    ensures NegativeXYZ == NegativeX | NegativeY | NegativeZ && PositiveXYZ == PositiveX | PositiveY | PositiveZ
    ensures AllDirections == NegativeXYZ | PositiveXYZ
    ensures |DirectionList| == 6 && IsSingleDirection(DirectionList[i])
    ensures DirectionList[i] != 0 && DirectionList[i] & (DirectionList[i] - 1) == 0
    ensures DirectionList[i] & AllDirections == DirectionList[i]
    ensures i != j ==> DirectionList[i] != DirectionList[j]
  {
  }

  /** The six single directions are exactly the one-bit values below 64. */
  lemma {:induction false} SingleDirectionIsOneBit(d: Direction)
    ensures IsSingleDirection(d) <==> (d != 0 && d & (d - 1) == 0 && d & AllDirections == d)
  {
  }
}

=== FILE: generator.dfy ===
/**
 * The two integer decisions of the rasterizer: the layer a rasterization
 * starts at, given the size of the bounds, and which children of a node are
 * re-rasterized near the border of the bounds, together with the sides whose
 * border still has to be checked deeper down.
 */
module Generator {
  import opened Definitions
  import opened Signed
  import opened Vectors
  import Aabb

  // ---------------------------------------------------------------------------
  // The starting layer

  /** The value of a 32-bit two's-complement integer. */
  function SignedValue(a: Int32): (v: int)
  {
    if IsNegative(a) then a as int - 0x1_0000_0000 else a as int
  }

  /** C++ integer division, which truncates toward zero. */
  function TruncDiv(a: int, b: int): (q: int)
    requires b > 0
  {
    if a >= 0 then a / b else -((-a) / b)
  }

  /** `GetLengths().GetLargestAxis()`: the longest side of the bounds, with 32-bit wrap-around in the subtraction. */
  function LargestSide(b: Aabb.Bounds): (s: int)
  {
    var lx := Offset(b.max.x, b.min.x);
    var ly := Offset(b.max.y, b.min.y);
    var lz := Offset(b.max.z, b.min.z);
    SignedValue(Max(Max(lx, ly), lz))
  }

  /** A layer is coarse enough to start at when the side spans at least two of its nodes. */
  predicate SpansTwoNodes(side: int, l: nat)
    requires l < |Sizes|
  {
    side >= 2 * (Sizes[l] as int)
  }

  /** The first layer whose nodes the side spans twice, or the leaf layer when there is none before it. */
  predicate IsStartingLayer(side: int, l: nat)
  {
    l <= Leaf
    && (forall k | 0 <= k < l :: !SpansTwoNodes(side, k))
    && (l < Leaf ==> SpansTwoNodes(side, l))
  }

  /** A truncated quotient by a positive divisor exceeds one exactly when the dividend is at least twice the divisor. */
  lemma QuotientAboveOne(a: int, b: int)
    requires b > 0
    ensures TruncDiv(a, b) > 1 <==> a >= 2 * b
  {
  }

  /**
   * `CalculateOptimalStartingLayer`: the first layer, from the root down,
   * where the longest side of the bounds divided by the node size is more
   * than one; the leaf layer when no layer qualifies.
   */
  method CalculateOptimalStartingLayer(b: Aabb.Bounds) returns (l: nat)
    ensures IsStartingLayer(LargestSide(b), l)
  {
    var side := LargestSide(b);
    var k := Root;
    while k < TotalLayers
      invariant k <= TotalLayers
      invariant forall j | 0 <= j < k :: !SpansTwoNodes(side, j)
    {
      QuotientAboveOne(side, Sizes[k] as int);
      if TruncDiv(side, Sizes[k] as int) > 1 {
        return k;
      }
      k := k + 1;
    }
    return Leaf;
  }

  /** A longer side never starts at a deeper layer. */
  lemma StartingLayerMonotone(s1: int, l1: nat, s2: int, l2: nat)
    requires IsStartingLayer(s1, l1) && IsStartingLayer(s2, l2)
    requires s1 <= s2
    ensures l2 <= l1
  {
    if l1 < Leaf {
      assert SpansTwoNodes(s2, l1);
    }
  }

  /** The starting layer of a side is unique. */
  lemma StartingLayerUnique(s: int, l1: nat, l2: nat)
    requires IsStartingLayer(s, l1) && IsStartingLayer(s, l2)
    ensures l1 == l2
  {
    StartingLayerMonotone(s, l1, s, l2);
    StartingLayerMonotone(s, l2, s, l1);
  }

  // ---------------------------------------------------------------------------
  // Skip masks

  /**
   * `FLayerSkipMasks`: per side, the distance between the bounds and the
   * bounds rounded to the starting layer, in a ten-bit field. Bit `9 - l`
   * is the bit `LayerMasks[l]` tests at layer `l`.
   */
  datatype SkipMasks = SkipMasks(negX: bv10, negY: bv10, negZ: bv10, posX: bv10, posY: bv10, posZ: bv10)

  /** A distance stored in a ten-bit field keeps its low ten bits. */
  function Field10(a: Int32): (f: bv10)
  {
    (a & 0x3FF) as bv10
  }

  /** `FLayerSkipMasks(Bounds, RoundedBounds)`. */
  function MakeSkipMasks(b: Aabb.Bounds, rounded: Aabb.Bounds): (s: SkipMasks)
  {
    SkipMasks(Field10(Offset(b.min.x, rounded.min.x)), Field10(Offset(b.min.y, rounded.min.y)),
              Field10(Offset(b.min.z, rounded.min.z)), Field10(Offset(rounded.max.x, b.max.x)),
              Field10(Offset(rounded.max.y, b.max.y)), Field10(Offset(rounded.max.z, b.max.z)))
  }

  /** A distance below 1024 is stored exactly. */
  lemma Field10Exact(a: Int32)
    ensures a < 0x400 ==> Field10(a) as bv32 == a
  {
  }

  /** Bounds that are already rounded leave no gap on any side. */
  lemma RoundedBoundsSkipNothing(b: Aabb.Bounds)
    ensures MakeSkipMasks(b, b) == SkipMasks(0, 0, 0, 0, 0, 0)
  {
    assert Offset(b.min.x, b.min.x) == 0 && Offset(b.min.y, b.min.y) == 0 && Offset(b.min.z, b.min.z) == 0;
    assert Offset(b.max.x, b.max.x) == 0 && Offset(b.max.y, b.max.y) == 0 && Offset(b.max.z, b.max.z) == 0;
  }

  /** `FLayerSkipMasks::Masks`: the bit of each layer, 9 - l. */
  const LayerMasks: seq<bv10> := [0x200, 0x100, 0x080, 0x040, 0x020, 0x010, 0x008, 0x004, 0x002, 0x001]

  /** `FLayerSkipMasks::ClearParentMasks`: the bits of all deeper layers. */
  const ParentMasks: seq<bv10> := [0x1FF, 0x0FF, 0x07F, 0x03F, 0x01F, 0x00F, 0x007, 0x003, 0x001, 0x000]

  /** The two tables as the header writes them. */
  const LayerMasksAsWritten: seq<bv10> := [0x200, 0x100, 0x040, 0x040, 0x020, 0x010, 0x008, 0x004, 0x002, 0x001]
  const ParentMasksAsWritten: seq<bv10> := [0x1FF, 0x0FF, 0x07F, 0x03F, 0x00F, 0x007, 0x003, 0x001, 0x000, 0x000]

  /** Layer `l` owns bit 9 - l, and the parent mask of `l` is every bit below it. */
  lemma {:induction false} LayerMasksAreLayerBits(l: nat)
    requires l < 10
    ensures LayerMasks[l] == 1 << (9 - l) as bv10
    ensures ParentMasks[l] == LayerMasks[l] - 1
  {
    if l == 0 {} else if l == 1 {} else if l == 2 {} else if l == 3 {} else if l == 4 {}
    else if l == 5 {} else if l == 6 {} else if l == 7 {} else if l == 8 {} else {}
  }

  /** As written, layers 2 and 3 share a bit, and the parent masks of layers 4 to 8 miss the bit just below. */
  lemma MaskTablesAsWritten()
    ensures LayerMasksAsWritten[2] == LayerMasksAsWritten[3] != 1 << 7
    ensures forall l | 4 <= l < 9 :: ParentMasksAsWritten[l] != LayerMasksAsWritten[l] - 1
    ensures forall l | 4 <= l < 9 :: ParentMasksAsWritten[l] == ParentMasks[l + 1]
  {
  }

  // ---------------------------------------------------------------------------
  // Children to rasterize

  /** The Clear masks used for the six sides, in the order of the direction list. */
  datatype ClearMasks = ClearMasks(negX: bv8, negY: bv8, negZ: bv8, posX: bv8, posY: bv8, posZ: bv8)

  /** The masks that remove the children against each side. */
  const Clears: ClearMasks :=
    ClearMasks(ClearNegativeX, ClearNegativeY, ClearNegativeZFixed, ClearPositiveX, ClearPositiveY, ClearPositiveZFixed)

  /** The masks as the definitions write them, Z swapped. */
  const ClearsAsWritten: ClearMasks :=
    ClearMasks(ClearNegativeX, ClearNegativeY, ClearNegativeZ, ClearPositiveX, ClearPositiveY, ClearPositiveZ)

  /** The `k`-th side of the direction list. */
  function Side(k: nat): (d: Direction)
    requires k < 6
    ensures d == DirectionList[k] && IsSingleDirection(d)
  {
    if k == 0 then NegativeX else if k == 1 then NegativeY else if k == 2 then NegativeZ
    else if k == 3 then PositiveX else if k == 4 then PositiveY else PositiveZ
  }

  /** The complement of the `k`-th side within the six side bits. */
  function NotSide(k: nat): (d: Direction)
    requires k < 6
    ensures d == AllDirections & !Side(k)
  {
    if k == 0 then NotNegativeX else if k == 1 then NotNegativeY else if k == 2 then NotNegativeZ
    else if k == 3 then NotPositiveX else if k == 4 then NotPositiveY else NotPositiveZ
  }

  /** The gap on the `k`-th side of the direction list. */
  function Gap(s: SkipMasks, k: nat): (g: bv10)
    requires k < 6
  {
    if k == 0 then s.negX else if k == 1 then s.negY else if k == 2 then s.negZ
    else if k == 3 then s.posX else if k == 4 then s.posY else s.posZ
  }

  /** The Clear mask of the `k`-th side of the direction list. */
  function ClearOf(c: ClearMasks, k: nat): (m: bv8)
    requires k < 6
  {
    if k == 0 then c.negX else if k == 1 then c.negY else if k == 2 then c.negZ
    else if k == 3 then c.posX else if k == 4 then c.posY else c.posZ
  }

  /** The complement of a side clears that side and keeps the other five. */
  lemma {:induction false} NotDirectionsTable(j: nat, k: nat)
    requires j < 6 && k < 6
    ensures NotSide(j) & Side(k) == if j == k then 0 else Side(k)
  {
    if j == 0 {} else if j == 1 {} else if j == 2 {} else if j == 3 {} else if j == 4 {} else {}
  }

  /**
   * The check of side `d` on the sides still to check: when `d` is among
   * them (and, for every side but negative X, when the gap holds no node of
   * this layer), `d` is done if the gap holds no node of any deeper layer.
   * The complement mask also clears the two bits above the six sides.
   */
  function SideEdges(e: Direction, d: Direction, notD: Direction, gap: bv10, layer: bv10, parents: bv10,
                     guarded: bool): (f: Direction)
  {
    if e & d != 0 && (!guarded || gap & layer == 0) then
      (if gap & parents == 0 then e & notD else e)
    else e
  }

  /** Whether the check of side `d` drops the children against it: `d` is to be checked and the gap holds no node of this layer. */
  predicate Drops(e: Direction, gap: bv10, layer: bv10, d: Direction)
  {
    e & d != 0 && gap & layer == 0
  }

  /** The check of side `d` on the children: when it drops them, the children against `d` are masked out. */
  function SideChildren(children: bv8, e: Direction, d: Direction, gap: bv10, layer: bv10, clear: bv8): (c: bv8)
  {
    if Drops(e, gap, layer, d) then children & clear else children
  }

  /** The sides still to check after the first `n` checks, made in the order of the direction list. */
  function EdgesAfter(edges: Direction, s: SkipMasks, layer: bv10, parents: bv10, n: nat): (e: Direction)
    requires n <= 6
  {
    if n == 0 then edges
    else SideEdges(EdgesAfter(edges, s, layer, parents, n - 1), Side(n - 1), NotSide(n - 1),
                   Gap(s, n - 1), layer, parents, Guarded(n - 1))
  }

  /** Every check but the first, on negative X, also asks for no node of this layer in the gap before it may finish its side. */
  predicate Guarded(k: nat)
  {
    k != 0
  }

  /** The children to rasterize after the first `n` checks, starting from all eight. */
  function ChildrenAfter(edges: Direction, s: SkipMasks, layer: bv10, parents: bv10, c: ClearMasks, n: nat): (r: bv8)
    requires n <= 6
  {
    if n == 0 then 0xFF
    else SideChildren(ChildrenAfter(edges, s, layer, parents, c, n - 1), EdgesAfter(edges, s, layer, parents, n - 1),
                      Side(n - 1), Gap(s, n - 1), layer, ClearOf(c, n - 1))
  }

  /** The children to rasterize and the sides still to check. */
  datatype Raster = Raster(children: bv8, edges: Direction)

  /** The six checks, for the bit `layer` of the current layer and the bits `parents` of the deeper ones. */
  function RasterizeBy(edges: Direction, s: SkipMasks, layer: bv10, parents: bv10, c: ClearMasks): (r: Raster)
  {
    Raster(ChildrenAfter(edges, s, layer, parents, c, 6), EdgesAfter(edges, s, layer, parents, 6))
  }

  /** `GetChildrenToRasterizeAndUpdateEdges` (Generator.cpp:41-94), with the corrected tables. */
  function GetChildrenToRasterizeAndUpdateEdges(edges: Direction, s: SkipMasks, l: nat): (r: Raster)
    requires l < 10
  {
    RasterizeBy(edges, s, LayerMasks[l], ParentMasks[l], Clears)
  }

  /** `GetChildrenToRasterizeAndUpdateEdges` with the tables as written. */
  function GetChildrenToRasterizeAsWritten(edges: Direction, s: SkipMasks, l: nat): (r: Raster)
    requires l < 10
  {
    RasterizeBy(edges, s, LayerMasksAsWritten[l], ParentMasksAsWritten[l], ClearsAsWritten)
  }

  // ---------------------------------------------------------------------------
  // What the checks compute

  lemma SideEdgesClears(e: Direction, d: Direction, notD: Direction, gap: bv10, layer: bv10, parents: bv10,
                        guarded: bool)
    ensures SideEdges(e, d, notD, gap, layer, parents, guarded) & !e == 0
  {
  }

  lemma SubsetTransitive(a: bv8, b: bv8, c: bv8)
    ensures a & !b == 0 && b & !c == 0 ==> a & !c == 0
  {
  }

  /** The sides to check only ever lose bits. */
  lemma {:induction false} EdgesOnlyCleared(edges: Direction, s: SkipMasks, layer: bv10, parents: bv10, n: nat)
    requires n <= 6
    ensures EdgesAfter(edges, s, layer, parents, n) & !edges == 0
  {
    if n > 0 {
      EdgesOnlyCleared(edges, s, layer, parents, n - 1);
      var e := EdgesAfter(edges, s, layer, parents, n - 1);
      SideEdgesClears(e, Side(n - 1), NotSide(n - 1), Gap(s, n - 1), layer, parents, Guarded(n - 1));
      SubsetTransitive(EdgesAfter(edges, s, layer, parents, n), e, edges);
    }
  }

  lemma SideEdgesKeeps(e: Direction, d: Direction, notD: Direction, gap: bv10, layer: bv10, parents: bv10,
                       guarded: bool, other: Direction)
    ensures notD & other == other ==> SideEdges(e, d, notD, gap, layer, parents, guarded) & other == e & other
  {
  }

  /** A side is not touched by the checks made before its own. */
  lemma {:induction false} LaterSideUntouched(edges: Direction, s: SkipMasks, layer: bv10, parents: bv10, n: nat, k: nat)
    requires n <= k < 6
    ensures EdgesAfter(edges, s, layer, parents, n) & Side(k) == edges & Side(k)
  {
    if n > 0 {
      LaterSideUntouched(edges, s, layer, parents, n - 1, k);
      NotDirectionsTable(n - 1, k);
      SideEdgesKeeps(EdgesAfter(edges, s, layer, parents, n - 1), Side(n - 1), NotSide(n - 1),
                     Gap(s, n - 1), layer, parents, Guarded(n - 1), Side(k));
    }
  }

  /** The check of side `d` leaves `d` unchecked exactly when it was unchecked or the check finishes it. */
  lemma SideEdgesOwnSide(e: Direction, d: Direction, notD: Direction, gap: bv10, layer: bv10, parents: bv10,
                         guarded: bool)
    ensures notD & d == 0 ==>
              (SideEdges(e, d, notD, gap, layer, parents, guarded) & d == 0 <==>
               e & d == 0 || ((!guarded || gap & layer == 0) && gap & parents == 0))
  {
  }

  /** The checks after the `k`-th leave side `k` as the `k`-th check left it. */
  lemma {:induction false} EarlierSideKept(edges: Direction, s: SkipMasks, layer: bv10, parents: bv10, n: nat, k: nat)
    requires k < n <= 6
    ensures EdgesAfter(edges, s, layer, parents, n) & Side(k) == EdgesAfter(edges, s, layer, parents, k + 1) & Side(k)
  {
    if n > k + 1 {
      EarlierSideKept(edges, s, layer, parents, n - 1, k);
      NotDirectionsTable(n - 1, k);
      SideEdgesKeeps(EdgesAfter(edges, s, layer, parents, n - 1), Side(n - 1), NotSide(n - 1),
                     Gap(s, n - 1), layer, parents, Guarded(n - 1), Side(k));
    }
  }

  /**
   * After the first `n` checks, side `k` among them is no longer to be
   * checked exactly when it was not to be checked, or its check was allowed
   * (always for negative X, otherwise only when the gap holds no node of
   * this layer) and the gap holds no node of any deeper layer.
   */
  lemma EdgesAfterSide(edges: Direction, s: SkipMasks, layer: bv10, parents: bv10, n: nat, k: nat)
    requires k < n <= 6
    ensures Unset(EdgesAfter(edges, s, layer, parents, n), Side(k)) <==>
      Unset(edges, Side(k)) || Finishes(Gap(s, k), layer, parents, Guarded(k))
  {
    EarlierSideKept(edges, s, layer, parents, n, k);
    UnsetOfSameBits(EdgesAfter(edges, s, layer, parents, n), EdgesAfter(edges, s, layer, parents, k + 1), Side(k));
    OwnCheck(edges, s, layer, parents, k);
  }

  lemma UnsetOfSameBits(a: Direction, b: Direction, d: Direction)
    ensures a & d == b & d ==> (Unset(a, d) <==> Unset(b, d))
  {
  }

  /** The `k`-th check alone: it clears side `k` exactly when the side was unset or the check finishes it. */
  lemma OwnCheck(edges: Direction, s: SkipMasks, layer: bv10, parents: bv10, k: nat)
    requires k < 6
    ensures Unset(EdgesAfter(edges, s, layer, parents, k + 1), Side(k)) <==>
      Unset(edges, Side(k)) || Finishes(Gap(s, k), layer, parents, Guarded(k))
  {
    LaterSideUntouched(edges, s, layer, parents, k, k);
    NotSideClearsOwn(k);
    EdgesAfterUnfold(edges, s, layer, parents, k);
    OwnSideThroughChecks(edges, EdgesAfter(edges, s, layer, parents, k), EdgesAfter(edges, s, layer, parents, k + 1),
                         Side(k), NotSide(k), Gap(s, k), layer, parents, Guarded(k));
  }

  lemma OwnSideThroughChecks(edges: Direction, before: Direction, after: Direction, d: Direction,
                             notD: Direction, gap: bv10, layer: bv10, parents: bv10, guarded: bool)
    ensures before & d == edges & d && after == SideEdges(before, d, notD, gap, layer, parents, guarded) &&
            notD & d == 0 ==>
              (Unset(after, d) <==> Unset(edges, d) || Finishes(gap, layer, parents, guarded))
  {
    SideEdgesOwnSide(before, d, notD, gap, layer, parents, guarded);
  }

  /** Side `d` is not among the sides `e` still to check. */
  predicate Unset(e: Direction, d: Direction)
  {
    e & d == 0
  }

  /** A check that runs (always when unguarded, otherwise only with no node of this layer in the gap) and finds no node of a deeper layer in the gap. */
  predicate Finishes(gap: bv10, layer: bv10, parents: bv10, guarded: bool)
  {
    (!guarded || gap & layer == 0) && gap & parents == 0
  }

  lemma EdgesAfterUnfold(edges: Direction, s: SkipMasks, layer: bv10, parents: bv10, k: nat)
    requires k < 6
    ensures EdgesAfter(edges, s, layer, parents, k + 1) ==
      SideEdges(EdgesAfter(edges, s, layer, parents, k), Side(k), NotSide(k), Gap(s, k), layer, parents, Guarded(k))
  {
  }

  lemma NotSideClearsOwn(k: nat)
    requires k < 6
    ensures NotSide(k) & Side(k) == 0
  {
    NotDirectionsTable(k, k);
  }

  /** The mask a check applies to the children: its Clear mask when it drops them, all eight otherwise. */
  function Keep(drops: bool, clear: bv8): (k: bv8)
  {
    if drops then clear else 0xFF
  }

  /** The masks of the first `n` checks, each judged on the sides given rather than the sides left. */
  function KeepAll(edges: Direction, s: SkipMasks, layer: bv10, c: ClearMasks, n: nat): (m: bv8)
    requires n <= 6
  {
    if n == 0 then 0xFF
    else KeepAll(edges, s, layer, c, n - 1) & Keep(Drops(edges, Gap(s, n - 1), layer, Side(n - 1)), ClearOf(c, n - 1))
  }

  lemma SideChildrenIsAnd(children: bv8, e: Direction, before: Direction, d: Direction, gap: bv10, layer: bv10, clear: bv8)
    ensures e & d == before & d ==>
      SideChildren(children, e, d, gap, layer, clear) == children & Keep(Drops(before, gap, layer, d), clear)
  {
  }

  /**
   * Checking one side never changes whether a later side is checked, so the
   * children to rasterize are all eight masked by the Clear mask of every
   * side whose check drops its children, judged on the sides given.
   */
  lemma {:induction false} ChildrenAreConjunction(edges: Direction, s: SkipMasks, layer: bv10, parents: bv10, c: ClearMasks, n: nat)
    requires n <= 6
    ensures ChildrenAfter(edges, s, layer, parents, c, n) == KeepAll(edges, s, layer, c, n)
  {
    if n > 0 {
      ChildrenAreConjunction(edges, s, layer, parents, c, n - 1);
      LaterSideUntouched(edges, s, layer, parents, n - 1, n - 1);
      SideChildrenIsAnd(ChildrenAfter(edges, s, layer, parents, c, n - 1), EdgesAfter(edges, s, layer, parents, n - 1),
                        edges, Side(n - 1), Gap(s, n - 1), layer, ClearOf(c, n - 1));
    }
  }

  /** With no sides given, no check drops any child. */
  lemma {:induction false} KeepAllOfNoSides(s: SkipMasks, layer: bv10, c: ClearMasks, n: nat)
    requires n <= 6
    ensures KeepAll(0, s, layer, c, n) == 0xFF
  {
    if n > 0 {
      KeepAllOfNoSides(s, layer, c, n - 1);
    }
  }

  /** With no sides to check, every child is rasterized and no side is left. */
  lemma NothingToCheck(s: SkipMasks, layer: bv10, parents: bv10, c: ClearMasks)
    ensures RasterizeBy(0, s, layer, parents, c) == Raster(0xFF, 0)
  {
    EdgesOnlyCleared(0, s, layer, parents, 6);
    ChildrenAreConjunction(0, s, layer, parents, c, 6);
    KeepAllOfNoSides(s, layer, c, 6);
  }

  lemma AndOfBit(a: bv8, b: bv8, m: bv8)
    ensures m & (m - 1) == 0 ==> ((a & b) & m != 0 <==> a & m != 0 && b & m != 0)
  {
  }

  /** The mask of the `k`-th check keeps child `i`. */
  predicate KeptBy(edges: Direction, s: SkipMasks, layer: bv10, c: ClearMasks, k: nat, i: nat)
    requires k < 6 && i < 8
  {
    Keep(Drops(edges, Gap(s, k), layer, Side(k)), ClearOf(c, k)) & ChildMasks[i] != 0
  }

  /** A child survives the first `n` checks exactly when it survives each of their masks. */
  lemma {:induction false} KeepAllBit(edges: Direction, s: SkipMasks, layer: bv10, c: ClearMasks, n: nat, i: nat)
    requires n <= 6 && i < 8
    ensures KeepAll(edges, s, layer, c, n) & ChildMasks[i] != 0 <==>
      forall k | 0 <= k < n :: KeptBy(edges, s, layer, c, k, i)
  {
    if n > 0 {
      KeepAllBit(edges, s, layer, c, n - 1, i);
      ChildMaskTables(i);
      AndOfBit(KeepAll(edges, s, layer, c, n - 1), Keep(Drops(edges, Gap(s, n - 1), layer, Side(n - 1)), ClearOf(c, n - 1)),
               ChildMasks[i]);
      assert KeptBy(edges, s, layer, c, n - 1, i) <==>
        Keep(Drops(edges, Gap(s, n - 1), layer, Side(n - 1)), ClearOf(c, n - 1)) & ChildMasks[i] != 0;
    }
  }

  lemma ClearsRemoveFacing(k: nat, i: nat)
    requires k < 6 && i < 8
    ensures ClearOf(Clears, k) & ChildMasks[i] != 0 <==> !FacesSide(i, Side(k))
  {
    ClearNegativeKeepsPositiveHalf(i);
    ClearNegativeZFixedKeepsPositiveHalf(i);
  }

  /** The `k`-th check does not drop the children on the side child `i` faces. */
  predicate Spared(edges: Direction, s: SkipMasks, layer: bv10, k: nat, i: nat)
    requires k < 6 && i < 8
  {
    !(Drops(edges, Gap(s, k), layer, Side(k)) && FacesSide(i, Side(k)))
  }

  /** Child `i` survives the mask of the `k`-th check exactly when that check spares it. */
  lemma KeepBit(edges: Direction, s: SkipMasks, layer: bv10, k: nat, i: nat)
    requires k < 6 && i < 8
    ensures KeptBy(edges, s, layer, Clears, k, i) <==> Spared(edges, s, layer, k, i)
  {
    ClearsRemoveFacing(k, i);
  }

  /** After the first `n` checks, child `i` is left exactly when each of them spared it. */
  lemma ChildrenAfterBit(edges: Direction, s: SkipMasks, layer: bv10, parents: bv10, n: nat, i: nat)
    requires n <= 6 && i < 8
    ensures ChildrenAfter(edges, s, layer, parents, Clears, n) & ChildMasks[i] != 0 <==>
      forall k | 0 <= k < n :: Spared(edges, s, layer, k, i)
  {
    ChildrenAreConjunction(edges, s, layer, parents, Clears, n);
    KeepAllBit(edges, s, layer, Clears, n, i);
    forall k | 0 <= k < n
      ensures KeptBy(edges, s, layer, Clears, k, i) <==> Spared(edges, s, layer, k, i)
    {
      KeepBit(edges, s, layer, k, i);
    }
  }

  /**
   * `GetChildrenToRasterizeAndUpdateEdges`: child `i` is rasterized exactly
   * when no side to check, whose gap holds no node of this layer, faces the
   * half of the parent the child is in.
   */
  lemma ChildrenToRasterize(edges: Direction, s: SkipMasks, l: nat, i: nat)
    requires l < 10 && i < 8
    ensures GetChildrenToRasterizeAndUpdateEdges(edges, s, l).children & ChildMasks[i] != 0 <==>
      forall k | 0 <= k < 6 :: Spared(edges, s, LayerMasks[l], k, i)
  {
    ChildrenAfterBit(edges, s, LayerMasks[l], ParentMasks[l], 6, i);
  }

  /**
   * `GetChildrenToRasterizeAndUpdateEdges`: side `k` is cleared from the
   * sides still to check exactly when it was not to be checked, or its check
   * ran and the gap holds no node of any layer below this one.
   */
  lemma EdgesToUpdate(edges: Direction, s: SkipMasks, l: nat, k: nat)
    requires l < 10 && k < 6
    ensures GetChildrenToRasterizeAndUpdateEdges(edges, s, l).edges & Side(k) == 0 <==>
      edges & Side(k) == 0 || ((!Guarded(k) || Gap(s, k) & LayerMasks[l] == 0) && Gap(s, k) & ParentMasks[l] == 0)
  {
    EdgesAfterSide(edges, s, LayerMasks[l], ParentMasks[l], 6, k);
  }

  // ---------------------------------------------------------------------------
  // The tables as written

  /** No gap on any side. */
  const NoGaps: SkipMasks := SkipMasks(0, 0, 0, 0, 0, 0)

  /**
   * With the Z Clear masks as written, dropping the children against
   * negative Z keeps exactly those four and drops the other half.
   */
  lemma ZClearsSwappedAsWritten()
    ensures GetChildrenToRasterizeAsWritten(NegativeZ, NoGaps, 0).children == 0x0F
    ensures GetChildrenToRasterizeAndUpdateEdges(NegativeZ, NoGaps, 0).children == 0xF0
  {
  }

  /**
   * With the single-layer mask of layer 2 as written, a node of layer 2 in
   * the negative X gap goes unseen, and the children against negative X are
   * dropped although that node borders them.
   */
  lemma LayerTwoMaskAsWritten()
    ensures GetChildrenToRasterizeAsWritten(NegativeX, NoGaps.(negX := 0x080), 2).children == 0xAA
    ensures GetChildrenToRasterizeAndUpdateEdges(NegativeX, NoGaps.(negX := 0x080), 2).children == 0xFF
  {
  }

  /**
   * With the deeper-layer mask of layer 4 as written, a node of layer 5 in
   * the negative X gap goes unseen, and negative X is finished although a
   * deeper layer still has a node to fill the gap.
   */
  lemma ParentMaskAsWritten()
    ensures GetChildrenToRasterizeAsWritten(NegativeX, NoGaps.(negX := 0x010), 4).edges == 0
    ensures GetChildrenToRasterizeAndUpdateEdges(NegativeX, NoGaps.(negX := 0x010), 4).edges == NegativeX
  {
  }
}

=== FILE: int32.dfy ===
/**
 * Two's-complement 32-bit integers as the navmesh code uses them (`int32`
 * coordinates). Values are kept as `bv32`; the signed order is the unsigned
 * order after flipping the sign bit, and every sum wraps modulo 2^32.
 */
module Signed {

  type Int32 = bv32

  const SignBit: bv32 := 0x8000_0000

  /** Bias that turns the signed order into the unsigned one. */
  function Biased(a: Int32): bv32 { a ^ SignBit }

  predicate IsNegative(a: Int32) { a & SignBit != 0 }

  /** Signed `a < b`. */
  predicate Lt(a: Int32, b: Int32) { Biased(a) < Biased(b) }

  /** Signed `a <= b`. */
  predicate Le(a: Int32, b: Int32) { Biased(a) <= Biased(b) }

  /** `FMath::Max`: `(A >= B) ? A : B`. */
  function Max(a: Int32, b: Int32): (r: Int32)
    ensures Le(a, r) && Le(b, r)
    ensures r == a || r == b
  {
    if Le(b, a) then a else b
  }

  /** `FMath::Min`: `(A <= B) ? A : B`. */
  function Min(a: Int32, b: Int32): (r: Int32)
    ensures Le(r, a) && Le(r, b)
    ensures r == a || r == b
  {
    if Le(a, b) then a else b
  }

  /** Arithmetic (sign-propagating) right shift, what `>>` does to a negative `int32`. */
  function Asr(a: Int32, s: bv32): (r: Int32)
    requires s < 32
    ensures IsNegative(r) == IsNegative(a)
  {
    if IsNegative(a) then (a >> s) | !(0xFFFF_FFFF >> s) else a >> s
  }

  /** The signed order is total. */
  lemma LtOrLe(a: Int32, b: Int32)
    ensures Lt(a, b) || Le(b, a)
    ensures !(Lt(a, b) && Le(b, a))
  {
  }

  // ---------------------------------------------------------------------------
  // Widening to and truncating from 64 bits

  /** Zero extension of a 32-bit pattern (a `uint32` converted to `uint64`). */
  function Widen(a: bv32): (r: bv64)
  {
    a as bv64
  }

  /** The low 32 bits of a 64-bit pattern (any 64-bit value converted to a 32-bit type). */
  function Low32(w: bv64): (r: bv32)
  {
    (w & 0xFFFF_FFFF) as bv32
  }

  /** Sign extension of an `int32`, which C++ applies before adding it to a `uint64`. */
  function SignExtend(a: Int32): (r: bv64)
  {
    if IsNegative(a) then Widen(a) | 0xFFFF_FFFF_0000_0000 else Widen(a)
  }

  /** Sign extension of the low 32 bits of a 64-bit pattern, written on the 64-bit value. */
  function SignExtendBits(v: bv64): (r: bv64)
  {
    if v & 0x8000_0000 != 0 then (v & 0xFFFF_FFFF) | 0xFFFF_FFFF_0000_0000 else v & 0xFFFF_FFFF
  }

  /** Truncation undoes zero extension, and bit 31 of a survives as bit 31 of the widened value. */
  lemma WidenFacts(a: bv32)
    ensures Low32(Widen(a)) == a
    ensures Widen(a) >> 31 == if IsNegative(a) then 1 else 0
  {
  }

  /** Widening the truncation keeps exactly the low 32 bits. */
  lemma WidenLow(w: bv64)
    ensures Widen(Low32(w)) == w & 0xFFFF_FFFF
  {
  }

  lemma LowIsNegative(w: bv64)
    ensures IsNegative(Low32(w)) <==> w & 0x8000_0000 != 0
  {
  }

  lemma LowOfHighBits(w: bv64)
    ensures Low32(w | 0xFFFF_FFFF_0000_0000) == Low32(w)
  {
  }

  lemma LowIsTruncation(w: bv64)
    ensures Low32(w & 0xFFFF_FFFF) == Low32(w)
  {
  }

  lemma LowOfMask(w: bv64, m: bv32)
    ensures Low32(w & Widen(m)) == Low32(w) & m
  {
  }

  /** A sign-extended value truncates back to itself and is all zeros or all ones from bit 31 up. */
  lemma SignExtendShape(a: Int32)
    ensures Low32(SignExtend(a)) == a
    ensures SignExtend(a) >> 31 == 0 || SignExtend(a) >> 31 == 0x1_FFFF_FFFF
  {
    WidenFacts(a);
    LowOfHighBits(Widen(a));
  }

  lemma SignExtendLow(v: bv64)
    ensures SignExtend(Low32(v)) == SignExtendBits(v)
  {
    WidenLow(v);
    LowIsNegative(v);
  }

  lemma SignedBitsNonNegative(v: bv64)
    ensures v >> 31 == 0 ==> SignExtendBits(v) == v
  {
  }

  lemma SignedBitsNegative(v: bv64)
    ensures v >> 31 == 0x1_FFFF_FFFF ==> SignExtendBits(v) == v
  {
  }

  /** A 64-bit value that is already a sign extension is left unchanged by truncating and extending again. */
  lemma SignExtendOfSigned(v: bv64)
    ensures v >> 31 == 0 || v >> 31 == 0x1_FFFF_FFFF ==> SignExtend(Low32(v)) == v
  {
    SignExtendLow(v);
    SignedBitsNonNegative(v);
    SignedBitsNegative(v);
  }
}

=== FILE: interleave.dfy ===
/**
 * Bit interleaving for three axes ("magic bits" spreading), the semantics of
 * the Morton encode/decode routines the navmesh takes from libmorton:
 * 32-bit codes hold three 10-bit coordinates, 64-bit codes three 21-bit ones.
 * Bit i of X lands on bit 3i, bit i of Y on 3i+1 and bit i of Z on 3i+2.
 */
module Interleave {

  /** Positions of the X bits in a 32-bit code; Y and Z are this mask shifted by 1 and 2. */
  const Lanes32: bv32 := 0x0924_9249
  /** Positions of the X bits in a 64-bit code. */
  const Lanes64: bv64 := 0x1249_2492_4924_9249

  /** Spreads the low 10 bits of x so that there are two zero bits between each. */
  function Spread10(x: bv32): (r: bv32)
  {
    var a := x & 0x3FF;
    var b := (a | (a << 16)) & 0x0300_00FF;
    var c := (b | (b << 8)) & 0x0300_F00F;
    var d := (c | (c << 4)) & 0x030C_30C3;
    (d | (d << 2)) & 0x0924_9249
  }

  /** Inverse of Spread10: collects every third bit, starting at bit 0, into 10 bits. */
  function Gather10(m: bv32): (r: bv32)
    ensures r <= 0x3FF
  {
    var a := m & 0x0924_9249;
    var b := (a ^ (a >> 2)) & 0x030C_30C3;
    var c := (b ^ (b >> 4)) & 0x0300_F00F;
    var d := (c ^ (c >> 8)) & 0x0300_00FF;
    (d ^ (d >> 16)) & 0x3FF
  }

  /** Spreads the low 21 bits of x over the X positions of a 64-bit code. */
  function Spread21(x: bv64): (r: bv64)
  {
    var a := x & 0x1F_FFFF;
    var b := (a | (a << 32)) & 0x1F_0000_0000_FFFF;
    var c := (b | (b << 16)) & 0x1F_0000_FF00_00FF;
    var d := (c | (c << 8)) & 0x100F_00F0_0F00_F00F;
    var e := (d | (d << 4)) & 0x10C3_0C30_C30C_30C3;
    (e | (e << 2)) & 0x1249_2492_4924_9249
  }

  /** Inverse of Spread21. */
  function Gather21(m: bv64): (r: bv64)
    ensures r <= 0x1F_FFFF
  {
    var a := m & 0x1249_2492_4924_9249;
    var b := (a ^ (a >> 2)) & 0x10C3_0C30_C30C_30C3;
    var c := (b ^ (b >> 4)) & 0x100F_00F0_0F00_F00F;
    var d := (c ^ (c >> 8)) & 0x1F_0000_FF00_00FF;
    var e := (d ^ (d >> 16)) & 0x1F_0000_0000_FFFF;
    (e ^ (e >> 32)) & 0x1F_FFFF
  }

  lemma GatherSpread10(x: bv32)
    ensures Gather10(Spread10(x)) == x & 0x3FF
  {
  }

  /** Spreading a gathered lane restores exactly the lane's bits. */
  lemma SpreadGather10(m: bv32)
    ensures Spread10(Gather10(m)) == m & 0x0924_9249
  {
  }

  lemma GatherSpread21(x: bv64)
    ensures Gather21(Spread21(x)) == x & 0x1F_FFFF
  {
  }

  // One lemma per lane, so that each lane is a bit-vector proof obligation of
  // its own; Interleave32Lanes and Interleave64Lanes state the three together.

  lemma Lane0Of32(x: bv32, y: bv32, z: bv32)
    ensures Gather10(Interleave32(x, y, z)) == x & 0x3FF
  {
  }

  lemma Lane1Of32(x: bv32, y: bv32, z: bv32)
    ensures Gather10(Interleave32(x, y, z) >> 1) == y & 0x3FF
  {
  }

  lemma Lane2Of32(x: bv32, y: bv32, z: bv32)
    ensures Gather10(Interleave32(x, y, z) >> 2) == z & 0x3FF
  {
  }

  lemma Lane0Of64(x: bv64, y: bv64, z: bv64)
    ensures Gather21(Interleave64(x, y, z)) == x & 0x1F_FFFF
  {
  }

  lemma Lane1Of64(x: bv64, y: bv64, z: bv64)
    ensures Gather21(Interleave64(x, y, z) >> 1) == y & 0x1F_FFFF
  {
  }

  lemma Lane2Of64(x: bv64, y: bv64, z: bv64)
    ensures Gather21(Interleave64(x, y, z) >> 2) == z & 0x1F_FFFF
  {
  }

  /** Interleaves three 10-bit coordinates into a 30-bit code. */
  function Interleave32(x: bv32, y: bv32, z: bv32): (r: bv32)
    ensures r <= 0x3FFF_FFFF
  {
    Spread10(x) | (Spread10(y) << 1) | (Spread10(z) << 2)
  }

  /** Each lane of an interleaved 32-bit code reads back its (truncated) coordinate. */
  lemma Interleave32Lanes(x: bv32, y: bv32, z: bv32)
    ensures Gather10(Interleave32(x, y, z)) == x & 0x3FF
    ensures Gather10(Interleave32(x, y, z) >> 1) == y & 0x3FF
    ensures Gather10(Interleave32(x, y, z) >> 2) == z & 0x3FF
  {
    Lane0Of32(x, y, z);
    Lane1Of32(x, y, z);
    Lane2Of32(x, y, z);
  }

  /** Interleaves three 21-bit coordinates into a 63-bit code. */
  function Interleave64(x: bv64, y: bv64, z: bv64): (r: bv64)
    ensures r <= 0x7FFF_FFFF_FFFF_FFFF
  {
    Spread21(x) | (Spread21(y) << 1) | (Spread21(z) << 2)
  }

  /** Each lane of an interleaved 64-bit code reads back its (truncated) coordinate. */
  lemma Interleave64Lanes(x: bv64, y: bv64, z: bv64)
    ensures Gather21(Interleave64(x, y, z)) == x & 0x1F_FFFF
    ensures Gather21(Interleave64(x, y, z) >> 1) == y & 0x1F_FFFF
    ensures Gather21(Interleave64(x, y, z) >> 2) == z & 0x1F_FFFF
  {
    Lane0Of64(x, y, z);
    Lane1Of64(x, y, z);
    Lane2Of64(x, y, z);
  }

  /** A 32-bit code is determined by its three lanes: gathering then interleaving drops only bits 30 and 31. */
  lemma Interleave32OfLanes(m: bv32)
    ensures Interleave32(Gather10(m), Gather10(m >> 1), Gather10(m >> 2)) == m & 0x3FFF_FFFF
  {
  }

  /** A 64-bit code is determined by its three lanes: gathering then interleaving drops only bit 63. */
  lemma Interleave64OfLanes(m: bv64)
    ensures Interleave64(Gather21(m), Gather21(m >> 1), Gather21(m >> 2)) == m & 0x7FFF_FFFF_FFFF_FFFF
  {
  }
}

=== FILE: mb_math.dfy ===
/**
 * The integer vectors and bounds of the MBNavigation plugin (its `Math.h`):
 * the 64-bit chunk key of a global location, bounds that carry a validity
 * flag, the layer rounding of morton-space bounds, their intersection and
 * boolean cut, and the conversion between global and chunk-local space.
 *
 * `int_fast32_t` components are taken as 32 bits, and the 10-bit bit-fields
 * of a morton vector as `bv10`, so every morton sum wraps modulo 1024 as a
 * bit-field assignment does.
 */
module MbMath {
  import opened Signed
  import opened Vectors
  import opened Wrappers
  import Aabb

  /** A key keeps a coordinate's chunk index: the coordinate shifted right by this much. */
  const ChunkKeyShift: bv32 := 10
  const VoxelSizeExponent: bv32 := 0
  const SmallestNodeSize: Int32 := 1

  // ---------------------------------------------------------------------------
  // Chunk keys

  /** Twenty-one bits of one axis: the low 20 bits of the chunk index and the sign as bit 20. */
  function KeyField32(a: Int32): (r: bv32)
    ensures r <= 0x1F_FFFF
    ensures (r & 0x10_0000 != 0) == IsNegative(a)
  {
    (Asr(a, ChunkKeyShift) & 0xF_FFFF) | (if IsNegative(a) then 0x10_0000 else 0)
  }

  function KeyField(a: Int32): (r: bv64)
    ensures r <= 0x1F_FFFF
  {
    Widen(KeyField32(a))
  }

  /** `FGlobalVector::ToKey`: X in bits 42..62, Y in bits 21..41, Z in bits 0..20. */
  function ToKey(v: Vector32): (r: bv64)
  {
    Pack(KeyField(v.x), KeyField(v.y), KeyField(v.z))
  }

  function Pack(fx: bv64, fy: bv64, fz: bv64): (r: bv64)
  {
    (fx << 42) | (fy << 21) | fz
  }

  /** One field of a key back to a coordinate: sign-extend 21 bits, then shift left. */
  function DecodeField32(f: bv32): (r: Int32)
  {
    var low := f & 0xF_FFFF;
    var extended := if f & 0x10_0000 != 0 then low | 0xFFF0_0000 else low;
    extended << ChunkKeyShift
  }

  function DecodeField(f: bv64): (r: Int32)
    requires f <= 0x1F_FFFF
  {
    DecodeField32(Low32(f))
  }

  /** `FGlobalVector::FromKey`. */
  function FromKey(k: bv64): (r: Vector32)
  {
    Vector32(DecodeField((k >> 42) & 0x1F_FFFF), DecodeField((k >> 21) & 0x1F_FFFF), DecodeField(k & 0x1F_FFFF))
  }

  /** A coordinate a key keeps exactly: a chunk multiple whose bits 31 and 30 agree. */
  predicate KeyExact(a: Int32)
  {
    a & 0x3FF == 0 && (a >> 30 == 0 || a >> 30 == 3)
  }

  predicate KeyExactVector(v: Vector32)
  {
    KeyExact(v.x) && KeyExact(v.y) && KeyExact(v.z)
  }

  lemma PackedX(fx: bv64, fy: bv64, fz: bv64)
    ensures fx <= 0x1F_FFFF && fy <= 0x1F_FFFF && fz <= 0x1F_FFFF ==> (Pack(fx, fy, fz) >> 42) & 0x1F_FFFF == fx
  {
  }

  lemma PackedY(fx: bv64, fy: bv64, fz: bv64)
    ensures fy <= 0x1F_FFFF && fz <= 0x1F_FFFF ==> (Pack(fx, fy, fz) >> 21) & 0x1F_FFFF == fy
  {
  }

  lemma PackedZ(fx: bv64, fy: bv64, fz: bv64)
    ensures fz <= 0x1F_FFFF ==> Pack(fx, fy, fz) & 0x1F_FFFF == fz
  {
  }

  lemma PackedTop(fx: bv64, fy: bv64, fz: bv64)
    ensures fx <= 0x1F_FFFF && fy <= 0x1F_FFFF && fz <= 0x1F_FFFF ==> Pack(fx, fy, fz) >> 63 == 0
  {
  }

  lemma FieldRoundTripPositive(f: bv32)
    ensures f <= 0x0F_FFFF ==> KeyField32(DecodeField32(f)) == f
  {
  }

  lemma FieldRoundTripNegative(f: bv32)
    ensures 0x10_0000 <= f <= 0x1F_FFFF ==> KeyField32(DecodeField32(f)) == f
  {
  }

  lemma CoordinateRoundTripPositive(a: Int32)
    ensures a & 0x3FF == 0 && a >> 30 == 0 ==> DecodeField32(KeyField32(a)) == a
  {
  }

  lemma CoordinateRoundTripNegative(a: Int32)
    ensures a & 0x3FF == 0 && a >> 30 == 3 ==> DecodeField32(KeyField32(a)) == a
  {
  }

  lemma UnpackPack(k: bv64)
    ensures Pack((k >> 42) & 0x1F_FFFF, (k >> 21) & 0x1F_FFFF, k & 0x1F_FFFF) == k & 0x7FFF_FFFF_FFFF_FFFF
  {
  }

  lemma KeyFieldsX(x: Int32, y: Int32, z: Int32)
    ensures (Pack(KeyField(x), KeyField(y), KeyField(z)) >> 42) & 0x1F_FFFF == KeyField(x)
  {
    PackedX(KeyField(x), KeyField(y), KeyField(z));
  }

  lemma KeyFieldsY(x: Int32, y: Int32, z: Int32)
    ensures (Pack(KeyField(x), KeyField(y), KeyField(z)) >> 21) & 0x1F_FFFF == KeyField(y)
  {
    PackedY(KeyField(x), KeyField(y), KeyField(z));
  }

  lemma KeyFieldsZ(x: Int32, y: Int32, z: Int32)
    ensures Pack(KeyField(x), KeyField(y), KeyField(z)) & 0x1F_FFFF == KeyField(z)
  {
    PackedZ(KeyField(x), KeyField(y), KeyField(z));
  }

  lemma KeyTop(x: Int32, y: Int32, z: Int32)
    ensures Pack(KeyField(x), KeyField(y), KeyField(z)) >> 63 == 0
  {
    PackedTop(KeyField(x), KeyField(y), KeyField(z));
  }

  /** ToKey puts X, Y and Z in disjoint 21-bit fields, exactly where FromKey reads them, and leaves bit 63 clear. */
  lemma ToKeyFields(v: Vector32)
    ensures (ToKey(v) >> 42) & 0x1F_FFFF == KeyField(v.x)
    ensures (ToKey(v) >> 21) & 0x1F_FFFF == KeyField(v.y)
    ensures ToKey(v) & 0x1F_FFFF == KeyField(v.z)
    ensures ToKey(v) >> 63 == 0
  {
    ToKeyFieldX(v);
    ToKeyFieldY(v);
    ToKeyFieldZ(v);
    ToKeyTop(v);
  }

  lemma ToKeyFieldX(v: Vector32)
    ensures (ToKey(v) >> 42) & 0x1F_FFFF == KeyField(v.x)
  {
    KeyFieldsX(v.x, v.y, v.z);
  }

  lemma ToKeyFieldY(v: Vector32)
    ensures (ToKey(v) >> 21) & 0x1F_FFFF == KeyField(v.y)
  {
    KeyFieldsY(v.x, v.y, v.z);
  }

  lemma ToKeyFieldZ(v: Vector32)
    ensures ToKey(v) & 0x1F_FFFF == KeyField(v.z)
  {
    KeyFieldsZ(v.x, v.y, v.z);
  }

  lemma ToKeyTop(v: Vector32)
    ensures ToKey(v) >> 63 == 0
  {
    KeyTop(v.x, v.y, v.z);
  }

  lemma DecodeOfKeyField(a: Int32)
    ensures KeyExact(a) ==> DecodeField(KeyField(a)) == a
  {
    WidenFacts(KeyField32(a));
    CoordinateRoundTripPositive(a);
    CoordinateRoundTripNegative(a);
  }

  lemma KeyFieldOfDecode(f: bv64)
    ensures f <= 0x1F_FFFF ==> KeyField(DecodeField(f)) == f
  {
    WidenLow(f);
    FieldRoundTripPositive(Low32(f));
    FieldRoundTripNegative(Low32(f));
  }

  /** A key built from exact coordinates decodes to the same location. */
  lemma FromKeyOfToKey(v: Vector32)
    requires KeyExactVector(v)
    ensures FromKey(ToKey(v)) == v
  {
    ToKeyFields(v);
    DecodeOfKeyField(v.x);
    DecodeOfKeyField(v.y);
    DecodeOfKeyField(v.z);
  }

  /** Every key with bit 63 clear is the key of the location it decodes to. */
  lemma ToKeyOfFromKey(k: bv64)
    ensures ToKey(FromKey(k)) == k & 0x7FFF_FFFF_FFFF_FFFF
  {
    KeyFieldOfDecode((k >> 42) & 0x1F_FFFF);
    KeyFieldOfDecode((k >> 21) & 0x1F_FFFF);
    KeyFieldOfDecode(k & 0x1F_FFFF);
    UnpackPack(k);
  }

  // ---------------------------------------------------------------------------
  // Bounds with a validity flag

  /** A chunk-local vector: three 10-bit bit-fields. */
  datatype MortonVector = MortonVector(x: bv10, y: bv10, z: bv10)

  /** `TBounds<VectorType>`: an axis-aligned box and whether it is in use. */
  datatype TBounds<V> = TBounds(min: V, max: V, valid: bool)

  type GlobalBounds = TBounds<Vector32>
  type MortonBounds = TBounds<MortonVector>

  /** `TBounds::EmptyBounds`: the default-constructed bounds, zero and not valid. */
  function EmptyBounds(): (r: GlobalBounds)
  {
    TBounds(Vector32(0, 0, 0), Vector32(0, 0, 0), false)
  }

  /** The box of global bounds, as the bounds algebra sees it. */
  function Box(b: GlobalBounds): (r: Aabb.Bounds)
  {
    Aabb.Bounds(b.min, b.max)
  }

  /**
   * `TBounds::GetIntersection`: the larger Min and smaller Max per axis, with the
   * receiver's flag; the largest box inside both bounds.
   */
  function GetIntersection(b: GlobalBounds, o: GlobalBounds): (r: GlobalBounds)
    ensures r.valid == b.valid
    ensures Aabb.Inside(Box(r), Box(b)) && Aabb.Inside(Box(r), Box(o))
    ensures forall c :: Aabb.Inside(c, Box(b)) && Aabb.Inside(c, Box(o)) ==> Aabb.Inside(c, Box(r))
  {
    var c := Aabb.Clamp(Box(b), Box(o));
    TBounds(c.min, c.max, b.valid)
  }

  /** Intersecting with bounds that contain the receiver keeps the receiver, flag included. */
  lemma IntersectionWithContaining(b: GlobalBounds, o: GlobalBounds)
    ensures Aabb.Inside(Box(b), Box(o)) ==> GetIntersection(b, o) == b
  {
    Aabb.ClampToContaining(Box(b), Box(o));
  }

  /** `HasSimpleOverlap`. */
  predicate HasSimpleOverlap(b: GlobalBounds, o: GlobalBounds)
  {
    Aabb.Overlaps(Box(b), Box(o))
  }

  /** Boxes of the bounds algebra as valid bounds. */
  function MarkValid(s: seq<Aabb.Bounds>): (r: seq<GlobalBounds>)
    ensures |r| == |s|
    ensures forall i | 0 <= i < |s| :: Box(r[i]) == s[i] && r[i].valid
  {
    seq(|s|, i requires 0 <= i < |s| => TBounds(s[i].min, s[i].max, true))
  }

  /**
   * `TBounds::Cut`: the parts of Other outside the receiver, each made valid;
   * Other itself when either bounds is invalid or the two do not overlap.
   */
  function Cut(b: GlobalBounds, o: GlobalBounds): (r: seq<GlobalBounds>)
    ensures |r| <= 6
  {
    if !b.valid then [o]
    else if !o.valid || !HasSimpleOverlap(b, o) then [o]
    else MarkValid(Aabb.Cut(Box(b), Box(o)))
  }

  /** Cut hands back Other unchanged exactly when one of the bounds is invalid or they do not overlap. */
  lemma CutIsWholeExactlyWhenApart(b: GlobalBounds, o: GlobalBounds)
    ensures Cut(b, o) == [o] <==> !b.valid || !o.valid || !HasSimpleOverlap(b, o)
  {
    if b.valid && o.valid && HasSimpleOverlap(b, o) {
      Aabb.CutPiecesOutside(Box(b), Box(o));
      var r := Cut(b, o);
      if |r| > 0 {
        assert Box(r[0]) in Aabb.Cut(Box(b), Box(o));
      }
    }
  }

  /** The pieces of a real cut are valid, lie inside Other and miss the receiver. */
  lemma CutPiecesOutside(b: GlobalBounds, o: GlobalBounds)
    requires b.valid && o.valid && HasSimpleOverlap(b, o)
    ensures forall p <- Cut(b, o) :: p.valid && Aabb.Inside(Box(p), Box(o)) && !HasSimpleOverlap(b, p)
  {
    Aabb.CutPiecesOutside(Box(b), Box(o));
    var s := Aabb.Cut(Box(b), Box(o));
    var r := Cut(b, o);
    forall p <- r
      ensures p.valid && Aabb.Inside(Box(p), Box(o)) && !HasSimpleOverlap(b, p)
    {
      var i :| 0 <= i < |r| && r[i] == p;
      assert Box(p) == s[i];
    }
  }

  /** The pieces of a cut by a receiver with Max not below Min do not overlap one another. */
  lemma CutPiecesDisjoint(b: GlobalBounds, o: GlobalBounds)
    requires Aabb.NotInverted(Box(b))
    ensures forall i, j | 0 <= i < j < |Cut(b, o)| :: !HasSimpleOverlap(Cut(b, o)[i], Cut(b, o)[j])
  {
    Aabb.CutPiecesDisjoint(Box(b), Box(o));
  }

  /** Empty bounds take part in nothing: their intersection is invalid and they cut nothing away. */
  lemma EmptyBoundsAreIgnored(o: GlobalBounds)
    ensures !GetIntersection(EmptyBounds(), o).valid
    ensures Cut(EmptyBounds(), o) == [o]
  {
  }

  // ---------------------------------------------------------------------------
  // Global and chunk-local space

  /** Storing a coordinate in a 10-bit field keeps its low ten bits. */
  function Truncate10(a: Int32): (r: bv10)
  {
    (a & 0x3FF) as bv10
  }

  /** A 10-bit field read as a global coordinate. */
  function Extend10(c: bv10): (r: Int32)
  {
    c as bv32
  }

  /** The local cell of a lower face. */
  function LocalMin(a: Int32, chunk: Int32): (r: bv10)
  {
    Truncate10(Offset(a, chunk) << VoxelSizeExponent)
  }

  /** The local cell of an upper face: the last cell the bounds cover. */
  function LocalMax(a: Int32, chunk: Int32): (r: bv10)
  {
    Truncate10((Offset(a, chunk) << VoxelSizeExponent) - SmallestNodeSize)
  }

  function GlobalMin(c: bv10, chunk: Int32): (r: Int32)
  {
    Sum(Asr(Extend10(c), VoxelSizeExponent), chunk)
  }

  function GlobalMax(c: bv10, chunk: Int32): (r: Int32)
  {
    Sum(Asr(Extend10(c) + SmallestNodeSize, VoxelSizeExponent), chunk)
  }

  /** `TBounds::ToMortonSpace`: bounds relative to the chunk's corner, Max moved back to the last covered cell. */
  function ToMortonSpace(b: GlobalBounds, chunk: Vector32): (r: MortonBounds)
  {
    TBounds(MortonVector(LocalMin(b.min.x, chunk.x), LocalMin(b.min.y, chunk.y), LocalMin(b.min.z, chunk.z)),
            MortonVector(LocalMax(b.max.x, chunk.x), LocalMax(b.max.y, chunk.y), LocalMax(b.max.z, chunk.z)),
            b.valid)
  }

  /** `TBounds::ToGlobalSpace`: the inverse, Max moved one cell up again. */
  function ToGlobalSpace(m: MortonBounds, chunk: Vector32): (r: GlobalBounds)
  {
    TBounds(Vector32(GlobalMin(m.min.x, chunk.x), GlobalMin(m.min.y, chunk.y), GlobalMin(m.min.z, chunk.z)),
            Vector32(GlobalMax(m.max.x, chunk.x), GlobalMax(m.max.y, chunk.y), GlobalMax(m.max.z, chunk.z)),
            m.valid)
  }

  /** A lower face in the chunk: zero to 1023 cells past its corner. */
  predicate MinInChunk(a: Int32, chunk: Int32)
  {
    Offset(a, chunk) < 0x400
  }

  /** An upper face in the chunk: one to 1024 cells past its corner. */
  predicate MaxInChunk(a: Int32, chunk: Int32)
  {
    0 < Offset(a, chunk) <= 0x400
  }

  /** Bounds that lie within the chunk whose negative-most corner is `chunk`. */
  predicate InChunk(b: GlobalBounds, chunk: Vector32)
  {
    MinInChunk(b.min.x, chunk.x) && MinInChunk(b.min.y, chunk.y) && MinInChunk(b.min.z, chunk.z) &&
    MaxInChunk(b.max.x, chunk.x) && MaxInChunk(b.max.y, chunk.y) && MaxInChunk(b.max.z, chunk.z)
  }

  lemma MinRoundTrip(a: Int32, chunk: Int32)
    ensures MinInChunk(a, chunk) ==> GlobalMin(LocalMin(a, chunk), chunk) == a
  {
    OffsetBack(a, chunk);
  }

  lemma MaxRoundTrip(a: Int32, chunk: Int32)
    ensures MaxInChunk(a, chunk) ==> GlobalMax(LocalMax(a, chunk), chunk) == a
  {
    OffsetBack(a, chunk);
  }

  lemma OffsetBack(a: Int32, chunk: Int32)
    ensures Sum(Offset(a, chunk), chunk) == a
  {
    assert Offset(a, chunk) == a - chunk;
    assert Sum(a - chunk, chunk) == a - chunk + chunk;
  }

  lemma LocalMinRoundTrip(c: bv10, chunk: Int32)
    ensures LocalMin(GlobalMin(c, chunk), chunk) == c
  {
    SumBack(Extend10(c), chunk);
  }

  lemma LocalMaxRoundTrip(c: bv10, chunk: Int32)
    ensures LocalMax(GlobalMax(c, chunk), chunk) == c
  {
    GlobalMaxUnshifted(c, chunk);
    LocalMaxUnshifted(GlobalMax(c, chunk), chunk);
    SumBack(Extend10(c) + 1, chunk);
    StepBack(c);
  }

  lemma GlobalMaxUnshifted(c: bv10, chunk: Int32)
    ensures GlobalMax(c, chunk) == Sum(Extend10(c) + 1, chunk)
  {
    NoShift(Extend10(c) + 1);
  }

  lemma LocalMaxUnshifted(a: Int32, chunk: Int32)
    ensures LocalMax(a, chunk) == Truncate10(Offset(a, chunk) - SmallestNodeSize)
  {
    NoShift(Offset(a, chunk));
  }

  lemma NoShift(a: Int32)
    ensures Asr(a, VoxelSizeExponent) == a
    ensures a << VoxelSizeExponent == a
  {
  }

  lemma StepBack(c: bv10)
    ensures Truncate10((Extend10(c) + 1) - SmallestNodeSize) == c
  {
  }

  lemma SumBack(a: Int32, chunk: Int32)
    ensures Offset(Sum(a, chunk), chunk) == a
  {
    assert Sum(a, chunk) == a + chunk;
    assert Offset(a + chunk, chunk) == a + chunk - chunk;
  }

  /** Bounds inside a chunk survive the trip to morton space and back. */
  lemma GlobalRoundTrip(b: GlobalBounds, chunk: Vector32)
    requires InChunk(b, chunk)
    ensures ToGlobalSpace(ToMortonSpace(b, chunk), chunk) == b
  {
    MinRoundTrip(b.min.x, chunk.x);
    MinRoundTrip(b.min.y, chunk.y);
    MinRoundTrip(b.min.z, chunk.z);
    MaxRoundTrip(b.max.x, chunk.x);
    MaxRoundTrip(b.max.y, chunk.y);
    MaxRoundTrip(b.max.z, chunk.z);
  }

  /** Every morton bounds survives the trip to global space and back. */
  lemma MortonRoundTrip(m: MortonBounds, chunk: Vector32)
    ensures ToMortonSpace(ToGlobalSpace(m, chunk), chunk) == m
  {
    LocalMinRoundTrip(m.min.x, chunk.x);
    LocalMinRoundTrip(m.min.y, chunk.y);
    LocalMinRoundTrip(m.min.z, chunk.z);
    LocalMaxRoundTrip(m.max.x, chunk.x);
    LocalMaxRoundTrip(m.max.y, chunk.y);
    LocalMaxRoundTrip(m.max.z, chunk.z);
  }

  // ---------------------------------------------------------------------------
  // Rounding morton-space bounds to a layer

  /** The layer masks of the morton rounding, as the `uint16` values the code builds. */
  const MortonLayerMasks: seq<bv16> := [0xFC00, 0xFE00, 0xFF00, 0xFF80, 0xFFC0, 0xFFE0, 0xFFF0, 0xFFF8, 0xFFFC, 0xFFFE]

  /** Node size per layer in cells. */
  const MortonOffsets: seq<bv16> := [1024, 512, 256, 128, 64, 32, 16, 8, 4, 2]

  /** A 16-bit value stored in a 10-bit field. */
  function Low10(w: bv16): (r: bv10)
  {
    (w & 0x3FF) as bv10
  }

  /** The cell offsets within one node of layer `l`: one less than the node size, modulo 1024. */
  function Granule(l: nat): (r: bv10)
    requires l < 10
  {
    Low10(MortonOffsets[l]) - 1
  }

  /** Morton-space RoundToLayer on one Min coordinate. */
  function RoundDown(a: bv10, l: nat): (r: bv10)
    requires l < 10
  {
    a & Low10(MortonLayerMasks[l])
  }

  /** Morton-space RoundToLayer on one Max coordinate: the masked value plus the node size, less one. */
  function RoundUp(a: bv10, l: nat): (r: bv10)
    requires l < 10
  {
    (a & Low10(MortonLayerMasks[l])) + Low10(MortonOffsets[l]) - 1
  }

  /** `TBounds<FMortonVector>::RoundToLayer`. */
  function RoundToLayer(m: MortonBounds, l: nat): (r: MortonBounds)
    requires l < 10
  {
    TBounds(MortonVector(RoundDown(m.min.x, l), RoundDown(m.min.y, l), RoundDown(m.min.z, l)),
            MortonVector(RoundUp(m.max.x, l), RoundUp(m.max.y, l), RoundUp(m.max.z, l)),
            m.valid)
  }

  /** `r` is the first cell of the node of layer granule `g` that holds `a`. */
  predicate NodeFirst(a: bv10, r: bv10, g: bv10)
  {
    r <= a && a - r <= g && r & g == 0
  }

  /** `r` is the last cell of the node of layer granule `g` that holds `a`. */
  predicate NodeLast(a: bv10, r: bv10, g: bv10)
  {
    a <= r && r - a <= g && r & g == g
  }

  lemma MortonLayer0(l: nat)
    ensures l == 0 ==> Low10(MortonLayerMasks[l]) == !Granule(l) && Granule(l) == 0x3FF
  {
  }

  lemma MortonLayer1(l: nat)
    ensures l == 1 ==> Low10(MortonLayerMasks[l]) == !Granule(l) && Granule(l) == 0x1FF
  {
  }

  lemma MortonLayer2(l: nat)
    ensures l == 2 ==> Low10(MortonLayerMasks[l]) == !Granule(l) && Granule(l) == 0xFF
  {
  }

  lemma MortonLayer3(l: nat)
    ensures l == 3 ==> Low10(MortonLayerMasks[l]) == !Granule(l) && Granule(l) == 0x7F
  {
  }

  lemma MortonLayer4(l: nat)
    ensures l == 4 ==> Low10(MortonLayerMasks[l]) == !Granule(l) && Granule(l) == 0x3F
  {
  }

  lemma MortonLayer5(l: nat)
    ensures l == 5 ==> Low10(MortonLayerMasks[l]) == !Granule(l) && Granule(l) == 0x1F
  {
  }

  lemma MortonLayer6(l: nat)
    ensures l == 6 ==> Low10(MortonLayerMasks[l]) == !Granule(l) && Granule(l) == 0xF
  {
  }

  lemma MortonLayer7(l: nat)
    ensures l == 7 ==> Low10(MortonLayerMasks[l]) == !Granule(l) && Granule(l) == 0x7
  {
  }

  lemma MortonLayer8(l: nat)
    ensures l == 8 ==> Low10(MortonLayerMasks[l]) == !Granule(l) && Granule(l) == 0x3
  {
  }

  lemma MortonLayer9(l: nat)
    ensures l == 9 ==> Low10(MortonLayerMasks[l]) == !Granule(l) && Granule(l) == 0x1
  {
  }

  /** Each mask clears exactly the cell offsets of its layer's nodes, and a node spans 1024 >> l cells. */
  lemma MortonLayerTable(l: nat)
    requires l < 10
    ensures Low10(MortonLayerMasks[l]) == !Granule(l)
    ensures Granule(l) as int + 1 == 0x400 / Pow2(l)
    ensures LowOnes10(Granule(l))
  {
    MortonLayer0(l);
    MortonLayer1(l);
    MortonLayer2(l);
    MortonLayer3(l);
    MortonLayer4(l);
    MortonLayer5(l);
    MortonLayer6(l);
    MortonLayer7(l);
    MortonLayer8(l);
    MortonLayer9(l);
  }

  function Pow2(l: nat): (r: nat)
    ensures r > 0
  {
    if l == 0 then 1 else 2 * Pow2(l - 1)
  }

  predicate LowOnes10(g: bv10)
  {
    g & (g + 1) == 0
  }

  lemma MaskFirst(a: bv10, g: bv10)
    ensures LowOnes10(g) ==> NodeFirst(a, a & !g, g)
  {
  }

  lemma MaskLast(a: bv10, g: bv10)
    ensures LowOnes10(g) ==> (a & !g) + (g + 1) - 1 == a | g && NodeLast(a, a | g, g)
  {
  }

  lemma RoundDownFirst(a: bv10, l: nat)
    requires l < 10
    ensures NodeFirst(a, RoundDown(a, l), Granule(l))
  {
    MortonLayerTable(l);
    MaskFirst(a, Granule(l));
  }

  lemma RoundUpLast(a: bv10, l: nat)
    requires l < 10
    ensures NodeLast(a, RoundUp(a, l), Granule(l))
  {
    MortonLayerTable(l);
    MaskLast(a, Granule(l));
  }

  /** Morton-space RoundToLayer moves every Min coordinate down to the first cell of its layer-`l` node, and keeps the flag. */
  lemma RoundToLayerFloorsMin(m: MortonBounds, l: nat)
    requires l < 10
    ensures RoundToLayer(m, l).valid == m.valid
    ensures NodeFirst(m.min.x, RoundToLayer(m, l).min.x, Granule(l))
    ensures NodeFirst(m.min.y, RoundToLayer(m, l).min.y, Granule(l))
    ensures NodeFirst(m.min.z, RoundToLayer(m, l).min.z, Granule(l))
  {
    RoundDownFirst(m.min.x, l);
    RoundDownFirst(m.min.y, l);
    RoundDownFirst(m.min.z, l);
  }

  /** It moves every Max coordinate up to the last cell of its node. */
  lemma RoundToLayerCeilsMax(m: MortonBounds, l: nat)
    requires l < 10
    ensures NodeLast(m.max.x, RoundToLayer(m, l).max.x, Granule(l))
    ensures NodeLast(m.max.y, RoundToLayer(m, l).max.y, Granule(l))
    ensures NodeLast(m.max.z, RoundToLayer(m, l).max.z, Granule(l))
  {
    RoundUpLast(m.max.x, l);
    RoundUpLast(m.max.y, l);
    RoundUpLast(m.max.z, l);
  }
}

=== FILE: morton_chunk.dfy ===
/**
 * Chunk morton-codes: the position of a chunk in the world as a 64-bit
 * interleaved code of three 21-bit chunk coordinates (X on bits 0,3,..,60,
 * Y one bit higher, Z two bits higher; bit 63 unused). A world coordinate is
 * made non-negative by adding SignOffset and then divided by the chunk size.
 * Stepping one chunk along an axis is a +1 or -1 on one lane, done directly
 * on the interleaved code as for node codes.
 */
module MortonChunk {
  import opened Interleave
  import opened Definitions
  import opened Signed

  type ChunkMorton = bv64

  const MaskX: bv64 := 0x1249_2492_4924_9249
  const MaskY: bv64 := 0x2492_4924_9249_2492
  const MaskZ: bv64 := 0x4924_9249_2492_4924
  const MaskXY: bv64 := MaskX | MaskY
  const MaskXZ: bv64 := MaskX | MaskZ
  const MaskYZ: bv64 := MaskY | MaskZ
  /** The 63 bits a chunk code uses. */
  const CodeBits: bv64 := 0x7FFF_FFFF_FFFF_FFFF
  /** The largest lane value. */
  const LaneMax: bv64 := 0x1F_FFFF

  // ---------------------------------------------------------------------------
  // Lanes

  function LaneX(c: ChunkMorton): (r: bv64) { Gather21(c) }
  function LaneY(c: ChunkMorton): (r: bv64) { Gather21(c >> 1) }
  function LaneZ(c: ChunkMorton): (r: bv64) { Gather21(c >> 2) }

  /** Two codes that agree on all three lanes agree on all 63 code bits. */
  lemma LanesDetermineCode(a: ChunkMorton, b: ChunkMorton)
    requires LaneX(a) == LaneX(b) && LaneY(a) == LaneY(b) && LaneZ(a) == LaneZ(b)
    ensures a & CodeBits == b & CodeBits
  {
    Interleave64OfLanes(a);
    Interleave64OfLanes(b);
  }

  /** Gathering a lane picks bits, so it commutes with a mask. */
  lemma GatherAnd(a: bv64, b: bv64)
    ensures Gather21(a & b) == Gather21(a) & Gather21(b)
  {
  }

  /** Lane X is read from the X bits only. */
  lemma LaneXOnlyMaskX(a: ChunkMorton, b: ChunkMorton)
    ensures a & MaskX == b & MaskX ==> LaneX(a) == LaneX(b)
  {
    GatherAnd(a, MaskX);
    GatherAnd(b, MaskX);
  }

  lemma ShiftedYBits(a: ChunkMorton)
    ensures (a >> 1) & MaskX == (a & MaskY) >> 1
  {
  }

  /** Lane Y is read from the Y bits only. */
  lemma LaneYOnlyMaskY(a: ChunkMorton, b: ChunkMorton)
    ensures a & MaskY == b & MaskY ==> LaneY(a) == LaneY(b)
  {
    ShiftedYBits(a);
    ShiftedYBits(b);
    LaneXOnlyMaskX(a >> 1, b >> 1);
  }

  lemma ShiftedZBits(a: ChunkMorton)
    ensures (a >> 2) & MaskX == (a & MaskZ) >> 2
  {
  }

  /** Lane Z is read from the Z bits only. */
  lemma LaneZOnlyMaskZ(a: ChunkMorton, b: ChunkMorton)
    ensures a & MaskZ == b & MaskZ ==> LaneZ(a) == LaneZ(b)
  {
    ShiftedZBits(a);
    ShiftedZBits(b);
    LaneXOnlyMaskX(a >> 2, b >> 2);
  }

  // ---------------------------------------------------------------------------
  // Encode / Decode between world coordinates and chunk codes

  /** The lane value of a 64-bit world coordinate: `(w + SignOffset) >> ChunkSizeBits`, in a 32-bit variable. */
  function ChunkCoordOf(w: bv64): (r: bv64)
  {
    ((w + SignOffset) >> 13) & 0xFFFF_FFFF
  }

  /** Every sign-extended `int32` lands inside the 21-bit lane. */
  lemma ChunkCoordOfRange(w: bv64)
    ensures w >> 31 == 0 || w >> 31 == 0x1_FFFF_FFFF ==> 0x0B_FFFF <= ChunkCoordOf(w) <= 0x13_FFFE
  {
  }

  /**
   * The lane value of an `int32` world coordinate. Every `int32` lands inside
   * the 21-bit lane, so libmorton's masking of its inputs loses nothing.
   */
  function ChunkCoord(a: Int32): (r: bv64)
    ensures 0x0B_FFFF <= r <= 0x13_FFFE
  {
    SignExtendShape(a);
    ChunkCoordOfRange(SignExtend(a));
    ChunkCoordOf(SignExtend(a))
  }

  /** The world coordinate of a lane value: `(lane << ChunkSizeBits) - SignOffset`, kept to 32 bits. */
  function WorldCoord(lane: bv64): (r: Int32)
  {
    Low32((lane << 13) - SignOffset)
  }

  /** Back from the lane, a sign-extended coordinate comes out floored to the chunk grid. */
  lemma WorldOfChunkCoordOf(w: bv64)
    ensures w >> 31 == 0 || w >> 31 == 0x1_FFFF_FFFF ==>
              ((ChunkCoordOf(w) << 13) - SignOffset) & 0xFFFF_FFFF == w & 0xFFFF_E000
  {
  }

  /** A world coordinate read back from its lane is floored to the chunk grid. */
  lemma WorldOfChunkCoord(a: Int32)
    ensures WorldCoord(ChunkCoord(a)) == a & ChunkSizeMask
  {
    var w := SignExtend(a);
    SignExtendShape(a);
    WorldOfChunkCoordOf(w);
    LowIsTruncation((ChunkCoordOf(w) << 13) - SignOffset);
    WidenFacts(ChunkSizeMask);
    LowOfMask(w, ChunkSizeMask);
  }

  /** Decoded coordinates are chunk corners. */
  lemma WorldCoordAligned(lane: bv64)
    ensures WorldCoord(lane) & 0x1FFF == 0
  {
    LowOfMask((lane << 13) - SignOffset, 0x1FFF);
  }

  lemma WorldCoordSigned(lane: bv64)
    ensures 0x0B_FFFF <= lane <= 0x13_FFFE ==> ((lane << 13) - SignOffset) >> 31 == 0 || ((lane << 13) - SignOffset) >> 31 == 0x1_FFFF_FFFF
  {
    WorldCoordSignedHigh(lane);
    WorldCoordSignedLow(lane);
  }

  lemma WorldCoordSignedHigh(lane: bv64)
    ensures 0x0F_FFFF <= lane <= 0x13_FFFE ==> ((lane << 13) - SignOffset) >> 31 == 0
  {
  }

  lemma WorldCoordSignedLow(lane: bv64)
    ensures 0x0B_FFFF <= lane < 0x0F_FFFF ==> ((lane << 13) - SignOffset) >> 31 == 0x1_FFFF_FFFF
  {
  }

  lemma ChunkCoordOfShifted(lane: bv64)
    ensures lane <= 0xFFFF_FFFF ==> ChunkCoordOf((lane << 13) - SignOffset) == lane
  {
  }

  /** A lane value in the range world coordinates reach survives the trip through its world coordinate. */
  lemma ChunkOfWorldCoord(lane: bv64)
    ensures 0x0B_FFFF <= lane <= 0x13_FFFE ==> ChunkCoord(WorldCoord(lane)) == lane
  {
    WorldCoordSigned(lane);
    SignExtendOfSigned((lane << 13) - SignOffset);
    ChunkCoordOfShifted(lane);
  }

  /** Encodes a world location as the code of the chunk that contains it. */
  function Encode(x: Int32, y: Int32, z: Int32): (r: ChunkMorton)
    ensures r <= CodeBits
  {
    Interleave64(ChunkCoord(x), ChunkCoord(y), ChunkCoord(z))
  }

  /** The world location of a chunk's corner. */
  function Decode(c: ChunkMorton): (r: (Int32, Int32, Int32))
  {
    (WorldCoord(LaneX(c)), WorldCoord(LaneY(c)), WorldCoord(LaneZ(c)))
  }

  /** Decoding an encoded location gives the corner of the chunk that contains it. */
  lemma DecodeEncode(x: Int32, y: Int32, z: Int32)
    ensures Decode(Encode(x, y, z)) == (x & ChunkSizeMask, y & ChunkSizeMask, z & ChunkSizeMask)
  {
    Interleave64Lanes(ChunkCoord(x), ChunkCoord(y), ChunkCoord(z));
    WorldOfChunkCoord(x);
    WorldOfChunkCoord(y);
    WorldOfChunkCoord(z);
  }

  /** For chunk-aligned coordinates the round trip is exact. */
  lemma DecodeEncodeAligned(x: Int32, y: Int32, z: Int32)
    requires x & 0x1FFF == 0 && y & 0x1FFF == 0 && z & 0x1FFF == 0
    ensures Decode(Encode(x, y, z)) == (x, y, z)
  {
    DecodeEncode(x, y, z);
  }

  /** Lanes a world location can reach. */
  predicate InWorld(c: ChunkMorton)
  {
    0x0B_FFFF <= LaneX(c) <= 0x13_FFFE && 0x0B_FFFF <= LaneY(c) <= 0x13_FFFE && 0x0B_FFFF <= LaneZ(c) <= 0x13_FFFE
  }

  /** Every code whose lanes a world location can reach is the encoding of its own decoding. */
  lemma EncodeDecode(c: ChunkMorton)
    requires InWorld(c)
    ensures Encode(Decode(c).0, Decode(c).1, Decode(c).2) == c & CodeBits
  {
    ChunkOfWorldCoord(LaneX(c));
    ChunkOfWorldCoord(LaneY(c));
    ChunkOfWorldCoord(LaneZ(c));
    assert Encode(Decode(c).0, Decode(c).1, Decode(c).2) == Interleave64(LaneX(c), LaneY(c), LaneZ(c));
    Interleave64OfLanes(c);
  }

  // ---------------------------------------------------------------------------
  // Stepping one chunk along an axis

  /** One chunk in +X: the other lanes are forced to one so the carry crosses them. */
  function IncrementX(c: ChunkMorton): (r: ChunkMorton)
    ensures r & MaskYZ == c & MaskYZ
    ensures r <= CodeBits
  {
    (((c | MaskYZ) + 1) & MaskX) | (c & MaskYZ)
  }

  /** One chunk in -X: the other lanes are masked off so the borrow crosses them. */
  function DecrementX(c: ChunkMorton): (r: ChunkMorton)
    ensures r & MaskYZ == c & MaskYZ
    ensures r <= CodeBits
  {
    (((c & MaskX) - 1) & MaskX) | (c & MaskYZ)
  }

  function IncrementY(c: ChunkMorton): (r: ChunkMorton)
    ensures r & MaskXZ == c & MaskXZ
    ensures r <= CodeBits
  {
    (((c | MaskXZ) + 1) & MaskY) | (c & MaskXZ)
  }

  function DecrementY(c: ChunkMorton): (r: ChunkMorton)
    ensures r & MaskXZ == c & MaskXZ
    ensures r <= CodeBits
  {
    (((c & MaskY) - 1) & MaskY) | (c & MaskXZ)
  }

  function IncrementZ(c: ChunkMorton): (r: ChunkMorton)
    ensures r & MaskXY == c & MaskXY
    ensures r <= CodeBits
  {
    (((c | MaskXY) + 1) & MaskZ) | (c & MaskXY)
  }

  function DecrementZ(c: ChunkMorton): (r: ChunkMorton)
    ensures r & MaskXY == c & MaskXY
    ensures r <= CodeBits
  {
    (((c & MaskZ) - 1) & MaskZ) | (c & MaskXY)
  }

  lemma DecrementIncrementX(c: ChunkMorton)
    ensures DecrementX(IncrementX(c)) == c & CodeBits
  {
  }

  lemma IncrementDecrementX(c: ChunkMorton)
    ensures IncrementX(DecrementX(c)) == c & CodeBits
  {
  }

  lemma DecrementIncrementY(c: ChunkMorton)
    ensures DecrementY(IncrementY(c)) == c & CodeBits
  {
  }

  lemma IncrementDecrementY(c: ChunkMorton)
    ensures IncrementY(DecrementY(c)) == c & CodeBits
  {
  }

  lemma DecrementIncrementZ(c: ChunkMorton)
    ensures DecrementZ(IncrementZ(c)) == c & CodeBits
  {
  }

  lemma IncrementDecrementZ(c: ChunkMorton)
    ensures IncrementZ(DecrementZ(c)) == c & CodeBits
  {
  }

  /** IncrementX adds one to lane X, wrapping at 2^21. */
  lemma IncrementXLane(c: ChunkMorton)
    ensures LaneX(IncrementX(c)) == (LaneX(c) + 1) & LaneMax
  {
  }

  lemma IncrementYLane(c: ChunkMorton)
    ensures LaneY(IncrementY(c)) == (LaneY(c) + 1) & LaneMax
  {
  }

  lemma IncrementZLane(c: ChunkMorton)
    ensures LaneZ(IncrementZ(c)) == (LaneZ(c) + 1) & LaneMax
  {
  }

  /** Lane arithmetic modulo 2^21: subtracting one undoes adding one. */
  lemma LaneDecrementUndoesIncrement(x: bv64, y: bv64)
    ensures x <= LaneMax && (x + 1) & LaneMax == y ==> x == (y - 1) & LaneMax
  {
  }

  /** DecrementX subtracts one from lane X, wrapping at 2^21. */
  lemma DecrementXLane(c: ChunkMorton)
    ensures LaneX(DecrementX(c)) == (LaneX(c) - 1) & LaneMax
  {
    IncrementDecrementX(c);
    IncrementXLane(DecrementX(c));
    LaneXDropsTop(c);
    LaneDecrementUndoesIncrement(LaneX(DecrementX(c)), LaneX(c));
  }

  lemma DecrementYLane(c: ChunkMorton)
    ensures LaneY(DecrementY(c)) == (LaneY(c) - 1) & LaneMax
  {
    IncrementDecrementY(c);
    IncrementYLane(DecrementY(c));
    LaneYDropsTop(c);
    LaneDecrementUndoesIncrement(LaneY(DecrementY(c)), LaneY(c));
  }

  lemma DecrementZLane(c: ChunkMorton)
    ensures LaneZ(DecrementZ(c)) == (LaneZ(c) - 1) & LaneMax
  {
    IncrementDecrementZ(c);
    IncrementZLane(DecrementZ(c));
    LaneZDropsTop(c);
    LaneDecrementUndoesIncrement(LaneZ(DecrementZ(c)), LaneZ(c));
  }

  /** Bit 63 lies outside every lane. */
  lemma LaneXDropsTop(c: ChunkMorton)
    ensures LaneX(c & CodeBits) == LaneX(c)
  {
  }

  lemma LaneYDropsTop(c: ChunkMorton)
    ensures LaneY(c & CodeBits) == LaneY(c)
  {
  }

  lemma LaneZDropsTop(c: ChunkMorton)
    ensures LaneZ(c & CodeBits) == LaneZ(c)
  {
  }

  /** One lane step is one chunk size in world space. */
  lemma WorldCoordStep(lane: bv64)
    ensures WorldCoord(lane + 1) == WorldCoord(lane) + ChunkSize
  {
    ShiftedStep(lane);
    LowPlusChunk((lane << 13) - SignOffset);
  }

  lemma ShiftedStep(lane: bv64)
    ensures ((lane + 1) << 13) - SignOffset == ((lane << 13) - SignOffset) + 0x2000
  {
  }

  lemma LowPlusChunk(w: bv64)
    ensures Low32(w + 0x2000) == Low32(w) + ChunkSize
  {
  }

  /** Moving one chunk in +X moves the decoded X coordinate by one chunk size and keeps Y and Z. */
  lemma IncrementXMovesOneChunk(c: ChunkMorton)
    requires LaneX(c) < LaneMax
    ensures Decode(IncrementX(c)) == (Decode(c).0 + ChunkSize, Decode(c).1, Decode(c).2)
  {
    IncrementXLane(c);
    WorldCoordStep(LaneX(c));
    LaneYOnlyMaskY(IncrementX(c), c);
    LaneZOnlyMaskZ(IncrementX(c), c);
  }

  /** Moving one chunk in -X moves the decoded X coordinate back by one chunk size and keeps Y and Z. */
  lemma DecrementXMovesOneChunk(c: ChunkMorton)
    requires 0 < LaneX(c)
    ensures Decode(DecrementX(c)) == (Decode(c).0 - ChunkSize, Decode(c).1, Decode(c).2)
  {
    DecrementXLane(c);
    WorldCoordStep(LaneX(c) - 1);
    LaneYOnlyMaskY(DecrementX(c), c);
    LaneZOnlyMaskZ(DecrementX(c), c);
  }

  /** Moving one chunk in +Y moves the decoded Y coordinate by one chunk size and keeps X and Z. */
  lemma IncrementYMovesOneChunk(c: ChunkMorton)
    requires LaneY(c) < LaneMax
    ensures Decode(IncrementY(c)) == (Decode(c).0, Decode(c).1 + ChunkSize, Decode(c).2)
  {
    IncrementYLane(c);
    WorldCoordStep(LaneY(c));
    LaneXOnlyMaskX(IncrementY(c), c);
    LaneZOnlyMaskZ(IncrementY(c), c);
  }

  /** Moving one chunk in -Y moves the decoded Y coordinate back by one chunk size and keeps X and Z. */
  lemma DecrementYMovesOneChunk(c: ChunkMorton)
    requires 0 < LaneY(c)
    ensures Decode(DecrementY(c)) == (Decode(c).0, Decode(c).1 - ChunkSize, Decode(c).2)
  {
    DecrementYLane(c);
    WorldCoordStep(LaneY(c) - 1);
    LaneXOnlyMaskX(DecrementY(c), c);
    LaneZOnlyMaskZ(DecrementY(c), c);
  }

  /** Moving one chunk in +Z moves the decoded Z coordinate by one chunk size and keeps X and Y. */
  lemma IncrementZMovesOneChunk(c: ChunkMorton)
    requires LaneZ(c) < LaneMax
    ensures Decode(IncrementZ(c)) == (Decode(c).0, Decode(c).1, Decode(c).2 + ChunkSize)
  {
    IncrementZLane(c);
    WorldCoordStep(LaneZ(c));
    LaneYOnlyMaskY(IncrementZ(c), c);
    LaneXOnlyMaskX(IncrementZ(c), c);
  }

  /** Moving one chunk in -Z moves the decoded Z coordinate back by one chunk size and keeps X and Y. */
  lemma DecrementZMovesOneChunk(c: ChunkMorton)
    requires 0 < LaneZ(c)
    ensures Decode(DecrementZ(c)) == (Decode(c).0, Decode(c).1, Decode(c).2 - ChunkSize)
  {
    DecrementZLane(c);
    WorldCoordStep(LaneZ(c) - 1);
    LaneYOnlyMaskY(DecrementZ(c), c);
    LaneXOnlyMaskX(DecrementZ(c), c);
  }

  // ---------------------------------------------------------------------------
  // Moves in a direction

  /** Steps one chunk in direction `d`; any value that is not a single direction leaves the code as it is. */
  function Move(c: ChunkMorton, d: Direction): (r: ChunkMorton)
  {
    if d == NegativeX then DecrementX(c)
    else if d == NegativeY then DecrementY(c)
    else if d == NegativeZ then DecrementZ(c)
    else if d == PositiveX then IncrementX(c)
    else if d == PositiveY then IncrementY(c)
    else if d == PositiveZ then IncrementZ(c)
    else c
  }

  /** The neighbouring chunk in direction `d`, a second copy of Move's switch. */
  function GetNeighbour(c: ChunkMorton, d: Direction): (r: ChunkMorton)
  {
    if d == NegativeX then DecrementX(c)
    else if d == NegativeY then DecrementY(c)
    else if d == NegativeZ then DecrementZ(c)
    else if d == PositiveX then IncrementX(c)
    else if d == PositiveY then IncrementY(c)
    else if d == PositiveZ then IncrementZ(c)
    else c
  }

  lemma GetNeighbourIsMove(c: ChunkMorton, d: Direction)
    ensures GetNeighbour(c, d) == Move(c, d)
  {
  }

  /** Any value that is not one of the six directions leaves the code unchanged. */
  lemma MoveNoDirection(c: ChunkMorton, d: Direction)
    requires !IsSingleDirection(d)
    ensures Move(c, d) == c
  {
  }

  /** Moving back in the opposite direction returns to the start (within the 63 code bits). */
  lemma MoveOpposite(c: ChunkMorton, d: Direction)
    requires IsSingleDirection(d)
    ensures Move(Move(c, d), Opposite(d)) == c & CodeBits
  {
    DecrementIncrementX(c);
    IncrementDecrementX(c);
    DecrementIncrementY(c);
    IncrementDecrementY(c);
    DecrementIncrementZ(c);
    IncrementDecrementZ(c);
  }

  // ---------------------------------------------------------------------------
  // Copying one coordinate

  /** Replaces the X coordinate of `a` by that of `b`. */
  function CopyX(a: ChunkMorton, b: ChunkMorton): (r: ChunkMorton)
  {
    (a & MaskYZ) | (b & MaskX)
  }

  function CopyY(a: ChunkMorton, b: ChunkMorton): (r: ChunkMorton)
  {
    (a & MaskXZ) | (b & MaskY)
  }

  function CopyZ(a: ChunkMorton, b: ChunkMorton): (r: ChunkMorton)
  {
    (a & MaskXY) | (b & MaskZ)
  }

  /** CopyX decodes to `b`'s X coordinate and `a`'s other two. */
  lemma CopyXDecodes(a: ChunkMorton, b: ChunkMorton)
    ensures Decode(CopyX(a, b)) == (Decode(b).0, Decode(a).1, Decode(a).2)
  {
    var r := CopyX(a, b);
    LaneXOnlyMaskX(r, b);
    LaneYOnlyMaskY(r, a);
    LaneZOnlyMaskZ(r, a);
  }

  lemma CopyYDecodes(a: ChunkMorton, b: ChunkMorton)
    ensures Decode(CopyY(a, b)) == (Decode(a).0, Decode(b).1, Decode(a).2)
  {
    var r := CopyY(a, b);
    LaneXOnlyMaskX(r, a);
    LaneYOnlyMaskY(r, b);
    LaneZOnlyMaskZ(r, a);
  }

  lemma CopyZDecodes(a: ChunkMorton, b: ChunkMorton)
    ensures Decode(CopyZ(a, b)) == (Decode(a).0, Decode(a).1, Decode(b).2)
  {
    var r := CopyZ(a, b);
    LaneXOnlyMaskX(r, a);
    LaneYOnlyMaskY(r, a);
    LaneZOnlyMaskZ(r, b);
  }
}

=== FILE: morton_node.dfy ===
/**
 * Node morton-codes: the position of an octree node inside its chunk as a
 * 32-bit interleaved code (X on bits 0,3,..,27, Y one bit higher, Z two bits
 * higher; bits 30 and 31 unused). A node of layer L has its three 10-bit
 * coordinates aligned to 1024 >> L, so moving it by its own size adds a
 * single bit to one lane. The arithmetic does that addition directly on the
 * interleaved code: the other two lanes are filled with ones so a carry runs
 * through them, or masked away so a borrow does.
 */
module MortonNode {
  import opened Interleave
  import opened Definitions
  import opened Wrappers

  type NodeMorton = bv32

  const MaskX: bv32 := 0x0924_9249
  const MaskY: bv32 := 0x1249_2492
  const MaskZ: bv32 := 0x2492_4924
  const MaskXY: bv32 := MaskX | MaskY
  const MaskXZ: bv32 := MaskX | MaskZ
  const MaskYZ: bv32 := MaskY | MaskZ
  /** The 30 bits a node code uses. */
  const CodeBits: bv32 := 0x3FFF_FFFF

  /** Indexed by the layer of the parent: keeps the bits that address a node of that layer. */
  const ParentMasks: seq<bv32> :=
    [0xC000_0000, 0xF800_0000, 0xFF00_0000, 0xFFE0_0000, 0xFFFC_0000, 0xFFFF_8000,
     0xFFFF_F000, 0xFFFF_FE00, 0xFFFF_FFC0, 0xFFFF_FFF8, 0xFFFF_FFFF]

  /** The X bit of a node's size in each layer; the same value offsets Y and Z too. */
  const LayerOffsets: seq<bv32> :=
    [0x4000_0000, 0x0800_0000, 0x0100_0000, 0x0020_0000, 0x0004_0000, 0x0000_8000,
     0x0000_1000, 0x0000_0200, 0x0000_0040, 0x0000_0008, 0x0000_0001]

  /** A node's size in one lane, in lane units: 1024 >> layer. */
  const LaneSteps: seq<bv32> := [0x400, 0x200, 0x100, 0x80, 0x40, 0x20, 0x10, 0x8, 0x4, 0x2, 0x1]

  /** Shift amounts of GetChildIndex as the source writes them: ten entries, none for layer 10. */
  const ChildIndexShifts: seq<bv32> := [30, 27, 24, 21, 18, 15, 12, 9, 6, 3]

  /** The same shifts with the entry for NodeDepth added: 30 - 3 * layer for every node layer. */
  const ChildIndexShiftsFixed: seq<bv32> := [30, 27, 24, 21, 18, 15, 12, 9, 6, 3, 0]

  predicate IsLayer(l: nat) { l < 11 }

  // ---------------------------------------------------------------------------
  // Lanes: the three 10-bit coordinates a code interleaves

  function LaneX(c: NodeMorton): (r: bv32) { Gather10(c) }
  function LaneY(c: NodeMorton): (r: bv32) { Gather10(c >> 1) }
  function LaneZ(c: NodeMorton): (r: bv32) { Gather10(c >> 2) }

  /** Two codes that agree on all three lanes agree on all 30 code bits. */
  lemma LanesDetermineCode(a: NodeMorton, b: NodeMorton)
    requires LaneX(a) == LaneX(b) && LaneY(a) == LaneY(b) && LaneZ(a) == LaneZ(b)
    ensures a & CodeBits == b & CodeBits
  {
    Interleave32OfLanes(a);
    Interleave32OfLanes(b);
  }

  /** Gathering a lane picks bits, so it commutes with a mask. */
  lemma GatherAnd(a: bv32, b: bv32)
    ensures Gather10(a & b) == Gather10(a) & Gather10(b)
  {
  }

  /** Lane X is read from the X bits only. */
  lemma LaneXOnlyMaskX(a: NodeMorton, b: NodeMorton)
    requires a & MaskX == b & MaskX
    ensures LaneX(a) == LaneX(b)
  {
    GatherAnd(a, MaskX);
    GatherAnd(b, MaskX);
  }

  /** Lane Y is read from the Y bits only. */
  lemma LaneYOnlyMaskY(a: NodeMorton, b: NodeMorton)
    requires a & MaskY == b & MaskY
    ensures LaneY(a) == LaneY(b)
  {
    assert (a >> 1) & MaskX == (b >> 1) & MaskX;
    LaneXOnlyMaskX(a >> 1, b >> 1);
  }

  /** Lane Z is read from the Z bits only. */
  lemma LaneZOnlyMaskZ(a: NodeMorton, b: NodeMorton)
    requires a & MaskZ == b & MaskZ
    ensures LaneZ(a) == LaneZ(b)
  {
    assert (a >> 2) & MaskX == (b >> 2) & MaskX;
    LaneXOnlyMaskX(a >> 2, b >> 2);
  }

  /** Lane X is zero exactly when no X bit is set. */
  lemma LaneXZero(c: NodeMorton)
    ensures LaneX(c) == 0 <==> c & MaskX == 0
  {
    SpreadGather10(c);
  }

  lemma LaneYZero(c: NodeMorton)
    ensures LaneY(c) == 0 <==> c & MaskY == 0
  {
    SpreadGather10(c >> 1);
    assert (c >> 1) & MaskX == (c & MaskY) >> 1;
  }

  lemma LaneZZero(c: NodeMorton)
    ensures LaneZ(c) == 0 <==> c & MaskZ == 0
  {
    SpreadGather10(c >> 2);
    assert (c >> 2) & MaskX == (c & MaskZ) >> 2;
  }

  // ---------------------------------------------------------------------------
  // Encode / Decode (the libmorton 32-bit routines)

  /** Encodes 10-bit local coordinates; higher bits of the inputs are ignored. */
  function Encode(x: bv32, y: bv32, z: bv32): (r: NodeMorton)
    ensures r <= CodeBits
  {
    Interleave32(x, y, z)
  }

  /** Decodes a code into its three 10-bit coordinates. */
  function Decode(c: NodeMorton): (r: (bv32, bv32, bv32))
    ensures r.0 <= 0x3FF && r.1 <= 0x3FF && r.2 <= 0x3FF
  {
    (LaneX(c), LaneY(c), LaneZ(c))
  }

  lemma DecodeEncode(x: bv32, y: bv32, z: bv32)
    ensures Decode(Encode(x, y, z)) == (x & 0x3FF, y & 0x3FF, z & 0x3FF)
  {
    Interleave32Lanes(x, y, z);
  }

  lemma EncodeDecode(c: NodeMorton)
    ensures Encode(Decode(c).0, Decode(c).1, Decode(c).2) == c & CodeBits
  {
    Interleave32OfLanes(c);
  }

  // ---------------------------------------------------------------------------
  // Moving along one axis by an offset that lives on the X bits

  /** Adds offset `o` to the X lane: the other lanes are forced to one so the carry crosses them. */
  function AddXBy(c: NodeMorton, o: bv32): (r: NodeMorton)
    ensures r & MaskYZ == c & MaskYZ
    ensures r <= CodeBits
  {
    (((c | MaskYZ) + o) & MaskX) | (c & MaskYZ)
  }

  /** Adds offset `o` to the Y lane: the other lanes are forced to one so the carry crosses them. */
  function AddYBy(c: NodeMorton, o: bv32): (r: NodeMorton)
    ensures r & MaskXZ == c & MaskXZ
    ensures r <= CodeBits
  {
    (((c | MaskXZ) + o) & MaskY) | (c & MaskXZ)
  }

  /** Adds offset `o` to the Z lane: the other lanes are forced to one so the carry crosses them. */
  function AddZBy(c: NodeMorton, o: bv32): (r: NodeMorton)
    ensures r & MaskXY == c & MaskXY
    ensures r <= CodeBits
  {
    (((c | MaskXY) + o) & MaskZ) | (c & MaskXY)
  }

  /** Subtracts offset `o` from the X lane: the other lanes are masked off so the borrow crosses them. */
  function SubtractXBy(c: NodeMorton, o: bv32): (r: NodeMorton)
    ensures r & MaskYZ == c & MaskYZ
    ensures r <= CodeBits
  {
    (((c & MaskX) - o) & MaskX) | (c & MaskYZ)
  }

  /** Subtracts offset `o` from the Y lane: the other lanes are masked off so the borrow crosses them. */
  function SubtractYBy(c: NodeMorton, o: bv32): (r: NodeMorton)
    ensures r & MaskXZ == c & MaskXZ
    ensures r <= CodeBits
  {
    (((c & MaskY) - o) & MaskY) | (c & MaskXZ)
  }

  /** Subtracts offset `o` from the Z lane: the other lanes are masked off so the borrow crosses them. */
  function SubtractZBy(c: NodeMorton, o: bv32): (r: NodeMorton)
    ensures r & MaskXY == c & MaskXY
    ensures r <= CodeBits
  {
    (((c & MaskZ) - o) & MaskZ) | (c & MaskXY)
  }

  /** Adds the node size of layer `l` to the X axis. */
  function AddX(c: NodeMorton, l: nat): (r: NodeMorton)
    requires IsLayer(l)
    ensures r & MaskYZ == c & MaskYZ
    ensures r <= CodeBits
  {
    AddXBy(c, LayerOffsets[l])
  }

  /** Adds the node size of layer `l` to the Y axis. */
  function AddY(c: NodeMorton, l: nat): (r: NodeMorton)
    requires IsLayer(l)
    ensures r & MaskXZ == c & MaskXZ
    ensures r <= CodeBits
  {
    AddYBy(c, LayerOffsets[l])
  }

  /** Adds the node size of layer `l` to the Z axis. */
  function AddZ(c: NodeMorton, l: nat): (r: NodeMorton)
    requires IsLayer(l)
    ensures r & MaskXY == c & MaskXY
    ensures r <= CodeBits
  {
    AddZBy(c, LayerOffsets[l])
  }

  /** Subtracts the node size of layer `l` from the X axis. */
  function SubtractX(c: NodeMorton, l: nat): (r: NodeMorton)
    requires IsLayer(l)
    ensures r & MaskYZ == c & MaskYZ
    ensures r <= CodeBits
  {
    SubtractXBy(c, LayerOffsets[l])
  }

  /** Subtracts the node size of layer `l` from the Y axis. */
  function SubtractY(c: NodeMorton, l: nat): (r: NodeMorton)
    requires IsLayer(l)
    ensures r & MaskXZ == c & MaskXZ
    ensures r <= CodeBits
  {
    SubtractYBy(c, LayerOffsets[l])
  }

  /** Subtracts the node size of layer `l` from the Z axis. */
  function SubtractZ(c: NodeMorton, l: nat): (r: NodeMorton)
    requires IsLayer(l)
    ensures r & MaskXY == c & MaskXY
    ensures r <= CodeBits
  {
    SubtractZBy(c, LayerOffsets[l])
  }

  /** Adds offset `o` to all three lanes at once, each sum computed with the other lanes forced to one. */
  function AddBy(c: NodeMorton, o: bv32): (r: NodeMorton)
    ensures r <= CodeBits
  {
    (((c | MaskYZ) + o) & MaskX) | (((c | MaskXZ) + o) & MaskY) | (((c | MaskXY) + o) & MaskZ)
  }

  /** Subtracts offset `o` from all three lanes at once. */
  function SubtractBy(c: NodeMorton, o: bv32): (r: NodeMorton)
    ensures r <= CodeBits
  {
    (((c & MaskX) - o) & MaskX) | (((c & MaskY) - o) & MaskY) | (((c & MaskZ) - o) & MaskZ)
  }

  /** Adds the node size of layer `l` to all three axes at once. */
  function Add(c: NodeMorton, l: nat): (r: NodeMorton)
    requires IsLayer(l)
    ensures r <= CodeBits
  {
    AddBy(c, LayerOffsets[l])
  }

  /** Subtracts the node size of layer `l` from all three axes at once. */
  function Subtract(c: NodeMorton, l: nat): (r: NodeMorton)
    requires IsLayer(l)
    ensures r <= CodeBits
  {
    SubtractBy(c, LayerOffsets[l])
  }

  /** A single bit of the X lane: the form of every layer offset below the root. */
  predicate IsXBit(o: bv32) { o != 0 && o & (o - 1) == 0 && o & MaskX == o }

  /** Below the root, each layer offset is one X bit whose coordinate is the layer's lane step. */
  lemma {:induction false} OffsetIsXBit(l: nat)
    requires 1 <= l < 11
    ensures IsXBit(LayerOffsets[l])
  {
    if l == 1 {} else if l == 2 {} else if l == 3 {} else if l == 4 {} else if l == 5 {}
    else if l == 6 {} else if l == 7 {} else if l == 8 {} else if l == 9 {} else {}
  }

  lemma {:induction false} OffsetLane(l: nat)
    requires 1 <= l < 11
    ensures LaneX(LayerOffsets[l]) == LaneSteps[l]
  {
    if l == 1 {} else if l == 2 {} else if l == 3 {} else if l == 4 {} else if l == 5 {}
    else if l == 6 {} else if l == 7 {} else if l == 8 {} else if l == 9 {} else {}
  }

  lemma AddSubtractXBy(c: NodeMorton, o: bv32)
    requires IsXBit(o)
    ensures AddXBy(SubtractXBy(c, o), o) == c & CodeBits
  {
  }

  lemma SubtractAddXBy(c: NodeMorton, o: bv32)
    requires IsXBit(o)
    ensures SubtractXBy(AddXBy(c, o), o) == c & CodeBits
  {
  }

  lemma AddSubtractYBy(c: NodeMorton, o: bv32)
    requires IsXBit(o)
    ensures AddYBy(SubtractYBy(c, o), o) == c & CodeBits
  {
  }

  lemma SubtractAddYBy(c: NodeMorton, o: bv32)
    requires IsXBit(o)
    ensures SubtractYBy(AddYBy(c, o), o) == c & CodeBits
  {
  }

  lemma AddSubtractZBy(c: NodeMorton, o: bv32)
    requires IsXBit(o)
    ensures AddZBy(SubtractZBy(c, o), o) == c & CodeBits
  {
  }

  lemma SubtractAddZBy(c: NodeMorton, o: bv32)
    requires IsXBit(o)
    ensures SubtractZBy(AddZBy(c, o), o) == c & CodeBits
  {
  }

  lemma RootAddX(c: NodeMorton)
    ensures AddX(c, 0) == c & CodeBits
  {
  }

  lemma RootAddY(c: NodeMorton)
    ensures AddY(c, 0) == c & CodeBits
  {
  }

  lemma RootAddZ(c: NodeMorton)
    ensures AddZ(c, 0) == c & CodeBits
  {
  }

  lemma RootSubtractX(c: NodeMorton)
    ensures SubtractX(c, 0) == c & CodeBits
  {
  }

  lemma RootSubtractY(c: NodeMorton)
    ensures SubtractY(c, 0) == c & CodeBits
  {
  }

  lemma RootSubtractZ(c: NodeMorton)
    ensures SubtractZ(c, 0) == c & CodeBits
  {
  }

  // ---------------------------------------------------------------------------
  // Lane arithmetic: moving by an X-bit offset adds its coordinate to the moved lane, wrapping at 1024.

  lemma AddXByLane(c: NodeMorton, o: bv32)
    requires IsXBit(o)
    ensures LaneX(AddXBy(c, o)) == (LaneX(c) + LaneX(o)) & 0x3FF
  {
  }

  lemma AddYByLane(c: NodeMorton, o: bv32)
    requires IsXBit(o)
    ensures LaneY(AddYBy(c, o)) == (LaneY(c) + LaneX(o)) & 0x3FF
  {
  }

  lemma AddZByLane(c: NodeMorton, o: bv32)
    requires IsXBit(o)
    ensures LaneZ(AddZBy(c, o)) == (LaneZ(c) + LaneX(o)) & 0x3FF
  {
  }

  /** Bits 30 and 31 lie outside every lane. */
  lemma LaneXDropsTop(c: NodeMorton)
    ensures LaneX(c & CodeBits) == LaneX(c)
  {
  }

  /** Bits 30 and 31 lie outside every lane. */
  lemma LaneYDropsTop(c: NodeMorton)
    ensures LaneY(c & CodeBits) == LaneY(c)
  {
  }

  /** Bits 30 and 31 lie outside every lane. */
  lemma LaneZDropsTop(c: NodeMorton)
    ensures LaneZ(c & CodeBits) == LaneZ(c)
  {
  }

  /** Lane arithmetic is modulo 1024: a full turn changes nothing, and subtraction undoes addition. */
  lemma FullTurnIsIdentity(x: bv32)
    ensures x <= 0x3FF ==> (x + 0x400) & 0x3FF == x && (x - 0x400) & 0x3FF == x
  {
  }

  lemma LaneSubtractUndoesAdd(x: bv32, y: bv32, k: bv32)
    ensures x <= 0x3FF && (x + k) & 0x3FF == y ==> x == (y - k) & 0x3FF
  {
  }

  /** Adding an X-bit offset back after subtracting it restores lane X. */
  lemma AddSubtractXByLane(c: NodeMorton, o: bv32)
    requires IsXBit(o)
    ensures LaneX(AddXBy(SubtractXBy(c, o), o)) == LaneX(c)
  {
    AddSubtractXBy(c, o);
    LaneXDropsTop(c);
  }

  /** Lane X after subtracting `o` is the value that adding `o`'s coordinate brings back to lane X of `c`. */
  lemma SubtractXByThenAdd(c: NodeMorton, o: bv32)
    requires IsXBit(o)
    ensures (LaneX(SubtractXBy(c, o)) + LaneX(o)) & 0x3FF == LaneX(c)
  {
    AddSubtractXByLane(c, o);
    AddXByLane(SubtractXBy(c, o), o);
  }

  lemma SubtractXByLane(c: NodeMorton, o: bv32)
    requires IsXBit(o)
    ensures LaneX(SubtractXBy(c, o)) == (LaneX(c) - LaneX(o)) & 0x3FF
  {
    SubtractXByThenAdd(c, o);
    LaneSubtractUndoesAdd(LaneX(SubtractXBy(c, o)), LaneX(c), LaneX(o));
  }

  /** Adding an X-bit offset back after subtracting it restores lane Y. */
  lemma AddSubtractYByLane(c: NodeMorton, o: bv32)
    requires IsXBit(o)
    ensures LaneY(AddYBy(SubtractYBy(c, o), o)) == LaneY(c)
  {
    AddSubtractYBy(c, o);
    LaneYDropsTop(c);
  }

  /** Lane Y after subtracting `o` is the value that adding `o`'s coordinate brings back to lane Y of `c`. */
  lemma SubtractYByThenAdd(c: NodeMorton, o: bv32)
    requires IsXBit(o)
    ensures (LaneY(SubtractYBy(c, o)) + LaneX(o)) & 0x3FF == LaneY(c)
  {
    AddSubtractYByLane(c, o);
    AddYByLane(SubtractYBy(c, o), o);
  }

  lemma SubtractYByLane(c: NodeMorton, o: bv32)
    requires IsXBit(o)
    ensures LaneY(SubtractYBy(c, o)) == (LaneY(c) - LaneX(o)) & 0x3FF
  {
    SubtractYByThenAdd(c, o);
    LaneSubtractUndoesAdd(LaneY(SubtractYBy(c, o)), LaneY(c), LaneX(o));
  }

  /** Adding an X-bit offset back after subtracting it restores lane Z. */
  lemma AddSubtractZByLane(c: NodeMorton, o: bv32)
    requires IsXBit(o)
    ensures LaneZ(AddZBy(SubtractZBy(c, o), o)) == LaneZ(c)
  {
    AddSubtractZBy(c, o);
    LaneZDropsTop(c);
  }

  /** Lane Z after subtracting `o` is the value that adding `o`'s coordinate brings back to lane Z of `c`. */
  lemma SubtractZByThenAdd(c: NodeMorton, o: bv32)
    requires IsXBit(o)
    ensures (LaneZ(SubtractZBy(c, o)) + LaneX(o)) & 0x3FF == LaneZ(c)
  {
    AddSubtractZByLane(c, o);
    AddZByLane(SubtractZBy(c, o), o);
  }

  lemma SubtractZByLane(c: NodeMorton, o: bv32)
    requires IsXBit(o)
    ensures LaneZ(SubtractZBy(c, o)) == (LaneZ(c) - LaneX(o)) & 0x3FF
  {
    SubtractZByThenAdd(c, o);
    LaneSubtractUndoesAdd(LaneZ(SubtractZBy(c, o)), LaneZ(c), LaneX(o));
  }

  /** At the root the offset lies above every lane: a full turn of 1024 leaves lane X as it was. */
  lemma AddXLaneRoot(c: NodeMorton)
    ensures LaneX(AddX(c, 0)) == (LaneX(c) + LaneSteps[0]) & 0x3FF
  {
    RootAddX(c);
    LaneXDropsTop(c);
    FullTurnIsIdentity(LaneX(c));
  }

  lemma AddXLaneBelowRoot(c: NodeMorton, l: nat)
    requires 1 <= l < 11
    ensures LaneX(AddX(c, l)) == (LaneX(c) + LaneSteps[l]) & 0x3FF
  {
    OffsetIsXBit(l);
    OffsetLane(l);
    AddXByLane(c, LayerOffsets[l]);
  }

  /** AddX adds the layer's lane step to the X coordinate, wrapping at 1024. */
  lemma AddXLane(c: NodeMorton, l: nat)
    requires IsLayer(l)
    ensures LaneX(AddX(c, l)) == (LaneX(c) + LaneSteps[l]) & 0x3FF
  {
    if l == 0 {
      AddXLaneRoot(c);
    } else {
      AddXLaneBelowRoot(c, l);
    }
  }

  /** At the root the offset lies above every lane: a full turn of 1024 leaves lane Y as it was. */
  lemma AddYLaneRoot(c: NodeMorton)
    ensures LaneY(AddY(c, 0)) == (LaneY(c) + LaneSteps[0]) & 0x3FF
  {
    RootAddY(c);
    LaneYDropsTop(c);
    FullTurnIsIdentity(LaneY(c));
  }

  lemma AddYLaneBelowRoot(c: NodeMorton, l: nat)
    requires 1 <= l < 11
    ensures LaneY(AddY(c, l)) == (LaneY(c) + LaneSteps[l]) & 0x3FF
  {
    OffsetIsXBit(l);
    OffsetLane(l);
    AddYByLane(c, LayerOffsets[l]);
  }

  /** AddY adds the layer's lane step to the Y coordinate, wrapping at 1024. */
  lemma AddYLane(c: NodeMorton, l: nat)
    requires IsLayer(l)
    ensures LaneY(AddY(c, l)) == (LaneY(c) + LaneSteps[l]) & 0x3FF
  {
    if l == 0 {
      AddYLaneRoot(c);
    } else {
      AddYLaneBelowRoot(c, l);
    }
  }

  /** At the root the offset lies above every lane: a full turn of 1024 leaves lane Z as it was. */
  lemma AddZLaneRoot(c: NodeMorton)
    ensures LaneZ(AddZ(c, 0)) == (LaneZ(c) + LaneSteps[0]) & 0x3FF
  {
    RootAddZ(c);
    LaneZDropsTop(c);
    FullTurnIsIdentity(LaneZ(c));
  }

  lemma AddZLaneBelowRoot(c: NodeMorton, l: nat)
    requires 1 <= l < 11
    ensures LaneZ(AddZ(c, l)) == (LaneZ(c) + LaneSteps[l]) & 0x3FF
  {
    OffsetIsXBit(l);
    OffsetLane(l);
    AddZByLane(c, LayerOffsets[l]);
  }

  /** AddZ adds the layer's lane step to the Z coordinate, wrapping at 1024. */
  lemma AddZLane(c: NodeMorton, l: nat)
    requires IsLayer(l)
    ensures LaneZ(AddZ(c, l)) == (LaneZ(c) + LaneSteps[l]) & 0x3FF
  {
    if l == 0 {
      AddZLaneRoot(c);
    } else {
      AddZLaneBelowRoot(c, l);
    }
  }

  /** At the root the offset lies above every lane: a full turn of 1024 leaves lane X as it was. */
  lemma SubtractXLaneRoot(c: NodeMorton)
    ensures LaneX(SubtractX(c, 0)) == (LaneX(c) - LaneSteps[0]) & 0x3FF
  {
    RootSubtractX(c);
    LaneXDropsTop(c);
    FullTurnIsIdentity(LaneX(c));
  }

  lemma SubtractXLaneBelowRoot(c: NodeMorton, l: nat)
    requires 1 <= l < 11
    ensures LaneX(SubtractX(c, l)) == (LaneX(c) - LaneSteps[l]) & 0x3FF
  {
    OffsetIsXBit(l);
    OffsetLane(l);
    SubtractXByLane(c, LayerOffsets[l]);
  }

  /** SubtractX subtracts the layer's lane step from the X coordinate, wrapping at 1024. */
  lemma SubtractXLane(c: NodeMorton, l: nat)
    requires IsLayer(l)
    ensures LaneX(SubtractX(c, l)) == (LaneX(c) - LaneSteps[l]) & 0x3FF
  {
    if l == 0 {
      SubtractXLaneRoot(c);
    } else {
      SubtractXLaneBelowRoot(c, l);
    }
  }

  /** At the root the offset lies above every lane: a full turn of 1024 leaves lane Y as it was. */
  lemma SubtractYLaneRoot(c: NodeMorton)
    ensures LaneY(SubtractY(c, 0)) == (LaneY(c) - LaneSteps[0]) & 0x3FF
  {
    RootSubtractY(c);
    LaneYDropsTop(c);
    FullTurnIsIdentity(LaneY(c));
  }

  lemma SubtractYLaneBelowRoot(c: NodeMorton, l: nat)
    requires 1 <= l < 11
    ensures LaneY(SubtractY(c, l)) == (LaneY(c) - LaneSteps[l]) & 0x3FF
  {
    OffsetIsXBit(l);
    OffsetLane(l);
    SubtractYByLane(c, LayerOffsets[l]);
  }

  /** SubtractY subtracts the layer's lane step from the Y coordinate, wrapping at 1024. */
  lemma SubtractYLane(c: NodeMorton, l: nat)
    requires IsLayer(l)
    ensures LaneY(SubtractY(c, l)) == (LaneY(c) - LaneSteps[l]) & 0x3FF
  {
    if l == 0 {
      SubtractYLaneRoot(c);
    } else {
      SubtractYLaneBelowRoot(c, l);
    }
  }

  /** At the root the offset lies above every lane: a full turn of 1024 leaves lane Z as it was. */
  lemma SubtractZLaneRoot(c: NodeMorton)
    ensures LaneZ(SubtractZ(c, 0)) == (LaneZ(c) - LaneSteps[0]) & 0x3FF
  {
    RootSubtractZ(c);
    LaneZDropsTop(c);
    FullTurnIsIdentity(LaneZ(c));
  }

  lemma SubtractZLaneBelowRoot(c: NodeMorton, l: nat)
    requires 1 <= l < 11
    ensures LaneZ(SubtractZ(c, l)) == (LaneZ(c) - LaneSteps[l]) & 0x3FF
  {
    OffsetIsXBit(l);
    OffsetLane(l);
    SubtractZByLane(c, LayerOffsets[l]);
  }

  /** SubtractZ subtracts the layer's lane step from the Z coordinate, wrapping at 1024. */
  lemma SubtractZLane(c: NodeMorton, l: nat)
    requires IsLayer(l)
    ensures LaneZ(SubtractZ(c, l)) == (LaneZ(c) - LaneSteps[l]) & 0x3FF
  {
    if l == 0 {
      SubtractZLaneRoot(c);
    } else {
      SubtractZLaneBelowRoot(c, l);
    }
  }

  lemma AddXKeepsOtherLanes(c: NodeMorton, l: nat)
    requires IsLayer(l)
    ensures LaneY(AddX(c, l)) == LaneY(c)
    ensures LaneZ(AddX(c, l)) == LaneZ(c)
  {
    LaneYOnlyMaskY(AddX(c, l), c);
    LaneZOnlyMaskZ(AddX(c, l), c);
  }

  lemma AddYKeepsOtherLanes(c: NodeMorton, l: nat)
    requires IsLayer(l)
    ensures LaneX(AddY(c, l)) == LaneX(c)
    ensures LaneZ(AddY(c, l)) == LaneZ(c)
  {
    LaneXOnlyMaskX(AddY(c, l), c);
    LaneZOnlyMaskZ(AddY(c, l), c);
  }

  lemma AddZKeepsOtherLanes(c: NodeMorton, l: nat)
    requires IsLayer(l)
    ensures LaneX(AddZ(c, l)) == LaneX(c)
    ensures LaneY(AddZ(c, l)) == LaneY(c)
  {
    LaneXOnlyMaskX(AddZ(c, l), c);
    LaneYOnlyMaskY(AddZ(c, l), c);
  }

  lemma SubtractXKeepsOtherLanes(c: NodeMorton, l: nat)
    requires IsLayer(l)
    ensures LaneY(SubtractX(c, l)) == LaneY(c)
    ensures LaneZ(SubtractX(c, l)) == LaneZ(c)
  {
    LaneYOnlyMaskY(SubtractX(c, l), c);
    LaneZOnlyMaskZ(SubtractX(c, l), c);
  }

  lemma SubtractYKeepsOtherLanes(c: NodeMorton, l: nat)
    requires IsLayer(l)
    ensures LaneX(SubtractY(c, l)) == LaneX(c)
    ensures LaneZ(SubtractY(c, l)) == LaneZ(c)
  {
    LaneXOnlyMaskX(SubtractY(c, l), c);
    LaneZOnlyMaskZ(SubtractY(c, l), c);
  }

  lemma SubtractZKeepsOtherLanes(c: NodeMorton, l: nat)
    requires IsLayer(l)
    ensures LaneX(SubtractZ(c, l)) == LaneX(c)
    ensures LaneY(SubtractZ(c, l)) == LaneY(c)
  {
    LaneXOnlyMaskX(SubtractZ(c, l), c);
    LaneYOnlyMaskY(SubtractZ(c, l), c);
  }

  /** Subtracting a layer's size on X undoes adding it, and the other way round (bits 30 and 31, unused by codes, are cleared). */
  lemma {:induction false} SubtractAddX(c: NodeMorton, l: nat)
    requires IsLayer(l)
    ensures SubtractX(AddX(c, l), l) == c & CodeBits
  {
    if l == 0 {
      RootAddX(c);
      RootSubtractX(c & CodeBits);
    } else {
      OffsetIsXBit(l);
      SubtractAddXBy(c, LayerOffsets[l]);
    }
  }

  lemma {:induction false} AddSubtractX(c: NodeMorton, l: nat)
    requires IsLayer(l)
    ensures AddX(SubtractX(c, l), l) == c & CodeBits
  {
    if l == 0 {
      RootSubtractX(c);
      RootAddX(c & CodeBits);
    } else {
      OffsetIsXBit(l);
      AddSubtractXBy(c, LayerOffsets[l]);
    }
  }

  /** Subtracting a layer's size on Y undoes adding it, and the other way round (bits 30 and 31, unused by codes, are cleared). */
  lemma {:induction false} SubtractAddY(c: NodeMorton, l: nat)
    requires IsLayer(l)
    ensures SubtractY(AddY(c, l), l) == c & CodeBits
  {
    if l == 0 {
      RootAddY(c);
      RootSubtractY(c & CodeBits);
    } else {
      OffsetIsXBit(l);
      SubtractAddYBy(c, LayerOffsets[l]);
    }
  }

  lemma {:induction false} AddSubtractY(c: NodeMorton, l: nat)
    requires IsLayer(l)
    ensures AddY(SubtractY(c, l), l) == c & CodeBits
  {
    if l == 0 {
      RootSubtractY(c);
      RootAddY(c & CodeBits);
    } else {
      OffsetIsXBit(l);
      AddSubtractYBy(c, LayerOffsets[l]);
    }
  }

  /** Subtracting a layer's size on Z undoes adding it, and the other way round (bits 30 and 31, unused by codes, are cleared). */
  lemma {:induction false} SubtractAddZ(c: NodeMorton, l: nat)
    requires IsLayer(l)
    ensures SubtractZ(AddZ(c, l), l) == c & CodeBits
  {
    if l == 0 {
      RootAddZ(c);
      RootSubtractZ(c & CodeBits);
    } else {
      OffsetIsXBit(l);
      SubtractAddZBy(c, LayerOffsets[l]);
    }
  }

  lemma {:induction false} AddSubtractZ(c: NodeMorton, l: nat)
    requires IsLayer(l)
    ensures AddZ(SubtractZ(c, l), l) == c & CodeBits
  {
    if l == 0 {
      RootSubtractZ(c);
      RootAddZ(c & CodeBits);
    } else {
      OffsetIsXBit(l);
      AddSubtractZBy(c, LayerOffsets[l]);
    }
  }

  /** Add moves every coordinate forward by the layer's lane step. */
  lemma {:induction false} AddLanes(c: NodeMorton, l: nat)
    requires IsLayer(l)
    ensures LaneX(Add(c, l)) == (LaneX(c) + LaneSteps[l]) & 0x3FF
    ensures LaneY(Add(c, l)) == (LaneY(c) + LaneSteps[l]) & 0x3FF
    ensures LaneZ(Add(c, l)) == (LaneZ(c) + LaneSteps[l]) & 0x3FF
  {
    LaneXOnlyMaskX(Add(c, l), AddX(c, l));
    AddXLane(c, l);
    LaneYOnlyMaskY(Add(c, l), AddY(c, l));
    AddYLane(c, l);
    LaneZOnlyMaskZ(Add(c, l), AddZ(c, l));
    AddZLane(c, l);
  }

  /** Subtract moves every coordinate back by the layer's lane step. */
  lemma {:induction false} SubtractLanes(c: NodeMorton, l: nat)
    requires IsLayer(l)
    ensures LaneX(Subtract(c, l)) == (LaneX(c) - LaneSteps[l]) & 0x3FF
    ensures LaneY(Subtract(c, l)) == (LaneY(c) - LaneSteps[l]) & 0x3FF
    ensures LaneZ(Subtract(c, l)) == (LaneZ(c) - LaneSteps[l]) & 0x3FF
  {
    LaneXOnlyMaskX(Subtract(c, l), SubtractX(c, l));
    SubtractXLane(c, l);
    LaneYOnlyMaskY(Subtract(c, l), SubtractY(c, l));
    SubtractYLane(c, l);
    LaneZOnlyMaskZ(Subtract(c, l), SubtractZ(c, l));
    SubtractZLane(c, l);
  }

  // ---------------------------------------------------------------------------
  // Layer tables

  /** ParentMasks[l] keeps exactly the bits at or above the X bit of layer l's node size. */
  lemma {:induction false} ParentMaskOfOffset(l: nat)
    requires IsLayer(l)
    ensures !ParentMasks[l] == LayerOffsets[l] - 1
  {
    if l == 0 {} else if l == 1 {} else if l == 2 {} else if l == 3 {} else if l == 4 {} else if l == 5 {}
    else if l == 6 {} else if l == 7 {} else if l == 8 {} else if l == 9 {} else {}
  }

  /** Below the root, the parent's mask ends three bits (one octant) above the child's offset. */
  lemma {:induction false} ParentMaskAboveChild(cl: nat)
    requires 1 <= cl < 11
    ensures ParentMasks[cl - 1] == !((LayerOffsets[cl] << 3) - 1)
  {
    if cl == 1 {} else if cl == 2 {} else if cl == 3 {} else if cl == 4 {} else if cl == 5 {}
    else if cl == 6 {} else if cl == 7 {} else if cl == 8 {} else if cl == 9 {} else {}
  }

  lemma {:induction false} ChildOffsetBound(cl: nat)
    requires 1 <= cl < 11
    ensures LayerOffsets[cl] <= 0x0800_0000
  {
    if cl == 1 {} else if cl == 2 {} else if cl == 3 {} else if cl == 4 {} else if cl == 5 {}
    else if cl == 6 {} else if cl == 7 {} else if cl == 8 {} else if cl == 9 {} else {}
  }

  /** The corrected shift table reads the octant bits at a layer's offset. */
  lemma {:induction false} ShiftOfOffset(l: nat)
    requires IsLayer(l)
    ensures ChildIndexShiftsFixed[l] <= 30 && LayerOffsets[l] == 1 << ChildIndexShiftsFixed[l]
  {
    if l == 0 {} else if l == 1 {} else if l == 2 {} else if l == 3 {} else if l == 4 {} else if l == 5 {}
    else if l == 6 {} else if l == 7 {} else if l == 8 {} else if l == 9 {} else {}
  }

  // ---------------------------------------------------------------------------
  // Parents

  /** A code that addresses a node of layer `l`: it uses only the 30 code bits and none finer than the layer. */
  predicate IsNodeOfLayer(c: NodeMorton, l: nat)
    requires IsLayer(l)
  {
    c <= CodeBits && c & !ParentMasks[l] == 0
  }

  /** The code of the ancestor in layer `pl`: the bits finer than that layer are cleared. */
  function GetParent(c: NodeMorton, pl: nat): (r: NodeMorton)
    requires IsLayer(pl)
    ensures r & !c == 0
  {
    c & ParentMasks[pl]
  }

  /** The parent of a code is a node of the parent layer. */
  lemma GetParentIsNode(c: NodeMorton, pl: nat)
    requires IsLayer(pl) && c <= CodeBits
    ensures IsNodeOfLayer(GetParent(c, pl), pl)
  {
  }

  /** A node of layer `pl` is its own parent in that layer; in particular GetParent is idempotent. */
  lemma GetParentOfNode(c: NodeMorton, pl: nat)
    requires IsLayer(pl) && IsNodeOfLayer(c, pl)
    ensures GetParent(c, pl) == c
  {
  }

  lemma GetParentIdempotent(c: NodeMorton, pl: nat)
    requires IsLayer(pl)
    ensures GetParent(GetParent(c, pl), pl) == GetParent(c, pl)
  {
  }

  /** Coordinate masks of the parent layers: bit k of a lane survives when 2^k is at least the layer's lane step. */
  const LaneFloorMasks: seq<bv32> := [0x000, 0x200, 0x300, 0x380, 0x3C0, 0x3E0, 0x3F0, 0x3F8, 0x3FC, 0x3FE, 0x3FF]

  /** Each lane floor mask rounds a coordinate down to a multiple of the lane step. */
  lemma {:induction false} LaneFloorMaskOfStep(l: nat)
    requires IsLayer(l)
    ensures LaneFloorMasks[l] == !(LaneSteps[l] - 1) & 0x3FF
  {
    if l == 0 {} else if l == 1 {} else if l == 2 {} else if l == 3 {} else if l == 4 {} else if l == 5 {}
    else if l == 6 {} else if l == 7 {} else if l == 8 {} else if l == 9 {} else {}
  }

  lemma {:induction false} ParentMaskLaneX(l: nat)
    requires IsLayer(l)
    ensures LaneX(ParentMasks[l]) == LaneFloorMasks[l]
  {
    if l == 0 {} else if l == 1 {} else if l == 2 {} else if l == 3 {} else if l == 4 {} else if l == 5 {}
    else if l == 6 {} else if l == 7 {} else if l == 8 {} else if l == 9 {} else {}
  }

  lemma {:induction false} ParentMaskLaneY(l: nat)
    requires IsLayer(l)
    ensures LaneY(ParentMasks[l]) == LaneFloorMasks[l]
  {
    if l == 0 {} else if l == 1 {} else if l == 2 {} else if l == 3 {} else if l == 4 {} else if l == 5 {}
    else if l == 6 {} else if l == 7 {} else if l == 8 {} else if l == 9 {} else {}
  }

  lemma {:induction false} ParentMaskLaneZ(l: nat)
    requires IsLayer(l)
    ensures LaneZ(ParentMasks[l]) == LaneFloorMasks[l]
  {
    if l == 0 {} else if l == 1 {} else if l == 2 {} else if l == 3 {} else if l == 4 {} else if l == 5 {}
    else if l == 6 {} else if l == 7 {} else if l == 8 {} else if l == 9 {} else {}
  }

  lemma MaskedLaneX(c: NodeMorton, m: bv32)
    ensures LaneX(c & m) == LaneX(c) & LaneX(m)
  {
    GatherAnd(c, m);
  }

  lemma MaskedLaneY(c: NodeMorton, m: bv32)
    ensures LaneY(c & m) == LaneY(c) & LaneY(m)
  {
    assert (c & m) >> 1 == (c >> 1) & (m >> 1);
    GatherAnd(c >> 1, m >> 1);
  }

  lemma MaskedLaneZ(c: NodeMorton, m: bv32)
    ensures LaneZ(c & m) == LaneZ(c) & LaneZ(m)
  {
    assert (c & m) >> 2 == (c >> 2) & (m >> 2);
    GatherAnd(c >> 2, m >> 2);
  }

  /** The parent's X coordinate is the node's X coordinate rounded down to the parent layer's size. */
  lemma GetParentFloorsX(c: NodeMorton, pl: nat)
    requires IsLayer(pl)
    ensures LaneX(GetParent(c, pl)) == LaneX(c) & LaneFloorMasks[pl]
  {
    MaskedLaneX(c, ParentMasks[pl]);
    ParentMaskLaneX(pl);
  }

  lemma GetParentFloorsY(c: NodeMorton, pl: nat)
    requires IsLayer(pl)
    ensures LaneY(GetParent(c, pl)) == LaneY(c) & LaneFloorMasks[pl]
  {
    MaskedLaneY(c, ParentMasks[pl]);
    ParentMaskLaneY(pl);
  }

  lemma GetParentFloorsZ(c: NodeMorton, pl: nat)
    requires IsLayer(pl)
    ensures LaneZ(GetParent(c, pl)) == LaneZ(c) & LaneFloorMasks[pl]
  {
    MaskedLaneZ(c, ParentMasks[pl]);
    ParentMaskLaneZ(pl);
  }

  // ---------------------------------------------------------------------------
  // Children

  /** The offset bits of octant `i` inside a parent: bit 0 of `i` selects X, bit 1 Y, bit 2 Z. */
  function ChildBits(i: bv8, o: bv32): (r: bv32)
    requires i < 8
  {
    if i == 0 then 0
    else if i == 1 then o
    else if i == 2 then o << 1
    else if i == 3 then o | (o << 1)
    else if i == 4 then o << 2
    else if i == 5 then o | (o << 2)
    else if i == 6 then (o << 1) | (o << 2)
    else o | (o << 1) | (o << 2)
  }

  /** The three bits of `c` starting at bit `s`, as a child index. */
  function IndexAt(c: NodeMorton, s: bv32): (r: bv8)
    requires s < 32
    ensures r < 8
  {
    ((c >> s) & 7) as bv8
  }

  /**
   * GetChildIndex as written: its shift table has ten entries, so a node of
   * the deepest layer (10) reads past the table; that read is `None` here.
   */
  function GetChildIndexAsWritten(c: NodeMorton, l: nat): (r: Option<bv8>)
    ensures r.Some? <==> l < 10
  {
    if l < |ChildIndexShifts| then Some(IndexAt(c, ChildIndexShifts[l])) else None
  }

  /** The index (0..7) of a node of layer `l` inside its parent, with the shift table completed for layer 10. */
  function GetChildIndex(c: NodeMorton, l: nat): (r: bv8)
    requires IsLayer(l)
    ensures r < 8
  {
    IndexAt(c, ChildIndexShiftsFixed[l])
  }

  lemma {:induction false} ShiftsAgree(l: nat)
    requires l < 10
    ensures ChildIndexShifts[l] == ChildIndexShiftsFixed[l]
  {
    if l == 0 {} else if l == 1 {} else if l == 2 {} else if l == 3 {} else if l == 4 {} else if l == 5 {}
    else if l == 6 {} else if l == 7 {} else if l == 8 {} else {}
  }

  /** Where the written table has an entry, the corrected one agrees with it. */
  lemma GetChildIndexAgrees(c: NodeMorton, l: nat)
    requires l < 10
    ensures GetChildIndexAsWritten(c, l) == Some(GetChildIndex(c, l))
  {
    ShiftsAgree(l);
  }

  /**
   * A parent `p` ready to take children whose size is the X bit `o`: a
   * proper offset below the root, and `p` has no bit in the child octant
   * (the three bits from `o` up) or below it.
   */
  predicate ParentAlignedFor(p: NodeMorton, o: bv32)
  {
    IsXBit(o) && o <= 0x0800_0000 && p <= CodeBits && p & ((o << 3) - 1) == 0
  }

  /** A node of layer cl - 1 is aligned for the children of layer cl. */
  lemma NodeIsParentAligned(p: NodeMorton, cl: nat)
    requires 1 <= cl < 11 && IsNodeOfLayer(p, cl - 1)
    ensures ParentAlignedFor(p, LayerOffsets[cl])
  {
    OffsetIsXBit(cl);
    ChildOffsetBound(cl);
    ParentMaskAboveChild(cl);
  }

  /** The child of parent `p` in octant `i`, where `o` is the X bit of the child layer's size. */
  function GetChildBy(p: NodeMorton, o: bv32, i: bv8): (r: NodeMorton)
  {
    if i == 0 then p
    else if i == 1 then AddXBy(p, o)
    else if i == 2 then AddYBy(p, o)
    else if i == 3 then AddXBy(p, o) | AddYBy(p, o)
    else if i == 4 then AddZBy(p, o)
    else if i == 5 then AddXBy(p, o) | AddZBy(p, o)
    else if i == 6 then AddYBy(p, o) | AddZBy(p, o)
    else if i == 7 then AddBy(p, o)
    else p
  }

  /** `GetChild` (Morton.h:90-104): the child of parent `p` in octant `i`, as a node of layer `cl`; an index above 7 gives the parent back. */
  function GetChild(p: NodeMorton, cl: nat, i: bv8): (r: NodeMorton)
    requires IsLayer(cl)
  {
    GetChildBy(p, LayerOffsets[cl], i)
  }

  /** All eight children at once, built from the three single-axis moves. */
  function GetChildrenBy(p: NodeMorton, o: bv32): (r: seq<NodeMorton>)
    ensures |r| == 8 && r[0] == p
  {
    var x := AddXBy(p, o);
    var y := AddYBy(p, o);
    var z := AddZBy(p, o);
    [p, x, y, x | y, z, x | z, y | z, x | y | z]
  }

  function GetChildren(p: NodeMorton, cl: nat): (r: seq<NodeMorton>)
    requires IsLayer(cl)
    ensures |r| == 8 && r[0] == p
  {
    GetChildrenBy(p, LayerOffsets[cl])
  }

  /** Adding an offset to an aligned parent sets a bit that was clear: no carry runs. */
  lemma AlignedAddXBy(p: NodeMorton, o: bv32)
    ensures ParentAlignedFor(p, o) ==> AddXBy(p, o) == p | o
  {
  }

  lemma AlignedAddYBy(p: NodeMorton, o: bv32)
    ensures ParentAlignedFor(p, o) ==> AddYBy(p, o) == p | (o << 1)
  {
  }

  lemma AlignedAddZBy(p: NodeMorton, o: bv32)
    ensures ParentAlignedFor(p, o) ==> AddZBy(p, o) == p | (o << 2)
  {
  }

  lemma AlignedAddBy(p: NodeMorton, o: bv32)
    ensures ParentAlignedFor(p, o) ==> AddBy(p, o) == p | o | (o << 1) | (o << 2)
  {
  }

  lemma ChildOfOctant0(p: NodeMorton, o: bv32, i: bv8)
    ensures ParentAlignedFor(p, o) && i == 0 ==> GetChildBy(p, o, i) == p | ChildBits(i, o)
  {

  }

  lemma ChildOfOctant1(p: NodeMorton, o: bv32, i: bv8)
    ensures ParentAlignedFor(p, o) && i == 1 ==> GetChildBy(p, o, i) == p | ChildBits(i, o)
  {
    AlignedAddXBy(p, o);
  }

  lemma ChildOfOctant2(p: NodeMorton, o: bv32, i: bv8)
    ensures ParentAlignedFor(p, o) && i == 2 ==> GetChildBy(p, o, i) == p | ChildBits(i, o)
  {
    AlignedAddYBy(p, o);
  }

  lemma ChildOfOctant3(p: NodeMorton, o: bv32, i: bv8)
    ensures ParentAlignedFor(p, o) && i == 3 ==> GetChildBy(p, o, i) == p | ChildBits(i, o)
  {
    AlignedAddXBy(p, o);
    AlignedAddYBy(p, o);
  }

  lemma ChildOfOctant4(p: NodeMorton, o: bv32, i: bv8)
    ensures ParentAlignedFor(p, o) && i == 4 ==> GetChildBy(p, o, i) == p | ChildBits(i, o)
  {
    AlignedAddZBy(p, o);
  }

  lemma ChildOfOctant5(p: NodeMorton, o: bv32, i: bv8)
    ensures ParentAlignedFor(p, o) && i == 5 ==> GetChildBy(p, o, i) == p | ChildBits(i, o)
  {
    AlignedAddXBy(p, o);
    AlignedAddZBy(p, o);
  }

  lemma ChildOfOctant6(p: NodeMorton, o: bv32, i: bv8)
    ensures ParentAlignedFor(p, o) && i == 6 ==> GetChildBy(p, o, i) == p | ChildBits(i, o)
  {
    AlignedAddYBy(p, o);
    AlignedAddZBy(p, o);
  }

  lemma ChildOfOctant7(p: NodeMorton, o: bv32, i: bv8)
    ensures ParentAlignedFor(p, o) && i == 7 ==> GetChildBy(p, o, i) == p | ChildBits(i, o)
  {
    AlignedAddBy(p, o);
  }

  lemma GetChildByIsOr(p: NodeMorton, o: bv32, i: bv8)
    requires ParentAlignedFor(p, o) && i < 8
    ensures GetChildBy(p, o, i) == p | ChildBits(i, o)
  {
    ChildOfOctant0(p, o, i);
    ChildOfOctant1(p, o, i);
    ChildOfOctant2(p, o, i);
    ChildOfOctant3(p, o, i);
    ChildOfOctant4(p, o, i);
    ChildOfOctant5(p, o, i);
    ChildOfOctant6(p, o, i);
    ChildOfOctant7(p, o, i);
  }

  /** The three bits of the octant that starts at offset `o`. */
  function OctantMask(o: bv32): (r: bv32)
  {
    o | (o << 1) | (o << 2)
  }

  lemma OctantBits0(i: bv8, o: bv32)
    ensures i == 0 ==> ChildBits(i, o) & !OctantMask(o) == 0
  {
  }

  lemma OctantBits1(i: bv8, o: bv32)
    ensures i == 1 ==> ChildBits(i, o) & !OctantMask(o) == 0
  {
  }

  lemma OctantBits2(i: bv8, o: bv32)
    ensures i == 2 ==> ChildBits(i, o) & !OctantMask(o) == 0
  {
  }

  lemma OctantBits3(i: bv8, o: bv32)
    ensures i == 3 ==> ChildBits(i, o) & !OctantMask(o) == 0
  {
  }

  lemma OctantBits4(i: bv8, o: bv32)
    ensures i == 4 ==> ChildBits(i, o) & !OctantMask(o) == 0
  {
  }

  lemma OctantBits5(i: bv8, o: bv32)
    ensures i == 5 ==> ChildBits(i, o) & !OctantMask(o) == 0
  {
  }

  lemma OctantBits6(i: bv8, o: bv32)
    ensures i == 6 ==> ChildBits(i, o) & !OctantMask(o) == 0
  {
  }

  lemma OctantBits7(i: bv8, o: bv32)
    ensures i == 7 ==> ChildBits(i, o) & !OctantMask(o) == 0
  {
  }

  /** The bits an octant adds to its parent lie inside that octant's three bits. */
  lemma ChildBitsInOctant(i: bv8, o: bv32)
    requires i < 8
    ensures ChildBits(i, o) & !OctantMask(o) == 0
  {
    OctantBits0(i, o);
    OctantBits1(i, o);
    OctantBits2(i, o);
    OctantBits3(i, o);
    OctantBits4(i, o);
    OctantBits5(i, o);
    OctantBits6(i, o);
    OctantBits7(i, o);
  }

  /** The child of an aligned parent is the parent with the octant's offset bits set. */
  lemma GetChildIsOr(p: NodeMorton, cl: nat, i: bv8)
    requires 1 <= cl < 11 && IsNodeOfLayer(p, cl - 1) && i < 8
    ensures GetChild(p, cl, i) == p | ChildBits(i, LayerOffsets[cl])
  {
    NodeIsParentAligned(p, cl);
    GetChildByIsOr(p, LayerOffsets[cl], i);
  }

  /** Reading the octant bits back at the offset's position gives the octant. */
  lemma IndexOfChildBits(p: NodeMorton, s: bv32, i: bv8)
    requires s <= 27 && p & ((8 << s) - 1) == 0 && i < 8
    ensures IndexAt(p | ChildBits(i, 1 << s), s) == i
  {
  }

  /** Below the root, the corrected shift table places the octant bits inside the 30 code bits. */
  lemma {:induction false} ChildShiftBound(cl: nat)
    requires 1 <= cl < 11
    ensures ChildIndexShiftsFixed[cl] <= 27
  {
    if cl == 1 {} else if cl == 2 {} else if cl == 3 {} else if cl == 4 {} else if cl == 5 {}
    else if cl == 6 {} else if cl == 7 {} else if cl == 8 {} else if cl == 9 {} else {}
  }

  /** A child reports its own octant: GetChildIndex inverts GetChild. */
  lemma GetChildIndexOfChild(p: NodeMorton, cl: nat, i: bv8)
    requires 1 <= cl < 11 && IsNodeOfLayer(p, cl - 1) && i < 8
    ensures GetChildIndex(GetChild(p, cl, i), cl) == i
  {
    GetChildIsOr(p, cl, i);
    ShiftOfOffset(cl);
    ChildShiftBound(cl);
    AlignedParent(p, cl);
    IndexOfChildBits(p, ChildIndexShiftsFixed[cl], i);
  }

  lemma AlignedParent(p: NodeMorton, cl: nat)
    requires 1 <= cl < 11 && IsNodeOfLayer(p, cl - 1)
    ensures p & ((LayerOffsets[cl] << 3) - 1) == 0
  {
    ParentMaskAboveChild(cl);
  }

  /** Masking a child of an aligned parent with the parent's mask gives the parent back. */
  lemma GetChildByParent(p: NodeMorton, o: bv32, i: bv8)
    requires ParentAlignedFor(p, o) && i < 8
    ensures GetChildBy(p, o, i) & !((o << 3) - 1) == p
  {
    GetChildByIsOr(p, o, i);
    ChildBitsInOctant(i, o);
    ParentOfOctantBits(p, o, ChildBits(i, o));
  }

  lemma ParentOfOctantBits(p: NodeMorton, o: bv32, b: bv32)
    ensures ParentAlignedFor(p, o) && b & !OctantMask(o) == 0 ==> (p | b) & !((o << 3) - 1) == p
  {
  }

  lemma OctantBitsAligned(p: NodeMorton, o: bv32, b: bv32)
    ensures ParentAlignedFor(p, o) && b & !OctantMask(o) == 0 ==> p | b <= CodeBits && (p | b) & (o - 1) == 0
  {
  }

  /** The parent of a child is the parent it was derived from. */
  lemma GetParentOfChild(p: NodeMorton, cl: nat, i: bv8)
    requires 1 <= cl < 11 && IsNodeOfLayer(p, cl - 1) && i < 8
    ensures GetParent(GetChild(p, cl, i), cl - 1) == p
  {
    NodeIsParentAligned(p, cl);
    ParentMaskAboveChild(cl);
    GetChildByParent(p, LayerOffsets[cl], i);
  }

  /** A child of an aligned parent has nothing below its own offset. */
  lemma GetChildByAligned(p: NodeMorton, o: bv32, i: bv8)
    requires ParentAlignedFor(p, o) && i < 8
    ensures GetChildBy(p, o, i) <= CodeBits && GetChildBy(p, o, i) & (o - 1) == 0
  {
    GetChildByIsOr(p, o, i);
    ChildBitsInOctant(i, o);
    OctantBitsAligned(p, o, ChildBits(i, o));
  }

  /** A child of a node of layer cl - 1 is a node of layer cl. */
  lemma GetChildIsNode(p: NodeMorton, cl: nat, i: bv8)
    requires 1 <= cl < 11 && IsNodeOfLayer(p, cl - 1) && i < 8
    ensures IsNodeOfLayer(GetChild(p, cl, i), cl)
  {
    NodeIsParentAligned(p, cl);
    ParentMaskOfOffset(cl);
    GetChildByAligned(p, LayerOffsets[cl], i);
  }

  /** Distinct octants give distinct children. */
  lemma GetChildInjective(p: NodeMorton, cl: nat, i: bv8, j: bv8)
    requires 1 <= cl < 11 && IsNodeOfLayer(p, cl - 1) && i < 8 && j < 8 && i != j
    ensures GetChild(p, cl, i) != GetChild(p, cl, j)
  {
    GetChildIndexOfChild(p, cl, i);
    GetChildIndexOfChild(p, cl, j);
  }

  lemma GetChildrenByAreChildren(p: NodeMorton, o: bv32, i: bv8)
    requires ParentAlignedFor(p, o) && i < 8
    ensures GetChildrenBy(p, o)[i] == GetChildBy(p, o, i)
  {
    AlignedAddXBy(p, o);
    AlignedAddYBy(p, o);
    AlignedAddZBy(p, o);
    AlignedAddBy(p, o);
  }

  /** GetChildren lists GetChild's eight results in octant order. */
  lemma GetChildrenAreChildren(p: NodeMorton, cl: nat, i: bv8)
    requires 1 <= cl < 11 && IsNodeOfLayer(p, cl - 1) && i < 8
    ensures GetChildren(p, cl)[i] == GetChild(p, cl, i)
  {
    NodeIsParentAligned(p, cl);
    GetChildrenByAreChildren(p, LayerOffsets[cl], i);
  }

  /** The deepest layer's first X neighbour inside its parent: its index is 1, but the written table has no entry. */
  lemma GetChildIndexAsWrittenMissesDeepestLayer()
    ensures GetChildIndexAsWritten(GetChild(0, NodeDepth, 1), NodeDepth) == None
    ensures GetChildIndex(GetChild(0, NodeDepth, 1), NodeDepth) == 1
  {
  }

  // ---------------------------------------------------------------------------
  // Moving and neighbours

  /** Moves a code by offset `o` in direction `d`; any other direction value leaves it as it is. */
  function MoveBy(c: NodeMorton, o: bv32, d: Direction): (r: NodeMorton)
  {
    if d == NegativeX then SubtractXBy(c, o)
    else if d == NegativeY then SubtractYBy(c, o)
    else if d == NegativeZ then SubtractZBy(c, o)
    else if d == PositiveX then AddXBy(c, o)
    else if d == PositiveY then AddYBy(c, o)
    else if d == PositiveZ then AddZBy(c, o)
    else c
  }

  /** Moves a code by one node of layer `l` in direction `d`. */
  function Move(c: NodeMorton, l: nat, d: Direction): (r: NodeMorton)
    requires IsLayer(l)
  {
    MoveBy(c, LayerOffsets[l], d)
  }

  /** Moving back in the opposite direction returns to the start (within the 30 code bits). */
  lemma MoveOpposite(c: NodeMorton, l: nat, d: Direction)
    requires IsLayer(l) && IsSingleDirection(d)
    ensures Move(Move(c, l, d), l, Opposite(d)) == c & CodeBits
  {
    if d == NegativeX { AddSubtractX(c, l); }
    else if d == NegativeY { AddSubtractY(c, l); }
    else if d == NegativeZ { AddSubtractZ(c, l); }
    else if d == PositiveX { SubtractAddX(c, l); }
    else if d == PositiveY { SubtractAddY(c, l); }
    else { SubtractAddZ(c, l); }
  }

  /** A value that is not one of the six directions does not move the code. */
  lemma MoveNoDirection(c: NodeMorton, l: nat, d: Direction)
    requires IsLayer(l) && !IsSingleDirection(d)
    ensures Move(c, l, d) == c
  {
  }

  /** The neighbour in direction `d`, as a node of layer `l` (which may be coarser than the node moved from). */
  function GetNeighbour(c: NodeMorton, l: nat, d: Direction): (r: NodeMorton)
    requires IsLayer(l)
  {
    Move(c, l, d) & ParentMasks[l]
  }

  lemma MoveStaysInCode(c: NodeMorton, l: nat, d: Direction)
    requires IsLayer(l) && c <= CodeBits
    ensures Move(c, l, d) <= CodeBits
  {
  }

  /** A neighbour is always a node of the requested layer. */
  lemma GetNeighbourIsNode(c: NodeMorton, l: nat, d: Direction)
    requires IsLayer(l) && c <= CodeBits
    ensures IsNodeOfLayer(GetNeighbour(c, l, d), l)
  {
    MoveStaysInCode(c, l, d);
    GetParentIsNode(Move(c, l, d), l);
  }

  lemma {:induction false} OffsetIsPowerOfTwo(l: nat)
    requires IsLayer(l)
    ensures LayerOffsets[l] != 0 && LayerOffsets[l] & (LayerOffsets[l] - 1) == 0
  {
    if l == 0 {} else if l == 1 {} else if l == 2 {} else if l == 3 {} else if l == 4 {} else if l == 5 {}
    else if l == 6 {} else if l == 7 {} else if l == 8 {} else if l == 9 {} else {}
  }

  lemma AddXByKeepsAlignment(c: NodeMorton, o: bv32)
    ensures o != 0 && o & (o - 1) == 0 && c & (o - 1) == 0 ==> AddXBy(c, o) & (o - 1) == 0
  {
  }

  lemma SubtractXByKeepsAlignment(c: NodeMorton, o: bv32)
    ensures o != 0 && o & (o - 1) == 0 && c & (o - 1) == 0 ==> SubtractXBy(c, o) & (o - 1) == 0
  {
  }

  lemma AddYByKeepsAlignment(c: NodeMorton, o: bv32)
    ensures o != 0 && o & (o - 1) == 0 && c & (o - 1) == 0 ==> AddYBy(c, o) & (o - 1) == 0
  {
  }

  lemma SubtractYByKeepsAlignment(c: NodeMorton, o: bv32)
    ensures o != 0 && o & (o - 1) == 0 && c & (o - 1) == 0 ==> SubtractYBy(c, o) & (o - 1) == 0
  {
  }

  lemma AddZByKeepsAlignment(c: NodeMorton, o: bv32)
    ensures o != 0 && o & (o - 1) == 0 && c & (o - 1) == 0 ==> AddZBy(c, o) & (o - 1) == 0
  {
  }

  lemma SubtractZByKeepsAlignment(c: NodeMorton, o: bv32)
    ensures o != 0 && o & (o - 1) == 0 && c & (o - 1) == 0 ==> SubtractZBy(c, o) & (o - 1) == 0
  {
  }

  /** A move by a power-of-two offset keeps the bits below the offset clear. */
  lemma MoveByKeepsAlignment(c: NodeMorton, o: bv32, d: Direction)
    requires o != 0 && o & (o - 1) == 0 && c & (o - 1) == 0
    ensures MoveBy(c, o, d) & (o - 1) == 0
  {
    AddXByKeepsAlignment(c, o);
    SubtractXByKeepsAlignment(c, o);
    AddYByKeepsAlignment(c, o);
    SubtractYByKeepsAlignment(c, o);
    AddZByKeepsAlignment(c, o);
    SubtractZByKeepsAlignment(c, o);
  }

  /** Moving a node of layer `l` by its own size lands on a node of layer `l`. */
  lemma MoveKeepsNode(c: NodeMorton, l: nat, d: Direction)
    requires IsLayer(l) && IsNodeOfLayer(c, l)
    ensures IsNodeOfLayer(Move(c, l, d), l)
  {
    ParentMaskOfOffset(l);
    OffsetIsPowerOfTwo(l);
    MoveByKeepsAlignment(c, LayerOffsets[l], d);
    MoveStaysInCode(c, l, d);
    assert Move(c, l, d) & !ParentMasks[l] == 0;
  }

  /** For a node of layer `l`, GetNeighbour's mask changes nothing: the neighbour is the moved code. */
  lemma GetNeighbourOfNode(c: NodeMorton, l: nat, d: Direction)
    requires IsLayer(l) && IsNodeOfLayer(c, l)
    ensures GetNeighbour(c, l, d) == Move(c, l, d)
  {
    MoveKeepsNode(c, l, d);
    GetParentOfNode(Move(c, l, d), l);
  }

  // ---------------------------------------------------------------------------
  // Copying one coordinate, zero tests and chunk crossing

  /** Replaces the X coordinate of `a` by that of `b`. */
  function CopyX(a: NodeMorton, b: NodeMorton): (r: NodeMorton)
  {
    (a & MaskYZ) | (b & MaskX)
  }

  /** CopyX decodes to `b`'s X coordinate and `a`'s other two. */
  lemma CopyXDecodes(a: NodeMorton, b: NodeMorton)
    ensures Decode(CopyX(a, b)) == (LaneX(b), LaneY(a), LaneZ(a))
  {
    var r := CopyX(a, b);
    assert r & MaskX == b & MaskX;
    assert r & MaskY == a & MaskY;
    assert r & MaskZ == a & MaskZ;
    LaneXOnlyMaskX(r, b);
    LaneYOnlyMaskY(r, a);
    LaneZOnlyMaskZ(r, a);
  }

  /** Replaces the Y coordinate of `a` by that of `b`. */
  function CopyY(a: NodeMorton, b: NodeMorton): (r: NodeMorton)
  {
    (a & MaskXZ) | (b & MaskY)
  }

  /** CopyY decodes to `b`'s Y coordinate and `a`'s other two. */
  lemma CopyYDecodes(a: NodeMorton, b: NodeMorton)
    ensures Decode(CopyY(a, b)) == (LaneX(a), LaneY(b), LaneZ(a))
  {
    var r := CopyY(a, b);
    assert r & MaskY == b & MaskY;
    assert r & MaskX == a & MaskX;
    assert r & MaskZ == a & MaskZ;
    LaneYOnlyMaskY(r, b);
    LaneXOnlyMaskX(r, a);
    LaneZOnlyMaskZ(r, a);
  }

  /** Replaces the Z coordinate of `a` by that of `b`. */
  function CopyZ(a: NodeMorton, b: NodeMorton): (r: NodeMorton)
  {
    (a & MaskXY) | (b & MaskZ)
  }

  /** CopyZ decodes to `b`'s Z coordinate and `a`'s other two. */
  lemma CopyZDecodes(a: NodeMorton, b: NodeMorton)
    ensures Decode(CopyZ(a, b)) == (LaneX(a), LaneY(a), LaneZ(b))
  {
    var r := CopyZ(a, b);
    assert r & MaskZ == b & MaskZ;
    assert r & MaskX == a & MaskX;
    assert r & MaskY == a & MaskY;
    LaneZOnlyMaskZ(r, b);
    LaneXOnlyMaskX(r, a);
    LaneYOnlyMaskY(r, a);
  }

  /** True when the X coordinate is zero. */
  function XEqualsZero(c: NodeMorton): (r: bool)
    ensures r <==> Decode(c).0 == 0
  {
    LaneXZero(c);
    c & MaskX == 0
  }

  /** True when the Y coordinate is zero. */
  function YEqualsZero(c: NodeMorton): (r: bool)
    ensures r <==> Decode(c).1 == 0
  {
    LaneYZero(c);
    c & MaskY == 0
  }

  /** True when the Z coordinate is zero. */
  function ZEqualsZero(c: NodeMorton): (r: bool)
    ensures r <==> Decode(c).2 == 0
  {
    LaneZZero(c);
    c & MaskZ == 0
  }

  /**
   * Whether a move from `prev` to `curr` in direction `d` left the chunk:
   * a negative move leaves when it started on coordinate zero, a positive
   * one when it wrapped around onto coordinate zero.
   */
  function HasMovedIntoNewChunk(prev: NodeMorton, curr: NodeMorton, d: Direction): (r: bool)
    ensures !IsSingleDirection(d) ==> !r
  {
    if d == NegativeX then XEqualsZero(prev)
    else if d == NegativeY then YEqualsZero(prev)
    else if d == NegativeZ then ZEqualsZero(prev)
    else if d == PositiveX then XEqualsZero(curr)
    else if d == PositiveY then YEqualsZero(curr)
    else if d == PositiveZ then ZEqualsZero(curr)
    else false
  }

  lemma {:induction false} StepIsPowerOfTwo(l: nat)
    requires IsLayer(l)
    ensures LaneSteps[l] != 0 && LaneSteps[l] & (LaneSteps[l] - 1) == 0 && LaneSteps[l] <= 0x400
  {
    if l == 0 {} else if l == 1 {} else if l == 2 {} else if l == 3 {} else if l == 4 {} else if l == 5 {}
    else if l == 6 {} else if l == 7 {} else if l == 8 {} else if l == 9 {} else {}
  }

  /** A coordinate aligned to a power-of-two step wraps to zero exactly when adding the step overflows. */
  lemma AlignedStepWraps(x: bv32, s: bv32)
    ensures x <= 0x3FF && s != 0 && s & (s - 1) == 0 && s <= 0x400 && x & (s - 1) == 0 ==>
              ((x + s) & 0x3FF == 0 <==> x + s > 0x3FF)
  {
  }

  /** An aligned coordinate below the step is zero. */
  lemma AlignedBelowStep(x: bv32, s: bv32)
    ensures s != 0 && s & (s - 1) == 0 && x & (s - 1) == 0 ==> (x == 0 <==> x < s)
  {
  }

  /** Every coordinate of a node of layer `l` is a multiple of the layer's step. */
  lemma NodeLaneXAligned(c: NodeMorton, l: nat)
    requires IsLayer(l) && IsNodeOfLayer(c, l)
    ensures LaneX(c) & (LaneSteps[l] - 1) == 0
  {
    GetParentOfNode(c, l);
    GetParentFloorsX(c, l);
    LaneFloorMaskOfStep(l);
  }

  /** A node moving positively along X enters a new chunk exactly when its coordinate overflows the chunk. */
  lemma LeavesChunkPositiveX(c: NodeMorton, l: nat)
    requires IsLayer(l) && IsNodeOfLayer(c, l)
    ensures HasMovedIntoNewChunk(c, Move(c, l, PositiveX), PositiveX) <==> LaneX(c) + LaneSteps[l] > 0x3FF
  {
    assert Move(c, l, PositiveX) == AddX(c, l);
    AddXLane(c, l);
    NodeLaneXAligned(c, l);
    StepIsPowerOfTwo(l);
    AlignedStepWraps(LaneX(c), LaneSteps[l]);
  }

  /** A node moving negatively along X enters a new chunk exactly when its coordinate is below one step. */
  lemma LeavesChunkNegativeX(c: NodeMorton, l: nat)
    requires IsLayer(l) && IsNodeOfLayer(c, l)
    ensures HasMovedIntoNewChunk(c, Move(c, l, NegativeX), NegativeX) <==> LaneX(c) < LaneSteps[l]
  {
    NodeLaneXAligned(c, l);
    StepIsPowerOfTwo(l);
    AlignedBelowStep(LaneX(c), LaneSteps[l]);
  }

  /** Every coordinate of a node of layer `l` is a multiple of the layer's step. */
  lemma NodeLaneYAligned(c: NodeMorton, l: nat)
    requires IsLayer(l) && IsNodeOfLayer(c, l)
    ensures LaneY(c) & (LaneSteps[l] - 1) == 0
  {
    GetParentOfNode(c, l);
    GetParentFloorsY(c, l);
    LaneFloorMaskOfStep(l);
  }

  /** A node moving positively along Y enters a new chunk exactly when its coordinate overflows the chunk. */
  lemma LeavesChunkPositiveY(c: NodeMorton, l: nat)
    requires IsLayer(l) && IsNodeOfLayer(c, l)
    ensures HasMovedIntoNewChunk(c, Move(c, l, PositiveY), PositiveY) <==> LaneY(c) + LaneSteps[l] > 0x3FF
  {
    assert Move(c, l, PositiveY) == AddY(c, l);
    AddYLane(c, l);
    NodeLaneYAligned(c, l);
    StepIsPowerOfTwo(l);
    AlignedStepWraps(LaneY(c), LaneSteps[l]);
  }

  /** A node moving negatively along Y enters a new chunk exactly when its coordinate is below one step. */
  lemma LeavesChunkNegativeY(c: NodeMorton, l: nat)
    requires IsLayer(l) && IsNodeOfLayer(c, l)
    ensures HasMovedIntoNewChunk(c, Move(c, l, NegativeY), NegativeY) <==> LaneY(c) < LaneSteps[l]
  {
    NodeLaneYAligned(c, l);
    StepIsPowerOfTwo(l);
    AlignedBelowStep(LaneY(c), LaneSteps[l]);
  }

  /** Every coordinate of a node of layer `l` is a multiple of the layer's step. */
  lemma NodeLaneZAligned(c: NodeMorton, l: nat)
    requires IsLayer(l) && IsNodeOfLayer(c, l)
    ensures LaneZ(c) & (LaneSteps[l] - 1) == 0
  {
    GetParentOfNode(c, l);
    GetParentFloorsZ(c, l);
    LaneFloorMaskOfStep(l);
  }

  /** A node moving positively along Z enters a new chunk exactly when its coordinate overflows the chunk. */
  lemma LeavesChunkPositiveZ(c: NodeMorton, l: nat)
    requires IsLayer(l) && IsNodeOfLayer(c, l)
    ensures HasMovedIntoNewChunk(c, Move(c, l, PositiveZ), PositiveZ) <==> LaneZ(c) + LaneSteps[l] > 0x3FF
  {
    assert Move(c, l, PositiveZ) == AddZ(c, l);
    AddZLane(c, l);
    NodeLaneZAligned(c, l);
    StepIsPowerOfTwo(l);
    AlignedStepWraps(LaneZ(c), LaneSteps[l]);
  }

  /** A node moving negatively along Z enters a new chunk exactly when its coordinate is below one step. */
  lemma LeavesChunkNegativeZ(c: NodeMorton, l: nat)
    requires IsLayer(l) && IsNodeOfLayer(c, l)
    ensures HasMovedIntoNewChunk(c, Move(c, l, NegativeZ), NegativeZ) <==> LaneZ(c) < LaneSteps[l]
  {
    NodeLaneZAligned(c, l);
    StepIsPowerOfTwo(l);
    AlignedBelowStep(LaneZ(c), LaneSteps[l]);
  }
}

=== FILE: plugin_node.dfy ===
/**
 * The plugin's node record: the neighbour relations (the same 30-bit layout
 * as `Relations`, but an unset side reads as the invalid layer index), the
 * six-bit chunk border a child inherits from its parent, two flags, the
 * child states and a sound preset, packed into 64 bits.
 */
module PluginNode {
  import opened Definitions
  import MortonNode
  import Relations

  /** `Layer_Idx_Invalid`: the layer of a side whose neighbour is not known. */
  const InvalidLayer: bv8 := 11

  // ---------------------------------------------------------------------------
  // Relations

  /** A freshly made record: every side holds the invalid layer index, and every state is static. */
  function DefaultRelations(): (r: Relations.NodeRelations)
  {
    Relations.NodeRelations(11, 11, 11, 11, 11, 11, 0, 0, 0, 0, 0, 0)
  }

  /** `GetFromDirection`: the layer towards one of the six sides, or the invalid layer index for anything else. */
  function GetFromDirection(r: Relations.NodeRelations, d: Direction): (l: bv8)
  {
    if IsSingleDirection(d) then Relations.GetFromDirection(r, d) else InvalidLayer
  }

  /** `IsRelationValid`: the side towards `d` holds a layer other than the invalid one; false for anything but the six sides. */
  predicate IsRelationValid(r: Relations.NodeRelations, d: Direction)
  {
    if d == NegativeX then r.layerNegX != 11
    else if d == NegativeY then r.layerNegY != 11
    else if d == NegativeZ then r.layerNegZ != 11
    else if d == PositiveX then r.layerPosX != 11
    else if d == PositiveY then r.layerPosY != 11
    else if d == PositiveZ then r.layerPosZ != 11
    else false
  }

  /** No side of a new record is valid, and every side reads as the invalid layer index. */
  lemma DefaultRelationsInvalid(d: Direction)
    ensures !IsRelationValid(DefaultRelations(), d)
    ensures GetFromDirection(DefaultRelations(), d) == InvalidLayer
  {
  }

  /** A side is valid exactly when it is one of the six and does not read as the invalid layer index. */
  lemma ValidMeansKnownLayer(r: Relations.NodeRelations, d: Direction)
    ensures IsRelationValid(r, d) <==> IsSingleDirection(d) && GetFromDirection(r, d) != InvalidLayer
  {
  }

  /** Setting a side to a layer makes it valid exactly when the four stored bits are not the invalid index. */
  lemma ValidAfterSet(r: Relations.NodeRelations, d: Direction, l: bv8)
    requires IsSingleDirection(d)
    ensures GetFromDirection(Relations.SetFromDirection(r, d, l), d) == l & 0xF
    ensures IsRelationValid(Relations.SetFromDirection(r, d, l), d) <==> l & 0xF != InvalidLayer
  {
    Relations.GetAfterSet(r, d, l);
  }

  // ---------------------------------------------------------------------------
  // The node record

  /** `FNode`. */
  datatype Node = Node(relations: Relations.NodeRelations, chunkBorder: bv6, isOccluding: bv1,
                       hasChildren: bv1, childStates: bv8, soundPresetId: bv16)

  /** A direction mask stored in the six-bit border field keeps its low six bits. */
  function Border(d: Direction): (b: bv6)
  {
    (d & 0x3F) as bv6
  }

  /** `FNode(InChunkBorder)`: a node against the given chunk borders, with default relations and cleared flags. */
  function Make(border: Direction): (n: Node)
  {
    Node(DefaultRelations(), Border(border), 0, 0, 0, 0)
  }

  /** The side of its parent each axis of child `idx` lies against: positive when the index bit of that axis is set. */
  function ChildSides(idx: bv8): (s: Direction)
  {
    (if idx & 1 != 0 then PositiveX else NegativeX) |
    (if idx & 2 != 0 then PositiveY else NegativeY) |
    (if idx & 4 != 0 then PositiveZ else NegativeZ)
  }

  /** `FNode(ChildIdx, ParentChunkBorder)`: the chunk border of a new child node. */
  function ChildBorder(idx: bv8, parent: Direction): (b: bv6)
  {
    if parent == 0 then 0 else Border(ChildSides(idx) & parent)
  }

  /** `FNode(ChildIdx, ParentChunkBorder)`. */
  function MakeChild(idx: bv8, parent: Direction): (n: Node)
  {
    Node(DefaultRelations(), ChildBorder(idx, parent), 0, 0, 0, 0)
  }

  /** A child is against a chunk border only where its parent is: an empty parent border gives an empty one. */
  lemma ChildBorderWithinParent(idx: bv8, parent: Direction)
    ensures (ChildBorder(idx, parent) as bv8) & !parent == 0
    ensures parent & 0x3F == 0 ==> ChildBorder(idx, parent) == 0
  {
  }

  /** A child is never against both borders of one axis. */
  lemma ChildBorderOneSidePerAxis(idx: bv8, parent: Direction)
    ensures (ChildBorder(idx, parent) as bv8) & (NegativeX | PositiveX) != (NegativeX | PositiveX)
    ensures (ChildBorder(idx, parent) as bv8) & (NegativeY | PositiveY) != (NegativeY | PositiveY)
    ensures (ChildBorder(idx, parent) as bv8) & (NegativeZ | PositiveZ) != (NegativeZ | PositiveZ)
  {
  }

  /** A child is against side `d` exactly when its parent is and the child lies in the half facing `d`. */
  lemma ChildBorderSides(idx: bv8, parent: Direction, d: Direction)
    requires IsSingleDirection(d)
    ensures (ChildBorder(idx, parent) as bv8) & d != 0 <==> parent & d != 0 && FacesSide((idx & 7) as nat, d)
  {
  }

  /** `SetOccluded`. */
  function SetOccluded(n: Node, value: bool): (m: Node)
  {
    n.(isOccluding := if value then 1 else 0)
  }

  /** `IsOccluded`. */
  predicate IsOccluded(n: Node)
  {
    n.isOccluding == 1
  }

  /** `SetHasChildren`. */
  function SetHasChildren(n: Node, value: bool): (m: Node)
  {
    n.(hasChildren := if value then 1 else 0)
  }

  /** `HasChildren`. */
  predicate HasChildren(n: Node)
  {
    n.hasChildren == 1
  }

  /** Each flag reads back as it was set, and setting one flag leaves every other field alone. */
  lemma FlagsReadBack(n: Node, value: bool)
    ensures IsOccluded(SetOccluded(n, value)) == value
    ensures HasChildren(SetOccluded(n, value)) == HasChildren(n)
    ensures HasChildren(SetHasChildren(n, value)) == value
    ensures IsOccluded(SetHasChildren(n, value)) == IsOccluded(n)
    ensures SetOccluded(n, value).relations == n.relations && SetHasChildren(n, value).relations == n.relations
  {
  }

  /** `GetRelations`: the six layers, in the order of the direction list. */
  function GetRelations(n: Node): (r: seq<bv4>)
    ensures |r| == 6
  {
    var s := n.relations;
    [s.layerNegX, s.layerNegY, s.layerNegZ, s.layerPosX, s.layerPosY, s.layerPosZ]
  }

  /** Entry `k` of GetRelations is the layer read towards the `k`-th direction of the list. */
  lemma GetRelationsFollowsDirections(n: Node, k: nat)
    requires k < 6
    ensures GetRelations(n)[k] as bv8 == GetFromDirection(n.relations, DirectionList[k])
  {
  }

  /** The plugin's `LayerOffsets` and node sizes cover ten layers, 0 to 9. */
  const PluginLayers: nat := 10

  /**
   * `ForEachChild`: the codes handed to the callback, in call order: all
   * eight children of the node when the flag says it has children, and none
   * otherwise. `l` is the layer of the children, one of the plugin's ten.
   */
  function ForEachChild(n: Node, code: MortonNode.NodeMorton, l: nat): (r: seq<MortonNode.NodeMorton>)
    requires l < PluginLayers
  {
    if HasChildren(n) then MortonNode.GetChildren(code, l) else []
  }

  /** The walk yields eight codes exactly when the node has children; for a node of the layer above they are its eight children. */
  lemma ForEachChildYieldsChildren(n: Node, code: MortonNode.NodeMorton, l: nat, i: bv8)
    requires l < PluginLayers
    ensures |ForEachChild(n, code, l)| == 8 <==> HasChildren(n)
    ensures !HasChildren(n) ==> ForEachChild(n, code, l) == []
    ensures HasChildren(n) && 1 <= l && MortonNode.IsNodeOfLayer(code, l - 1) && i < 8 ==>
      ForEachChild(n, code, l)[i] == MortonNode.GetChild(code, l, i)
  {
    if HasChildren(n) && 1 <= l && MortonNode.IsNodeOfLayer(code, l - 1) && i < 8 {
      MortonNode.GetChildrenAreChildren(code, l, i);
    }
  }

  // ---------------------------------------------------------------------------
  // Packing

  /** The bit layout of a packed node: border 0..5, preset 6..21, occluding 22, has-children 23, states 24..31, relations from 32. */
  function PackWord(border: bv6, preset: bv16, occluding: bv1, children: bv1, states: bv8, relations: bv32): (w: bv64)
  {
    (border as bv64) | ((preset as bv64) << 6) | ((occluding as bv64) << 22) | ((children as bv64) << 23) |
    ((states as bv64) << 24) | ((relations as bv64) << 32)
  }

  /** `FNode::Pack`. */
  function Pack(n: Node): (w: bv64)
  {
    PackWord(n.chunkBorder, n.soundPresetId, n.isOccluding, n.hasChildren, n.childStates, Relations.Pack(n.relations))
  }

  /** `FNode(uint64)`: every bit-field keeps the low bits of the shifted word. */
  function Unpack(w: bv64): (n: Node)
  {
    Node(Relations.Unpack((w >> 32) as bv32), (w & 0x3F) as bv6, ((w >> 22) & 1) as bv1,
         ((w >> 23) & 1) as bv1, ((w >> 24) & 0xFF) as bv8, ((w >> 6) & 0xFFFF) as bv16)
  }

  lemma PackWordFields(b: bv6, p: bv16, o: bv1, c: bv1, s: bv8, rel: bv32)
    ensures (PackWord(b, p, o, c, s, rel) & 0x3F) as bv6 == b
    ensures ((PackWord(b, p, o, c, s, rel) >> 6) & 0xFFFF) as bv16 == p
    ensures ((PackWord(b, p, o, c, s, rel) >> 22) & 1) as bv1 == o
    ensures ((PackWord(b, p, o, c, s, rel) >> 23) & 1) as bv1 == c
    ensures ((PackWord(b, p, o, c, s, rel) >> 24) & 0xFF) as bv8 == s
    ensures (PackWord(b, p, o, c, s, rel) >> 32) as bv32 == rel
  {
  }

  lemma PackWordOfFields(w: bv64)
    ensures PackWord((w & 0x3F) as bv6, ((w >> 6) & 0xFFFF) as bv16, ((w >> 22) & 1) as bv1,
                     ((w >> 23) & 1) as bv1, ((w >> 24) & 0xFF) as bv8,
                     ((w >> 32) as bv32) & 0x3FFF_FFFF) == w & 0x3FFF_FFFF_FFFF_FFFF
  {
  }

  /** Unpacking a packed node restores the border, the preset, both flags, the child states and the relations. */
  lemma UnpackPack(n: Node)
    ensures Unpack(Pack(n)) == n
  {
    PackWordFields(n.chunkBorder, n.soundPresetId, n.isOccluding, n.hasChildren, n.childStates, Relations.Pack(n.relations));
    Relations.UnpackPack(n.relations);
  }

  /** Packing an unpacked word restores its low 62 bits: the two top bits belong to no field. */
  lemma PackUnpack(w: bv64)
    ensures Pack(Unpack(w)) == w & 0x3FFF_FFFF_FFFF_FFFF
  {
    Relations.PackUnpack((w >> 32) as bv32);
    PackWordOfFields(w);
  }
}

=== FILE: relations.dfy ===
/**
 * The neighbour relations of a node: for each of the six sides, the layer
 * of the node found in that direction (a 4-bit field) and whether it is
 * static or dynamic (a 1-bit field), packed into 30 bits of a `uint32`.
 */
module Relations {
  import opened Definitions

  /** `FNodeRelations`: one layer and one state field per side, in the order the record declares them. */
  datatype NodeRelations = NodeRelations(
    layerNegX: bv4, layerNegY: bv4, layerNegZ: bv4, layerPosX: bv4, layerPosY: bv4, layerPosZ: bv4,
    stateNegX: bv1, stateNegY: bv1, stateNegZ: bv1, statePosX: bv1, statePosY: bv1, statePosZ: bv1)

  const EmptyField: bv4 := 15

  /** A freshly made record: every side relates to the empty layer, and every state is static. */
  function Default(): (r: NodeRelations)
  {
    NodeRelations(EmptyField, EmptyField, EmptyField, EmptyField, EmptyField, EmptyField, 0, 0, 0, 0, 0, 0)
  }

  /** `GetFromDirection`: the layer towards `d`, or the empty layer for anything but one of the six sides. */
  function GetFromDirection(r: NodeRelations, d: Direction): (l: bv8)
    ensures l < 16
  {
    if d == NegativeX then r.layerNegX as bv8
    else if d == NegativeY then r.layerNegY as bv8
    else if d == NegativeZ then r.layerNegZ as bv8
    else if d == PositiveX then r.layerPosX as bv8
    else if d == PositiveY then r.layerPosY as bv8
    else if d == PositiveZ then r.layerPosZ as bv8
    else EmptyLayer as bv8
  }

  /** A layer index stored in a 4-bit field keeps its low four bits. */
  function Field(l: bv8): (f: bv4)
  {
    (l & 0xF) as bv4
  }

  /** `SetFromDirection`: store the layer towards `d`; nothing changes for anything but one of the six sides. */
  function SetFromDirection(r: NodeRelations, d: Direction, l: bv8): (s: NodeRelations)
  {
    if d == NegativeX then r.(layerNegX := Field(l))
    else if d == NegativeY then r.(layerNegY := Field(l))
    else if d == NegativeZ then r.(layerNegZ := Field(l))
    else if d == PositiveX then r.(layerPosX := Field(l))
    else if d == PositiveY then r.(layerPosY := Field(l))
    else if d == PositiveZ then r.(layerPosZ := Field(l))
    else r
  }

  /** `SetFromDirectionInverse`: store the layer on the side opposite to `d`. */
  function SetFromDirectionInverse(r: NodeRelations, d: Direction, l: bv8): (s: NodeRelations)
  {
    if d == NegativeX then r.(layerPosX := Field(l))
    else if d == NegativeY then r.(layerPosY := Field(l))
    else if d == NegativeZ then r.(layerPosZ := Field(l))
    else if d == PositiveX then r.(layerNegX := Field(l))
    else if d == PositiveY then r.(layerNegY := Field(l))
    else if d == PositiveZ then r.(layerNegZ := Field(l))
    else r
  }

  /** `IsRelationEmpty`: the side towards `d` relates to the empty layer; false for anything but the six sides. */
  predicate IsRelationEmpty(r: NodeRelations, d: Direction)
  {
    if d == NegativeX then r.layerNegX == EmptyField
    else if d == NegativeY then r.layerNegY == EmptyField
    else if d == NegativeZ then r.layerNegZ == EmptyField
    else if d == PositiveX then r.layerPosX == EmptyField
    else if d == PositiveY then r.layerPosY == EmptyField
    else if d == PositiveZ then r.layerPosZ == EmptyField
    else false
  }

  /** The six state fields of a record, as the states of its sides. */
  function States(r: NodeRelations): (s: seq<bv1>)
    ensures |s| == 6
  {
    [r.stateNegX, r.stateNegY, r.stateNegZ, r.statePosX, r.statePosY, r.statePosZ]
  }

  /** Every side of a new record relates to the empty layer, and every state is static. */
  lemma DefaultIsEmpty(d: Direction)
    requires IsSingleDirection(d)
    ensures IsRelationEmpty(Default(), d)
    ensures GetFromDirection(Default(), d) == EmptyLayer as bv8
    ensures forall i | 0 <= i < 6 :: States(Default())[i] == StateStatic as bv1
  {
  }

  /** A relation reads back as the low four bits of the layer it was set to: the layer itself when it is below 16. */
  lemma GetAfterSet(r: NodeRelations, d: Direction, l: bv8)
    requires IsSingleDirection(d)
    ensures GetFromDirection(SetFromDirection(r, d, l), d) == l & 0xF
    ensures l < 16 ==> GetFromDirection(SetFromDirection(r, d, l), d) == l
  {
  }

  /** Setting one side leaves every other side and every state as it was. */
  lemma SetLeavesOtherSides(r: NodeRelations, d: Direction, e: Direction, l: bv8)
    requires d != e
    ensures GetFromDirection(SetFromDirection(r, d, l), e) == GetFromDirection(r, e)
    ensures States(SetFromDirection(r, d, l)) == States(r)
  {
  }

  /** Setting the inverse of a side is setting its opposite side. */
  lemma SetInverseIsOpposite(r: NodeRelations, d: Direction, l: bv8)
    requires IsSingleDirection(d)
    ensures SetFromDirectionInverse(r, d, l) == SetFromDirection(r, Opposite(d), l)
  {
  }

  /** Anything but one of the six sides reads as empty, is never reported empty, and cannot be set. */
  lemma OtherDirectionsIgnored(r: NodeRelations, d: Direction, l: bv8)
    requires !IsSingleDirection(d)
    ensures GetFromDirection(r, d) == EmptyLayer as bv8
    ensures !IsRelationEmpty(r, d)
    ensures SetFromDirection(r, d, l) == r
    ensures SetFromDirectionInverse(r, d, l) == r
  {
  }

  /** A side is reported empty exactly when it is one of the six and reads as the empty layer. */
  lemma EmptyMeansEmptyLayer(r: NodeRelations, d: Direction)
    ensures IsRelationEmpty(r, d) <==> IsSingleDirection(d) && GetFromDirection(r, d) == EmptyLayer as bv8
  {
  }

  // ---------------------------------------------------------------------------
  // Packing

  /** A 4-bit field placed at `shift` of a 32-bit word. */
  function Place4(f: bv4, shift: bv32): (w: bv32)
    requires shift <= 28
  {
    (f as bv32) << shift
  }

  /** A 1-bit field placed at `shift` of a 32-bit word. */
  function Place1(f: bv1, shift: bv32): (w: bv32)
    requires shift <= 31
  {
    (f as bv32) << shift
  }

  /** `FNodeRelations::Pack`: layers in bits 0..23, four bits per side, and states in bits 24..29. */
  function Pack(r: NodeRelations): (w: bv32)
  {
    Place4(r.layerNegX, 0) | Place4(r.layerNegY, 4) | Place4(r.layerNegZ, 8) |
    Place4(r.layerPosX, 12) | Place4(r.layerPosY, 16) | Place4(r.layerPosZ, 20) |
    Place1(r.stateNegX, 24) | Place1(r.stateNegY, 25) | Place1(r.stateNegZ, 26) |
    Place1(r.statePosX, 27) | Place1(r.statePosY, 28) | Place1(r.statePosZ, 29)
  }

  /** The 4-bit field at `shift`, as a bit-field assignment from the shifted word keeps it. */
  function Take4(w: bv32, shift: bv32): (f: bv4)
    requires shift <= 28
  {
    ((w >> shift) & 0xF) as bv4
  }

  function Take1(w: bv32, shift: bv32): (f: bv1)
    requires shift <= 31
  {
    ((w >> shift) & 1) as bv1
  }

  /** `FNodeRelations::Unpack`. */
  function Unpack(w: bv32): (r: NodeRelations)
  {
    NodeRelations(Take4(w, 0), Take4(w, 4), Take4(w, 8), Take4(w, 12), Take4(w, 16), Take4(w, 20),
                  Take1(w, 24), Take1(w, 25), Take1(w, 26), Take1(w, 27), Take1(w, 28), Take1(w, 29))
  }

  /** Unpacking a packed record restores all twelve fields. */
  lemma UnpackPack(r: NodeRelations)
    ensures Unpack(Pack(r)) == r
  {
  }

  /** Packing an unpacked word restores its low 30 bits: no two fields share a bit. */
  lemma PackUnpack(w: bv32)
    ensures Pack(Unpack(w)) == w & 0x3FFF_FFFF
  {
  }
}

=== FILE: rsap_node.dfy ===
/**
 * The node record of the navmesh octree: an eight-bit mask of the children
 * that exist, the location of a child, the walk over the existing
 * children, and the 64-bit packing the serializer stores.
 */
module RsapNode {
  import opened Definitions
  import opened Signed
  import opened Vectors
  import MortonNode
  import Relations

  // ---------------------------------------------------------------------------
  // The child mask

  /** `SetChildActive`: set the bit of child `i`. */
  function SetChildActive(children: bv8, i: nat): (r: bv8)
    requires i < 8
  {
    children | ChildMasks[i]
  }

  /** `ClearChild`: clear the bit of child `i`. */
  function ClearChild(children: bv8, i: nat): (r: bv8)
    requires i < 8
  {
    children & ChildMasksInverse[i]
  }

  /** `HasChildren`. */
  predicate HasChildren(children: bv8)
  {
    children > 0
  }

  /** `DoesChildExist`. */
  predicate DoesChildExist(children: bv8, i: nat)
    requires i < 8
  {
    children & ChildMasks[i] != 0
  }

  lemma SetBitFrame(c: bv8, a: bv8, b: bv8)
    ensures a < 8 && b < 8 ==> ((c | (1 << a)) & (1 << b) != 0 <==> a == b || c & (1 << b) != 0)
  {
  }

  lemma ClearBitFrame(c: bv8, a: bv8, b: bv8)
    ensures a < 8 && b < 8 ==> ((c & !(1 << a)) & (1 << b) != 0 <==> a != b && c & (1 << b) != 0)
  {
  }

  /** After SetChildActive(i) child `i` exists, and every other child exists exactly when it did before. */
  lemma SetChildActiveFrame(children: bv8, i: nat, j: nat)
    requires i < 8 && j < 8
    ensures DoesChildExist(SetChildActive(children, i), j) <==> j == i || DoesChildExist(children, j)
  {
    ChildMaskTables(i);
    ChildMaskTables(j);
    SetBitFrame(children, i as bv8, j as bv8);
  }

  /** After ClearChild(i) child `i` is gone, and every other child exists exactly when it did before. */
  lemma ClearChildFrame(children: bv8, i: nat, j: nat)
    requires i < 8 && j < 8
    ensures DoesChildExist(ClearChild(children, i), j) <==> j != i && DoesChildExist(children, j)
  {
    ChildMaskTables(i);
    ChildMaskTables(j);
    ClearBitFrame(children, i as bv8, j as bv8);
  }

  /** A node has children exactly when one of its eight children exists. */
  lemma HasChildrenIffSomeChild(children: bv8)
    ensures HasChildren(children) <==> exists i :: 0 <= i < 8 && DoesChildExist(children, i)
  {
    if HasChildren(children) {
      if children & 0x0F != 0 {
        if children & 1 != 0 { assert DoesChildExist(children, 0); }
        else if children & 2 != 0 { assert DoesChildExist(children, 1); }
        else if children & 4 != 0 { assert DoesChildExist(children, 2); }
        else { assert DoesChildExist(children, 3); }
      } else {
        if children & 0x10 != 0 { assert DoesChildExist(children, 4); }
        else if children & 0x20 != 0 { assert DoesChildExist(children, 5); }
        else if children & 0x40 != 0 { assert DoesChildExist(children, 6); }
        else { assert DoesChildExist(children, 7); }
      }
    }
  }

  // ---------------------------------------------------------------------------
  // Child locations

  /** `GetChildLocation`: the corner of child `i` of a parent whose corner is `p`, for children of layer `cl`. */
  function GetChildLocation(p: Vector32, cl: nat, i: bv8): (r: Vector32)
    requires cl < |Sizes|
  {
    var s := Sizes[cl];
    if i == 0 then p
    else if i == 1 then p.(x := Sum(p.x, s))
    else if i == 2 then p.(y := Sum(p.y, s))
    else if i == 3 then p.(x := Sum(p.x, s), y := Sum(p.y, s))
    else if i == 4 then p.(z := Sum(p.z, s))
    else if i == 5 then p.(x := Sum(p.x, s), z := Sum(p.z, s))
    else if i == 6 then p.(y := Sum(p.y, s), z := Sum(p.z, s))
    else if i == 7 then Vector32(Sum(p.x, s), Sum(p.y, s), Sum(p.z, s))
    else p
  }

  /** One axis of a child's corner: the parent's, moved up by a child's size when the index bit of that axis is set. */
  function ChildAxis(a: Int32, s: Int32, bit: bool): (r: Int32)
  {
    if bit then Sum(a, s) else a
  }

  /** Bits 0, 1 and 2 of the index move the child along X, Y and Z; an index above 7 is the parent's corner. */
  lemma ChildLocationAxes(p: Vector32, cl: nat, i: bv8)
    requires cl < |Sizes|
    ensures i < 8 ==>
              GetChildLocation(p, cl, i) ==
              Vector32(ChildAxis(p.x, Sizes[cl], ChildOffsetBit(i as nat, 0)),
                       ChildAxis(p.y, Sizes[cl], ChildOffsetBit(i as nat, 1)),
                       ChildAxis(p.z, Sizes[cl], ChildOffsetBit(i as nat, 2)))
    ensures 8 <= i ==> GetChildLocation(p, cl, i) == p
  {
  }

  // ---------------------------------------------------------------------------
  // Walking the children

  /** The indices of the existing children below `n`, in ascending order. */
  function ChildIndices(children: bv8, n: nat): (r: seq<nat>)
    requires n <= 8
    ensures forall k | 0 <= k < |r| :: r[k] < n
    ensures forall k, m | 0 <= k < m < |r| :: r[k] < r[m]
    ensures forall i | 0 <= i < n :: i in r <==> DoesChildExist(children, i)
  {
    if n == 0 then []
    else ChildIndices(children, n - 1) + (if DoesChildExist(children, n - 1) then [n - 1] else [])
  }

  /** The codes of the children with the given indices. */
  function ChildCodes(code: MortonNode.NodeMorton, cl: nat, indices: seq<nat>): (r: seq<MortonNode.NodeMorton>)
    requires MortonNode.IsLayer(cl)
    requires forall k | 0 <= k < |indices| :: indices[k] < 8
    ensures |r| == |indices|
    ensures forall k | 0 <= k < |indices| :: r[k] == MortonNode.GetChild(code, cl, indices[k] as bv8)
  {
    seq(|indices|, k requires 0 <= k < |indices| => MortonNode.GetChild(code, cl, indices[k] as bv8))
  }

  /**
   * `ForEachChild`: the codes handed to the callback, in call order. It visits
   * every existing child of the node of layer `l` with code `code`, in
   * ascending index order, and nothing when the node has no children.
   */
  method ForEachChild(children: bv8, code: MortonNode.NodeMorton, l: nat) returns (visited: seq<MortonNode.NodeMorton>)
    requires MortonNode.IsLayer(l + 1)
    ensures visited == ChildCodes(code, l + 1, ChildIndices(children, 8))
    ensures !HasChildren(children) ==> visited == []
  {
    visited := [];
    if !HasChildren(children) {
      NoChildIndices(children, 8);
      return;
    }
    var i := 0;
    while i < 8
      invariant 0 <= i <= 8
      invariant visited == ChildCodes(code, l + 1, ChildIndices(children, i))
    {
      ChildCodesStep(children, code, l + 1, i);
      if DoesChildExist(children, i) {
        visited := visited + [MortonNode.GetChild(code, l + 1, i as bv8)];
      }
      i := i + 1;
    }
  }

  /** One more index either appends that child's code or changes nothing. */
  lemma ChildCodesStep(children: bv8, code: MortonNode.NodeMorton, cl: nat, i: nat)
    requires MortonNode.IsLayer(cl) && i < 8
    ensures ChildCodes(code, cl, ChildIndices(children, i + 1)) ==
      ChildCodes(code, cl, ChildIndices(children, i)) +
      (if DoesChildExist(children, i) then [MortonNode.GetChild(code, cl, i as bv8)] else [])
  {
    var before := ChildIndices(children, i);
    var added: seq<nat> := if DoesChildExist(children, i) then [i] else [];
    assert ChildIndices(children, i + 1) == before + added;
    ChildCodesAppend(code, cl, before, added);
  }

  lemma ChildCodesAppend(code: MortonNode.NodeMorton, cl: nat, a: seq<nat>, b: seq<nat>)
    requires MortonNode.IsLayer(cl)
    requires forall k | 0 <= k < |a| :: a[k] < 8
    requires forall k | 0 <= k < |b| :: b[k] < 8
    ensures ChildCodes(code, cl, a + b) == ChildCodes(code, cl, a) + ChildCodes(code, cl, b)
  {
    var ab := a + b;
    assert forall k | 0 <= k < |ab| :: ab[k] == if k < |a| then a[k] else b[k - |a|];
  }

  lemma {:induction false} NoChildIndices(children: bv8, n: nat)
    requires n <= 8 && !HasChildren(children)
    ensures ChildIndices(children, n) == []
  {
    if n > 0 {
      NoChildIndices(children, n - 1);
    }
  }

  // ---------------------------------------------------------------------------
  // Packing

  /** `FRsapNode`: the child mask, the static/dynamic type of each child, a sound preset and the relations. */
  datatype Node = Node(children: bv8, childrenTypes: bv8, soundPresetId: bv16, relations: Relations.NodeRelations)

  /** The bit layout of a packed node: children in bits 0..7, types in 8..15, preset in 16..31, relations from 32. */
  function PackWord(children: bv8, types: bv8, preset: bv16, relations: bv32): (w: bv64)
  {
    (children as bv64) | ((types as bv64) << 8) | ((preset as bv64) << 16) | ((relations as bv64) << 32)
  }

  /** `FRsapNode::Pack`. */
  function Pack(n: Node): (w: bv64)
  {
    PackWord(n.children, n.childrenTypes, n.soundPresetId, Relations.Pack(n.relations))
  }

  /** `FRsapNode(uint64)`: each field keeps the bits the bit-field or integer assignment keeps. */
  function Unpack(w: bv64): (n: Node)
  {
    Node((w & 0xFF) as bv8, ((w >> 8) & 0xFF) as bv8, ((w >> 16) & 0xFFFF) as bv16,
         Relations.Unpack((w >> 32) as bv32))
  }

  lemma PackWordFields(c: bv8, t: bv8, p: bv16, rel: bv32)
    ensures (PackWord(c, t, p, rel) & 0xFF) as bv8 == c
    ensures ((PackWord(c, t, p, rel) >> 8) & 0xFF) as bv8 == t
    ensures ((PackWord(c, t, p, rel) >> 16) & 0xFFFF) as bv16 == p
    ensures (PackWord(c, t, p, rel) >> 32) as bv32 == rel
  {
  }

  lemma PackWordOfFields(w: bv64)
    ensures PackWord((w & 0xFF) as bv8, ((w >> 8) & 0xFF) as bv8, ((w >> 16) & 0xFFFF) as bv16,
                     ((w >> 32) as bv32) & 0x3FFF_FFFF) == w & 0x3FFF_FFFF_FFFF_FFFF
  {
  }

  /** Unpacking a packed node restores every field, the relations included. */
  lemma UnpackPack(n: Node)
    ensures Unpack(Pack(n)) == n
  {
    PackWordFields(n.children, n.childrenTypes, n.soundPresetId, Relations.Pack(n.relations));
    Relations.UnpackPack(n.relations);
  }

  /** Packing an unpacked word restores its low 62 bits: the two top bits belong to no field. */
  lemma PackUnpack(w: bv64)
    ensures Pack(Unpack(w)) == w & 0x3FFF_FFFF_FFFF_FFFF
  {
    Relations.PackUnpack((w >> 32) as bv32);
    PackWordOfFields(w);
  }
}

=== FILE: serialize.dfy ===
/**
 * Saving and loading the navmesh. A layer is written as its size followed by
 * one (code, packed node) pair per node, in the order of its ordered map. The
 * static octree of a chunk is written as a preorder stream of child masks:
 * each node writes its mask and then, for each child whose bit is set, in
 * the order of the child masks, that child's stream. Nodes of layer 9 and
 * deeper write their mask but not their children. Loading reads the stream
 * in the same order and rebuilds the codes from the masks.
 */
module Serialize {
  import opened Definitions
  import opened Wrappers
  import RsapNode

  // ---------------------------------------------------------------------------
  // A layer

  /** One field of an archive: a `size_t` count, a `uint64`, or a 32-bit node code. */
  datatype Field = Count(n: nat) | U64(w: bv64) | U32(c: bv32)

  /** The key of a node in a layer: its Morton code. */
  datatype CodeKey = CodeKey(code: bv32)

  /** The entries of an `FRsapLayer` in iteration order: no code appears twice. */
  predicate DistinctCodes(entries: seq<(bv32, RsapNode.Node)>)
  {
    forall i, j | 0 <= i < j < |entries| :: entries[i].0 != entries[j].0
  }

  /** The (code, packed node) pairs of a layer. */
  function SavePairs(entries: seq<(bv32, RsapNode.Node)>): (fs: seq<Field>)
    ensures |fs| == 2 * |entries|
    ensures forall i | 0 <= i < |entries| :: fs[2 * i] == U32(entries[i].0) && fs[2 * i + 1] == U64(RsapNode.Pack(entries[i].1))
  {
    if |entries| == 0 then []
    else [U32(entries[0].0), U64(RsapNode.Pack(entries[0].1))] + SavePairs(entries[1..])
  }

  /** `operator<<(FArchive&, FRsapLayer&)` when saving (Serialize.cpp:11-42): the size, then the pairs. */
  function SaveLayer(entries: seq<(bv32, RsapNode.Node)>): (fs: seq<Field>)
    requires |entries| < 0x1_0000_0000_0000_0000
  {
    [Count(|entries|)] + SavePairs(entries)
  }

  /** `emplace`: insert the node unless the key is already there. */
  function Emplace<K, V>(m: map<K, V>, k: K, v: V): (r: map<K, V>)
    ensures k in r && r.Keys == m.Keys + {k}
    ensures forall j | j in m :: r[j] == m[j]
    ensures k !in m ==> r[k] == v
  {
    if k in m then m else m[k := v]
  }

  /** Read `n` pairs and emplace each node, unpacked, under its code; None when the archive runs out or holds another kind of field. */
  function LoadPairs(fs: seq<Field>, n: nat, layer: map<CodeKey, RsapNode.Node>): (r: Option<(map<CodeKey, RsapNode.Node>, seq<Field>)>)
    decreases n
  {
    if n == 0 then Some((layer, fs))
    else if |fs| < 2 || !fs[0].U32? || !fs[1].U64? then None
    else LoadPairs(fs[2..], n - 1, Emplace(layer, CodeKey(fs[0].c), RsapNode.Unpack(fs[1].w)))
  }

  /** `operator<<(FArchive&, FRsapLayer&)` when loading: read the size, then that many pairs. */
  function LoadLayer(fs: seq<Field>, layer: map<CodeKey, RsapNode.Node>): (r: Option<(map<CodeKey, RsapNode.Node>, seq<Field>)>)
  {
    if |fs| == 0 || !fs[0].Count? then None else LoadPairs(fs[1..], fs[0].n, layer)
  }

  /** The layer after emplacing the given entries in order. */
  function EmplaceEntries(layer: map<CodeKey, RsapNode.Node>, entries: seq<(bv32, RsapNode.Node)>): (r: map<CodeKey, RsapNode.Node>)
    decreases |entries|
  {
    if |entries| == 0 then layer else EmplaceEntries(Emplace(layer, CodeKey(entries[0].0), entries[0].1), entries[1..])
  }

  lemma {:induction false} LoadSavePairs(entries: seq<(bv32, RsapNode.Node)>, layer: map<CodeKey, RsapNode.Node>, rest: seq<Field>)
    ensures LoadPairs(SavePairs(entries) + rest, |entries|, layer) == Some((EmplaceEntries(layer, entries), rest))
    decreases |entries|
  {
    if |entries| > 0 {
      var fs := SavePairs(entries) + rest;
      assert fs[0] == U32(entries[0].0) && fs[1] == U64(RsapNode.Pack(entries[0].1));
      assert fs[2..] == SavePairs(entries[1..]) + rest;
      RsapNode.UnpackPack(entries[0].1);
      var next := Emplace(layer, CodeKey(entries[0].0), entries[0].1);
      LoadSavePairs(entries[1..], next, rest);
      assert LoadPairs(fs, |entries|, layer) == LoadPairs(fs[2..], |entries| - 1, next);
      assert EmplaceEntries(layer, entries) == EmplaceEntries(next, entries[1..]);
    } else {
      assert SavePairs(entries) + rest == rest;
    }
  }

  /** Loading what a layer saved reads exactly its fields and emplaces every node, unchanged, under its code. */
  lemma LoadSaveLayer(entries: seq<(bv32, RsapNode.Node)>, layer: map<CodeKey, RsapNode.Node>, rest: seq<Field>)
    requires |entries| < 0x1_0000_0000_0000_0000
    ensures LoadLayer(SaveLayer(entries) + rest, layer) == Some((EmplaceEntries(layer, entries), rest))
  {
    assert (SaveLayer(entries) + rest)[1..] == SavePairs(entries) + rest;
    LoadSavePairs(entries, layer, rest);
  }

  /** The codes of a run of entries, as layer keys. */
  function Codes(entries: seq<(bv32, RsapNode.Node)>): (ks: set<CodeKey>)
    ensures forall i | 0 <= i < |entries| :: CodeKey(entries[i].0) in ks
    decreases |entries|
  {
    if |entries| == 0 then {} else {CodeKey(entries[0].0)} + Codes(entries[1..])
  }

  /** Every key in Codes comes from an entry. */
  lemma {:induction false} CodesFromEntries(entries: seq<(bv32, RsapNode.Node)>, k: CodeKey)
    requires k in Codes(entries)
    ensures exists i | 0 <= i < |entries| :: CodeKey(entries[i].0) == k
    decreases |entries|
  {
    if k != CodeKey(entries[0].0) {
      CodesFromEntries(entries[1..], k);
      var i :| 0 <= i < |entries[1..]| && CodeKey(entries[1..][i].0) == k;
      assert CodeKey(entries[i + 1].0) == k;
    }
  }

  /** Emplacing entries with distinct codes, none of them in the layer yet, gives each code its own node and keeps the rest. */
  lemma {:induction false} EmplaceEntriesFresh(layer: map<CodeKey, RsapNode.Node>, entries: seq<(bv32, RsapNode.Node)>)
    requires DistinctCodes(entries)
    requires forall i | 0 <= i < |entries| :: CodeKey(entries[i].0) !in layer
    ensures EmplaceEntries(layer, entries).Keys == layer.Keys + Codes(entries)
    ensures forall i | 0 <= i < |entries| :: EmplaceEntries(layer, entries)[CodeKey(entries[i].0)] == entries[i].1
    ensures forall k | k in layer :: EmplaceEntries(layer, entries)[k] == layer[k]
    decreases |entries|
  {
    if |entries| > 0 {
      var next := Emplace(layer, CodeKey(entries[0].0), entries[0].1);
      var tail := entries[1..];
      DistinctTail(entries);
      EmplaceEntriesFresh(next, tail);
      var r := EmplaceEntries(next, tail);
      forall i | 0 <= i < |entries| ensures r[CodeKey(entries[i].0)] == entries[i].1 {
        if i > 0 {
          assert entries[i] == tail[i - 1];
        }
      }
    }
  }

  /** The entries after the first still have distinct codes, none of them the first one's. */
  lemma DistinctTail(entries: seq<(bv32, RsapNode.Node)>)
    requires |entries| > 0 && DistinctCodes(entries)
    ensures DistinctCodes(entries[1..])
    ensures forall i | 0 <= i < |entries[1..]| :: CodeKey(entries[1..][i].0) != CodeKey(entries[0].0)
  {
    var tail := entries[1..];
    forall i | 0 <= i < |tail| ensures CodeKey(tail[i].0) != CodeKey(entries[0].0) {
      assert tail[i] == entries[i + 1];
    }
  }

  /** A saved layer loads back into an empty layer as exactly its own nodes. */
  lemma LoadSaveLayerFresh(entries: seq<(bv32, RsapNode.Node)>, rest: seq<Field>)
    requires |entries| < 0x1_0000_0000_0000_0000 && DistinctCodes(entries)
    ensures LoadLayer(SaveLayer(entries) + rest, map[]).Some?
    ensures LoadLayer(SaveLayer(entries) + rest, map[]).value.1 == rest
    ensures LoadLayer(SaveLayer(entries) + rest, map[]).value.0.Keys == Codes(entries)
    ensures forall i | 0 <= i < |entries| :: LoadLayer(SaveLayer(entries) + rest, map[]).value.0[CodeKey(entries[i].0)] == entries[i].1
  {
    LoadSaveLayer(entries, map[], rest);
    EmplaceEntriesFresh(map[], entries);
  }

  // ---------------------------------------------------------------------------
  // The static octree

  /** The key of a node of a chunk's octree: its layer and its code. */
  datatype TreeKey = TreeKey(layer: nat, code: bv32)

  /** The static octree of a chunk, all layers together. */
  type Tree = map<TreeKey, RsapNode.Node>

  /**
   * `FMortonUtils::Node::GetChildMCFromMask` is not part of this model: the
   * code of a child, from the parent's code, the child's mask and the
   * child's layer, is a parameter.
   */
  type ChildCode = (bv32, bv8, nat) -> bv32

  /** Layers above 9 descend; 9 and deeper are written without their children. */
  const LastParentLayer: nat := 9

  /** How many more layers a walk from layer `l` may descend. */
  function Rank(l: nat): (r: nat)
  {
    if l >= LastParentLayer then 0 else LastParentLayer - l
  }

  /** The key of child `i` of the node with key `k`. */
  function ChildKey(cc: ChildCode, k: TreeKey, i: nat): (c: TreeKey)
    requires i < 8
  {
    TreeKey(k.layer + 1, cc(k.code, ChildMasks[i], k.layer + 1))
  }

  /** `GetNode` is only used on nodes that exist: every set child bit of a node above layer 9 has its node. */
  predicate Closed(tree: Tree, cc: ChildCode)
  {
    forall k, i {:trigger ChildKey(cc, k, i)} |
      k in tree && 0 <= i < 8 && k.layer < LastParentLayer && tree[k].children & ChildMasks[i] != 0 ::
      ChildKey(cc, k, i) in tree
  }

  /**
   * `SaveNodes`: the mask of the node, then the streams of its children. A
   * key the tree does not hold reads as a childless node; from a node of a
   * closed tree the walk never reaches one (VisitInTree).
   */
  function SaveNodes(tree: Tree, cc: ChildCode, k: TreeKey): (bytes: seq<bv8>)
    ensures |bytes| >= 1 && bytes[0] == MaskOf(tree, k)
    ensures k.layer >= LastParentLayer || MaskOf(tree, k) == 0 ==> bytes == [MaskOf(tree, k)]
    decreases Rank(k.layer), 9
  {
    [MaskOf(tree, k)] + (if k.layer >= LastParentLayer then [] else SaveChildren(tree, cc, k, 0))
  }

  /** The streams of children `i` to 7 of the node with key `k`, each only when its bit is set. */
  function SaveChildren(tree: Tree, cc: ChildCode, k: TreeKey, i: nat): (bytes: seq<bv8>)
    ensures MaskOf(tree, k) == 0 ==> bytes == []
    decreases Rank(k.layer), 8 - i
  {
    if i >= 8 || k.layer >= LastParentLayer then []
    else (if MaskOf(tree, k) & ChildMasks[i] == 0 then [] else SaveNodes(tree, cc, ChildKey(cc, k, i)))
         + SaveChildren(tree, cc, k, i + 1)
  }

  /** The keys SaveNodes visits, in visiting order. */
  function Visit(tree: Tree, cc: ChildCode, k: TreeKey): (keys: seq<TreeKey>)
    ensures |keys| >= 1 && keys[0] == k
    decreases Rank(k.layer), 9
  {
    [k] + (if k.layer >= LastParentLayer then [] else VisitChildren(tree, cc, k, 0))
  }

  function VisitChildren(tree: Tree, cc: ChildCode, k: TreeKey, i: nat): (keys: seq<TreeKey>)
    decreases Rank(k.layer), 8 - i
  {
    if i >= 8 || k.layer >= LastParentLayer then []
    else (if MaskOf(tree, k) & ChildMasks[i] == 0 then [] else Visit(tree, cc, ChildKey(cc, k, i)))
         + VisitChildren(tree, cc, k, i + 1)
  }

  /** The keys of a run of keys, as a set. */
  function KeySet(keys: seq<TreeKey>): (ks: set<TreeKey>)
    ensures forall j | 0 <= j < |keys| :: keys[j] in ks
    decreases |keys|
  {
    if |keys| == 0 then {} else {keys[0]} + KeySet(keys[1..])
  }

  lemma {:induction false} KeySetAppend(a: seq<TreeKey>, b: seq<TreeKey>)
    ensures KeySet(a + b) == KeySet(a) + KeySet(b)
    decreases |a|
  {
    if |a| > 0 {
      assert (a + b)[0] == a[0] && (a + b)[1..] == a[1..] + b;
      KeySetAppend(a[1..], b);
    } else {
      assert a + b == b;
    }
  }

  /** In a closed tree, every node SaveNodes visits from an existing node exists. */
  lemma {:induction false} VisitInTree(tree: Tree, cc: ChildCode, k: TreeKey)
    requires Closed(tree, cc) && k in tree
    ensures KeySet(Visit(tree, cc, k)) <= tree.Keys
    decreases Rank(k.layer), 9
  {
    KeySetAppend([k], if k.layer >= LastParentLayer then [] else VisitChildren(tree, cc, k, 0));
    if k.layer < LastParentLayer {
      VisitChildrenInTree(tree, cc, k, 0);
    }
  }

  lemma {:induction false} VisitChildrenInTree(tree: Tree, cc: ChildCode, k: TreeKey, i: nat)
    requires Closed(tree, cc) && k in tree && k.layer < LastParentLayer && i <= 8
    ensures KeySet(VisitChildren(tree, cc, k, i)) <= tree.Keys
    decreases Rank(k.layer), 8 - i
  {
    if i < 8 {
      VisitChildrenInTree(tree, cc, k, i + 1);
      if MaskOf(tree, k) & ChildMasks[i] != 0 {
        VisitInTree(tree, cc, ChildKey(cc, k, i));
      }
      VisitInTreeStep(tree, cc, k, i);
    } else {
      assert VisitChildren(tree, cc, k, i) == [];
    }
  }

  /** One child more: its visit and the later children's stay in the tree, so the whole does. */
  lemma VisitInTreeStep(tree: Tree, cc: ChildCode, k: TreeKey, i: nat)
    requires k.layer < LastParentLayer && i < 8
    ensures (MaskOf(tree, k) & ChildMasks[i] != 0 ==> KeySet(Visit(tree, cc, ChildKey(cc, k, i))) <= tree.Keys) &&
            KeySet(VisitChildren(tree, cc, k, i + 1)) <= tree.Keys
            ==> KeySet(VisitChildren(tree, cc, k, i)) <= tree.Keys
  {
    if MaskOf(tree, k) & ChildMasks[i] != 0 {
      KeySetAppend(Visit(tree, cc, ChildKey(cc, k, i)), VisitChildren(tree, cc, k, i + 1));
    } else {
      assert VisitChildren(tree, cc, k, i) == VisitChildren(tree, cc, k, i + 1);
    }
  }

  /** The mask of a node, or none for a key the tree does not hold. */
  function MaskOf(tree: Tree, k: TreeKey): (m: bv8)
  {
    if k in tree then tree[k].children else 0
  }

  /** The masks of the given nodes, in order. */
  function Masks(tree: Tree, keys: seq<TreeKey>): (bytes: seq<bv8>)
    ensures |bytes| == |keys|
    decreases |keys|
  {
    if |keys| == 0 then [] else [MaskOf(tree, keys[0])] + Masks(tree, keys[1..])
  }

  /** Byte `j` of Masks is the mask of node `j`. */
  lemma {:induction false} MasksAt(tree: Tree, keys: seq<TreeKey>, j: nat)
    requires j < |keys|
    ensures Masks(tree, keys)[j] == MaskOf(tree, keys[j])
    decreases |keys|
  {
    if j > 0 {
      MasksAt(tree, keys[1..], j - 1);
    }
  }

  lemma {:induction false} MasksAppend(tree: Tree, a: seq<TreeKey>, b: seq<TreeKey>)
    ensures Masks(tree, a + b) == Masks(tree, a) + Masks(tree, b)
    decreases |a|
  {
    if |a| > 0 {
      assert (a + b)[0] == a[0] && (a + b)[1..] == a[1..] + b;
      MasksAppend(tree, a[1..], b);
    } else {
      assert a + b == b;
    }
  }

  /** SaveNodes writes one byte per visited node, in preorder: the byte of a node is its child mask. */
  lemma {:induction false} SaveIsPreorderMasks(tree: Tree, cc: ChildCode, k: TreeKey)
    ensures SaveNodes(tree, cc, k) == Masks(tree, Visit(tree, cc, k))
    decreases Rank(k.layer), 9
  {
    var below := if k.layer >= LastParentLayer then [] else VisitChildren(tree, cc, k, 0);
    if k.layer < LastParentLayer {
      SaveChildrenArePreorderMasks(tree, cc, k, 0);
    }
    MasksAppend(tree, [k], below);
  }

  lemma {:induction false} SaveChildrenArePreorderMasks(tree: Tree, cc: ChildCode, k: TreeKey, i: nat)
    requires k.layer < LastParentLayer && i <= 8
    ensures SaveChildren(tree, cc, k, i) == Masks(tree, VisitChildren(tree, cc, k, i))
    decreases Rank(k.layer), 8 - i
  {
    if i < 8 {
      SaveChildrenArePreorderMasks(tree, cc, k, i + 1);
      if MaskOf(tree, k) & ChildMasks[i] != 0 {
        SaveIsPreorderMasks(tree, cc, ChildKey(cc, k, i));
      }
      PreorderMasksStep(tree, cc, k, i);
    }
  }

  /** One child more: if the child's stream and the later children's streams are their masks, so is the whole. */
  lemma PreorderMasksStep(tree: Tree, cc: ChildCode, k: TreeKey, i: nat)
    requires k.layer < LastParentLayer && i < 8
    ensures (MaskOf(tree, k) & ChildMasks[i] != 0 ==>
              SaveNodes(tree, cc, ChildKey(cc, k, i)) == Masks(tree, Visit(tree, cc, ChildKey(cc, k, i)))) &&
            SaveChildren(tree, cc, k, i + 1) == Masks(tree, VisitChildren(tree, cc, k, i + 1))
            ==> SaveChildren(tree, cc, k, i) == Masks(tree, VisitChildren(tree, cc, k, i))
  {
    if MaskOf(tree, k) & ChildMasks[i] != 0 {
      var c := ChildKey(cc, k, i);
      assert SaveChildren(tree, cc, k, i) == SaveNodes(tree, cc, c) + SaveChildren(tree, cc, k, i + 1);
      assert VisitChildren(tree, cc, k, i) == Visit(tree, cc, c) + VisitChildren(tree, cc, k, i + 1);
      MasksAppend(tree, Visit(tree, cc, c), VisitChildren(tree, cc, k, i + 1));
    } else {
      assert SaveChildren(tree, cc, k, i) == SaveChildren(tree, cc, k, i + 1);
      assert VisitChildren(tree, cc, k, i) == VisitChildren(tree, cc, k, i + 1);
    }
  }

  /** The node a loaded byte becomes: `FRsapNode(uint64)` of the mask alone. */
  function FromMask(children: bv8): (n: RsapNode.Node)
  {
    RsapNode.Unpack(children as bv64)
  }

  /** A node loaded from its mask has that mask as its children and nothing else set. */
  lemma FromMaskKeepsChildren(children: bv8)
    ensures FromMask(children).children == children
    ensures FromMask(children).childrenTypes == 0 && FromMask(children).soundPresetId == 0
  {
  }

  /** `LoadNodes`: read the mask, emplace the node, and load each child whose bit is set; None when the archive runs out. */
  function LoadNodes(bytes: seq<bv8>, cc: ChildCode, k: TreeKey, tree: Tree): (r: Option<(Tree, seq<bv8>)>)
    decreases Rank(k.layer), 9
  {
    if |bytes| == 0 then None
    else
      var next := Emplace(tree, k, FromMask(bytes[0]));
      if k.layer >= LastParentLayer then Some((next, bytes[1..]))
      else LoadChildren(bytes[1..], cc, k, bytes[0], 0, next)
  }

  function LoadChildren(bytes: seq<bv8>, cc: ChildCode, k: TreeKey, children: bv8, i: nat, tree: Tree): (r: Option<(Tree, seq<bv8>)>)
    decreases Rank(k.layer), 8 - i
  {
    if i >= 8 || k.layer >= LastParentLayer then Some((tree, bytes))
    else if children & ChildMasks[i] == 0 then LoadChildren(bytes, cc, k, children, i + 1, tree)
    else
      match LoadNodes(bytes, cc, ChildKey(cc, k, i), tree)
      case None => None
      case Some((t, rest)) => LoadChildren(rest, cc, k, children, i + 1, t)
  }

  /**
   * Loading only adds: the node read first is there afterwards, every node
   * that was there keeps its value, and what is left of the archive is a
   * suffix of it.
   */
  lemma {:induction false} LoadNodesKeeps(bytes: seq<bv8>, cc: ChildCode, k: TreeKey, tree: Tree)
    ensures LoadNodes(bytes, cc, k, tree).Some? ==>
            var (t, rest) := LoadNodes(bytes, cc, k, tree).value;
            k in t && (forall j | j in tree :: j in t && t[j] == tree[j]) && |rest| < |bytes|
    decreases Rank(k.layer), 9
  {
    if |bytes| > 0 {
      var next := Emplace(tree, k, FromMask(bytes[0]));
      if k.layer < LastParentLayer {
        LoadChildrenKeeps(bytes[1..], cc, k, bytes[0], 0, next);
      }
    }
  }

  lemma {:induction false} LoadChildrenKeeps(bytes: seq<bv8>, cc: ChildCode, k: TreeKey, children: bv8, i: nat, tree: Tree)
    ensures LoadChildren(bytes, cc, k, children, i, tree).Some? ==>
            var (t, rest) := LoadChildren(bytes, cc, k, children, i, tree).value;
            (forall j | j in tree :: j in t && t[j] == tree[j]) && |rest| <= |bytes|
    decreases Rank(k.layer), 8 - i
  {
    if i < 8 && k.layer < LastParentLayer {
      if children & ChildMasks[i] == 0 {
        LoadChildrenKeeps(bytes, cc, k, children, i + 1, tree);
      } else {
        var c := ChildKey(cc, k, i);
        LoadNodesKeeps(bytes, cc, c, tree);
        match LoadNodes(bytes, cc, c, tree)
        case None =>
        case Some((t, rest)) => LoadChildrenKeeps(rest, cc, k, children, i + 1, t);
      }
    }
  }

  /** The tree after emplacing the given nodes, each as loaded from its mask. */
  function EmplaceMasks(loaded: Tree, tree: Tree, keys: seq<TreeKey>): (r: Tree)
    decreases |keys|
  {
    if |keys| == 0 then loaded
    else EmplaceMasks(Emplace(loaded, keys[0], FromMask(MaskOf(tree, keys[0]))), tree, keys[1..])
  }

  lemma {:induction false} EmplaceMasksAppend(loaded: Tree, tree: Tree, a: seq<TreeKey>, b: seq<TreeKey>)
    ensures EmplaceMasks(loaded, tree, a + b) == EmplaceMasks(EmplaceMasks(loaded, tree, a), tree, b)
    decreases |a|
  {
    if |a| > 0 {
      assert (a + b)[0] == a[0] && (a + b)[1..] == a[1..] + b;
      EmplaceMasksAppend(Emplace(loaded, a[0], FromMask(MaskOf(tree, a[0]))), tree, a[1..], b);
    } else {
      assert a + b == b;
    }
  }

  /**
   * LoadNodes, given the same child codes, reads back exactly what SaveNodes
   * wrote, and emplaces the nodes SaveNodes visited, in the same order.
   */
  lemma {:induction false} LoadSaveNodes(tree: Tree, cc: ChildCode, k: TreeKey, loaded: Tree, rest: seq<bv8>)
    ensures LoadNodes(SaveNodes(tree, cc, k) + rest, cc, k, loaded) == Some((EmplaceMasks(loaded, tree, Visit(tree, cc, k)), rest))
    decreases Rank(k.layer), 9
  {
    if k.layer < LastParentLayer {
      LoadSaveChildren(tree, cc, k, 0, Emplace(loaded, k, FromMask(MaskOf(tree, k))), rest);
      LoadParentStep(tree, cc, k, loaded, rest);
    } else {
      LoadLeafStep(tree, cc, k, loaded, rest);
    }
  }

  /** A node of layer 9 or deeper is one byte and one emplace. */
  lemma LoadLeafStep(tree: Tree, cc: ChildCode, k: TreeKey, loaded: Tree, rest: seq<bv8>)
    requires k.layer >= LastParentLayer
    ensures LoadNodes(SaveNodes(tree, cc, k) + rest, cc, k, loaded) == Some((EmplaceMasks(loaded, tree, Visit(tree, cc, k)), rest))
  {
    assert (SaveNodes(tree, cc, k) + rest)[1..] == rest;
  }

  /** A node above layer 9: its own byte, given that its children's streams load back. */
  lemma LoadParentStep(tree: Tree, cc: ChildCode, k: TreeKey, loaded: Tree, rest: seq<bv8>)
    requires k.layer < LastParentLayer
    ensures var next := Emplace(loaded, k, FromMask(MaskOf(tree, k)));
            LoadChildren(SaveChildren(tree, cc, k, 0) + rest, cc, k, MaskOf(tree, k), 0, next) ==
              Some((EmplaceMasks(next, tree, VisitChildren(tree, cc, k, 0)), rest))
            ==> LoadNodes(SaveNodes(tree, cc, k) + rest, cc, k, loaded) == Some((EmplaceMasks(loaded, tree, Visit(tree, cc, k)), rest))
  {
    var bytes := SaveNodes(tree, cc, k) + rest;
    assert bytes[1..] == SaveChildren(tree, cc, k, 0) + rest;
    LoadParentUnfold(bytes, cc, k, loaded);
    EmplaceMasksAppend(loaded, tree, [k], VisitChildren(tree, cc, k, 0));
  }

  /** LoadNodes above layer 9 is one emplace and then LoadChildren on the remaining bytes. */
  lemma LoadParentUnfold(bytes: seq<bv8>, cc: ChildCode, k: TreeKey, loaded: Tree)
    requires k.layer < LastParentLayer && |bytes| > 0
    ensures LoadNodes(bytes, cc, k, loaded) == LoadChildren(bytes[1..], cc, k, bytes[0], 0, Emplace(loaded, k, FromMask(bytes[0])))
  {
  }

  lemma {:induction false} LoadSaveChildren(tree: Tree, cc: ChildCode, k: TreeKey, i: nat, loaded: Tree, rest: seq<bv8>)
    requires k.layer < LastParentLayer && i <= 8
    ensures LoadChildren(SaveChildren(tree, cc, k, i) + rest, cc, k, MaskOf(tree, k), i, loaded) ==
            Some((EmplaceMasks(loaded, tree, VisitChildren(tree, cc, k, i)), rest))
    decreases Rank(k.layer), 8 - i
  {
    if i == 8 {
      assert SaveChildren(tree, cc, k, i) + rest == rest;
    } else if MaskOf(tree, k) & ChildMasks[i] == 0 {
      LoadSaveChildren(tree, cc, k, i + 1, loaded, rest);
      SkipChild(tree, cc, k, i);
    } else {
      var c := ChildKey(cc, k, i);
      var after := SaveChildren(tree, cc, k, i + 1) + rest;
      var t := EmplaceMasks(loaded, tree, Visit(tree, cc, c));
      LoadSaveNodes(tree, cc, c, loaded, after);
      LoadSaveChildren(tree, cc, k, i + 1, t, rest);
      SaveChildStream(tree, cc, k, i, rest);
      VisitChildStream(tree, cc, k, i);
      LoadChildStep(cc, k, MaskOf(tree, k), i, tree, loaded, SaveNodes(tree, cc, c), after, rest,
                    Visit(tree, cc, c), VisitChildren(tree, cc, k, i + 1));
    }
  }

  /** The stream from a set child `i` on: child `i`'s followed by the later children's. */
  lemma SaveChildStream(tree: Tree, cc: ChildCode, k: TreeKey, i: nat, rest: seq<bv8>)
    requires k.layer < LastParentLayer && i < 8 && MaskOf(tree, k) & ChildMasks[i] != 0
    ensures SaveChildren(tree, cc, k, i) + rest == SaveNodes(tree, cc, ChildKey(cc, k, i)) + (SaveChildren(tree, cc, k, i + 1) + rest)
  {
    var a := SaveNodes(tree, cc, ChildKey(cc, k, i));
    var b := SaveChildren(tree, cc, k, i + 1);
    assert SaveChildren(tree, cc, k, i) == a + b;
    assert (a + b) + rest == a + (b + rest);
  }

  /** The visit from a set child `i` on: child `i`'s visit followed by the later children's. */
  lemma VisitChildStream(tree: Tree, cc: ChildCode, k: TreeKey, i: nat)
    requires k.layer < LastParentLayer && i < 8 && MaskOf(tree, k) & ChildMasks[i] != 0
    ensures VisitChildren(tree, cc, k, i) == Visit(tree, cc, ChildKey(cc, k, i)) + VisitChildren(tree, cc, k, i + 1)
  {
  }

  /** A clear child `i` adds nothing to the stream or the visit. */
  lemma SkipChild(tree: Tree, cc: ChildCode, k: TreeKey, i: nat)
    requires k.layer < LastParentLayer && i < 8 && MaskOf(tree, k) & ChildMasks[i] == 0
    ensures SaveChildren(tree, cc, k, i) == SaveChildren(tree, cc, k, i + 1)
    ensures VisitChildren(tree, cc, k, i) == VisitChildren(tree, cc, k, i + 1)
  {
  }

  /** A child whose bit is set: when its stream loads back, and then the later children's, the whole loads back. */
  lemma LoadChildStep(cc: ChildCode, k: TreeKey, children: bv8, i: nat, tree: Tree, loaded: Tree,
                      child: seq<bv8>, after: seq<bv8>, rest: seq<bv8>, visited: seq<TreeKey>, later: seq<TreeKey>)
    requires k.layer < LastParentLayer && i < 8 && children & ChildMasks[i] != 0
    ensures var t := EmplaceMasks(loaded, tree, visited);
            LoadNodes(child + after, cc, ChildKey(cc, k, i), loaded) == Some((t, after)) &&
            LoadChildren(after, cc, k, children, i + 1, t) == Some((EmplaceMasks(t, tree, later), rest))
            ==> LoadChildren(child + after, cc, k, children, i, loaded) == Some((EmplaceMasks(loaded, tree, visited + later), rest))
  {
    LoadChildUnfold(child + after, cc, k, children, i, loaded, EmplaceMasks(loaded, tree, visited), after);
    EmplaceMasksAppend(loaded, tree, visited, later);
  }

  /** LoadChildren at a set bit loads that child's stream, then the later children from what is left. */
  lemma LoadChildUnfold(bytes: seq<bv8>, cc: ChildCode, k: TreeKey, children: bv8, i: nat, loaded: Tree,
                        t: Tree, after: seq<bv8>)
    requires k.layer < LastParentLayer && i < 8 && children & ChildMasks[i] != 0
    ensures LoadNodes(bytes, cc, ChildKey(cc, k, i), loaded) == Some((t, after)) ==>
            LoadChildren(bytes, cc, k, children, i, loaded) == LoadChildren(after, cc, k, children, i + 1, t)
  {
  }

  /** Emplacing a run of masks adds exactly its keys, and each key added carries its own mask. */
  lemma {:induction false} EmplaceMasksKeys(loaded: Tree, tree: Tree, keys: seq<TreeKey>)
    requires forall k | k in loaded :: loaded[k] == FromMask(MaskOf(tree, k))
    ensures EmplaceMasks(loaded, tree, keys).Keys == loaded.Keys + KeySet(keys)
    ensures forall k | k in EmplaceMasks(loaded, tree, keys) :: EmplaceMasks(loaded, tree, keys)[k] == FromMask(MaskOf(tree, k))
    decreases |keys|
  {
    if |keys| > 0 {
      var next := Emplace(loaded, keys[0], FromMask(MaskOf(tree, keys[0])));
      EmplaceMasksKeys(next, tree, keys[1..]);
    }
  }

  /**
   * LoadNodes after SaveNodes, from a node of a closed tree: loading its
   * stream into an empty octree consumes exactly that stream and re-creates
   * every visited (layer, code) key, and only those, each as the node its
   * child mask alone makes.
   */
  lemma LoadRecreatesVisitedNodes(tree: Tree, cc: ChildCode, root: TreeKey, rest: seq<bv8>)
    requires Closed(tree, cc) && root in tree
    ensures LoadNodes(SaveNodes(tree, cc, root) + rest, cc, root, map[]).Some?
    ensures LoadNodes(SaveNodes(tree, cc, root) + rest, cc, root, map[]).value.1 == rest
    ensures LoadNodes(SaveNodes(tree, cc, root) + rest, cc, root, map[]).value.0.Keys == KeySet(Visit(tree, cc, root))
    ensures forall k | k in LoadNodes(SaveNodes(tree, cc, root) + rest, cc, root, map[]).value.0 ::
            k in tree && LoadNodes(SaveNodes(tree, cc, root) + rest, cc, root, map[]).value.0[k] == FromMask(tree[k].children)
  {
    LoadSaveNodes(tree, cc, root, map[], rest);
    EmplaceMasksKeys(map[], tree, Visit(tree, cc, root));
    VisitInTree(tree, cc, root);
  }

  /** The root of a chunk's static octree: code 0 on layer 0. */
  const Root: TreeKey := TreeKey(0, 0)

  /** `SaveStaticOctree`: the preorder mask stream from the root. */
  function SaveStaticOctree(tree: Tree, cc: ChildCode): (bytes: seq<bv8>)
    requires Root in tree
    ensures |bytes| >= 1 && bytes[0] == tree[Root].children
  {
    SaveNodes(tree, cc, Root)
  }

  /** `LoadStaticOctree`: read the stream from the root into the chunk's octree. */
  function LoadStaticOctree(bytes: seq<bv8>, cc: ChildCode, tree: Tree): (r: Option<(Tree, seq<bv8>)>)
  {
    LoadNodes(bytes, cc, Root, tree)
  }

  /**
   * A chunk's static octree saved and loaded into an empty octree: exactly
   * the nodes reachable from the root through set child bits come back, each
   * with its child mask and every other field cleared.
   */
  lemma LoadSaveStaticOctree(tree: Tree, cc: ChildCode, rest: seq<bv8>)
    requires Closed(tree, cc) && Root in tree
    ensures LoadStaticOctree(SaveStaticOctree(tree, cc) + rest, cc, map[]).Some?
    ensures LoadStaticOctree(SaveStaticOctree(tree, cc) + rest, cc, map[]).value.1 == rest
    ensures LoadStaticOctree(SaveStaticOctree(tree, cc) + rest, cc, map[]).value.0.Keys == KeySet(Visit(tree, cc, Root))
    ensures forall k | k in LoadStaticOctree(SaveStaticOctree(tree, cc) + rest, cc, map[]).value.0 ::
            k in tree && LoadStaticOctree(SaveStaticOctree(tree, cc) + rest, cc, map[]).value.0[k].children == tree[k].children &&
            LoadStaticOctree(SaveStaticOctree(tree, cc) + rest, cc, map[]).value.0[k].childrenTypes == 0
  {
    LoadRecreatesVisitedNodes(tree, cc, Root, rest);
    forall k | k in tree {
      FromMaskKeepsChildren(tree[k].children);
    }
  }
}

=== FILE: updater.dfy ===
/**
 * The updater's staging area: for every actor that moved since the last
 * update, all the bounds it has had since then and the bounds it has now.
 * An update later un-rasterizes around the former and rasterizes the latter.
 */
module Updater {
  import Aabb

  /** `actor_key`: a 32-bit actor identifier. */
  datatype ActorKey = ActorKey(id: bv32)

  /** `FMovedBounds`: the bounds an actor moved from and the bounds it moved to. */
  datatype MovedBounds = MovedBounds(from: Aabb.Bounds, to: Aabb.Bounds)

  /** `FNavMeshUpdateType`: the previous bounds, oldest first, paired with the current bounds. */
  datatype Staged = Staged(previous: seq<Aabb.Bounds>, current: Aabb.Bounds)

  /** `FNavMeshUpdateMap`. */
  type StagedMap = map<ActorKey, Staged>

  /**
   * `StageData(ActorKey, MovedBounds)`: an actor seen for the first time
   * starts with its From bounds as its only previous bounds; then From is
   * appended to the previous bounds and To becomes the current bounds.
   */
  function StageOne(staged: StagedMap, key: ActorKey, m: MovedBounds): (r: StagedMap)
    ensures key in r && r[key].current == m.to
    ensures |r[key].previous| >= 1 && r[key].previous[|r[key].previous| - 1] == m.from
    ensures r.Keys == staged.Keys + {key}
    ensures forall k | k in staged && k != key :: r[k] == staged[k]
  {
    var entry := if key in staged then staged[key] else Staged([m.from], m.to);
    staged[key := Staged(entry.previous + [m.from], m.to)]
  }

  /** A first stage records From twice; a repeat stage appends it once to what was there. */
  lemma StageOnePrevious(staged: StagedMap, key: ActorKey, m: MovedBounds)
    ensures key !in staged ==> StageOne(staged, key, m)[key].previous == [m.from, m.from]
    ensures key in staged ==> StageOne(staged, key, m)[key].previous == staged[key].previous + [m.from]
  {
  }

  /** The actor key of an entry of a staged batch. */
  function KeyAt<T>(entries: seq<(ActorKey, T)>, i: nat): (k: ActorKey)
    requires i < |entries|
  {
    entries[i].0
  }

  /** The keys of a flat map are unique. */
  predicate DistinctKeys<T>(entries: seq<(ActorKey, T)>)
  {
    forall i, j | 0 <= i < j < |entries| :: KeyAt(entries, i) != KeyAt(entries, j)
  }

  /** The keys of a batch of entries. */
  function KeysOf<T>(entries: seq<(ActorKey, T)>): (ks: set<ActorKey>)
    ensures forall i | 0 <= i < |entries| :: KeyAt(entries, i) in ks
    ensures forall k | k in ks :: exists i | 0 <= i < |entries| :: KeyAt(entries, i) == k
  {
    set i | 0 <= i < |entries| :: KeyAt(entries, i)
  }

  /** The keys of a batch are its first key and the keys of the rest. */
  lemma KeysOfCons<T>(entries: seq<(ActorKey, T)>)
    requires |entries| > 0
    ensures KeysOf(entries) == {entries[0].0} + KeysOf(entries[1..])
  {
    var rest := entries[1..];
    assert KeyAt(entries, 0) in KeysOf(entries);
    assert forall i | 0 <= i < |rest| :: KeyAt(rest, i) == KeyAt(entries, i + 1);
    forall k | k in KeysOf(entries) ensures k in {entries[0].0} + KeysOf(rest) {
      var i :| 0 <= i < |entries| && KeyAt(entries, i) == k;
      if i > 0 { assert KeyAt(rest, i - 1) == k; }
    }
    forall k | k in KeysOf(rest) ensures k in KeysOf(entries) {
      var i :| 0 <= i < |rest| && KeyAt(rest, i) == k;
      assert KeyAt(entries, i + 1) == k;
    }
  }

  /** Dropping the first entry of a batch with distinct keys leaves a batch with distinct keys, none of them the first. */
  lemma TailDistinct<T>(entries: seq<(ActorKey, T)>)
    requires |entries| > 0 && DistinctKeys(entries)
    ensures DistinctKeys(entries[1..])
    ensures entries[0].0 !in KeysOf(entries[1..])
  {
    var rest := entries[1..];
    assert forall i | 0 <= i < |rest| :: KeyAt(rest, i) == KeyAt(entries, i + 1);
    assert forall i | 0 <= i < |rest| :: KeyAt(entries, 0) != KeyAt(rest, i);
  }

  /** `StageData(FMovedBoundsMap)`: stage each moved actor in turn, in the map's order. */
  function StageMoves(staged: StagedMap, moves: seq<(ActorKey, MovedBounds)>): (r: StagedMap)
    decreases |moves|
  {
    if |moves| == 0 then staged
    else StageMoves(StageOne(staged, moves[0].0, moves[0].1), moves[1..])
  }

  /** An actor and the bounds it has now, as an `FMovedBounds` coming from the empty bounds. */
  function FromEmpty(entry: (ActorKey, Aabb.Bounds)): (m: (ActorKey, MovedBounds))
  {
    (entry.0, MovedBounds(Aabb.EmptyBounds, entry.1))
  }

  /** `StageData(FActorBoundsMap)`: stage every actor as having moved from the empty bounds to its bounds. */
  function StageActors(staged: StagedMap, actors: seq<(ActorKey, Aabb.Bounds)>): (r: StagedMap)
  {
    StageMoves(staged, seq(|actors|, i requires 0 <= i < |actors| => FromEmpty(actors[i])))
  }

  /** Staging a batch adds exactly the batch's keys. */
  lemma {:induction false} StageMovesKeys(staged: StagedMap, moves: seq<(ActorKey, MovedBounds)>)
    ensures StageMoves(staged, moves).Keys == staged.Keys + KeysOf(moves)
    decreases |moves|
  {
    if |moves| > 0 {
      KeysOfCons(moves);
      StageMovesKeys(StageOne(staged, moves[0].0, moves[0].1), moves[1..]);
    }
  }

  /** An actor outside the batch is left as it was. */
  lemma {:induction false} StageMovesOthers(staged: StagedMap, moves: seq<(ActorKey, MovedBounds)>, k: ActorKey)
    requires k in staged && k !in KeysOf(moves)
    ensures k in StageMoves(staged, moves)
    ensures StageMoves(staged, moves)[k] == staged[k]
    decreases |moves|
  {
    StageMovesKeys(staged, moves);
    if |moves| > 0 {
      KeysOfCons(moves);
      StageMovesOthers(StageOne(staged, moves[0].0, moves[0].1), moves[1..], k);
    }
  }

  /**
   * In a batch of distinct actors each one is staged once, as a single
   * StageData would stage it on the map as it was before the batch.
   */
  lemma {:induction false} StageMovesAt(staged: StagedMap, moves: seq<(ActorKey, MovedBounds)>, i: nat)
    requires DistinctKeys(moves) && i < |moves|
    ensures KeyAt(moves, i) in StageMoves(staged, moves)
    ensures StageMoves(staged, moves)[KeyAt(moves, i)] == StageOne(staged, KeyAt(moves, i), moves[i].1)[KeyAt(moves, i)]
    decreases |moves|
  {
    StageMovesKeys(staged, moves);
    var once := StageOne(staged, moves[0].0, moves[0].1);
    TailDistinct(moves);
    if i == 0 {
      StageMovesOthers(once, moves[1..], moves[0].0);
    } else {
      assert KeyAt(moves[1..], i - 1) == KeyAt(moves, i) && moves[1..][i - 1] == moves[i];
      assert KeyAt(moves, 0) != KeyAt(moves, i);
      StageMovesAt(once, moves[1..], i - 1);
    }
  }

  /**
   * After staging a batch of actors from a level, every one of them has its
   * bounds as the current bounds and the empty bounds as the latest
   * previous bounds, and every other actor is as it was.
   */
  lemma StageActorsFromEmpty(staged: StagedMap, actors: seq<(ActorKey, Aabb.Bounds)>)
    requires DistinctKeys(actors)
    ensures StageActors(staged, actors).Keys == staged.Keys + KeysOf(actors)
    ensures forall i | 0 <= i < |actors| ::
      var e := StageActors(staged, actors)[KeyAt(actors, i)];
      e.current == actors[i].1 && |e.previous| >= 1 && e.previous[|e.previous| - 1] == Aabb.EmptyBounds
    ensures forall k | k in staged && k !in KeysOf(actors) :: StageActors(staged, actors)[k] == staged[k]
  {
    var moves := seq(|actors|, i requires 0 <= i < |actors| => FromEmpty(actors[i]));
    assert forall i | 0 <= i < |actors| :: KeyAt(moves, i) == KeyAt(actors, i);
    assert KeysOf(moves) == KeysOf(actors);
    StageMovesKeys(staged, moves);
    forall i | 0 <= i < |actors|
      ensures var e := StageActors(staged, actors)[KeyAt(actors, i)];
        e.current == actors[i].1 && |e.previous| >= 1 && e.previous[|e.previous| - 1] == Aabb.EmptyBounds
    {
      StageMovesAt(staged, moves, i);
    }
    forall k | k in staged && k !in KeysOf(actors)
      ensures StageActors(staged, actors)[k] == staged[k]
    {
      StageMovesOthers(staged, moves, k);
    }
  }

  /**
   * The history of one actor: after a run of moves for the same actor, its
   * previous bounds are the From of the first move followed by the From of
   * every move in order, and its current bounds are the To of the last.
   */
  function Froms(ms: seq<MovedBounds>): (fs: seq<Aabb.Bounds>)
    ensures |fs| == |ms|
    ensures forall i | 0 <= i < |ms| :: fs[i] == ms[i].from
  {
    if |ms| == 0 then [] else Froms(ms[..|ms| - 1]) + [ms[|ms| - 1].from]
  }

  /** The moves of one actor, as a batch with that actor's key on every entry. */
  function MovesOf(key: ActorKey, ms: seq<MovedBounds>): (moves: seq<(ActorKey, MovedBounds)>)
    ensures |moves| == |ms|
  {
    seq(|ms|, i requires 0 <= i < |ms| => (key, ms[i]))
  }

  lemma {:induction false} StagedHistory(staged: StagedMap, key: ActorKey, ms: seq<MovedBounds>)
    requires |ms| > 0 && key !in staged
    ensures key in StageMoves(staged, MovesOf(key, ms))
    ensures StageMoves(staged, MovesOf(key, ms))[key] == Staged([ms[0].from] + Froms(ms), ms[|ms| - 1].to)
    decreases |ms|
  {
    var init := ms[..|ms| - 1];
    var last := ms[|ms| - 1];
    StageMovesSplit(staged, MovesOf(key, init), MovesOf(key, [last]));
    assert MovesOf(key, ms) == MovesOf(key, init) + MovesOf(key, [last]);
    if |init| == 0 {
      assert MovesOf(key, [last])[1..] == [];
    } else {
      StagedHistory(staged, key, init);
      assert init[0] == ms[0];
      assert MovesOf(key, [last])[1..] == [];
    }
  }

  /** Staging two batches one after the other is staging their concatenation. */
  lemma {:induction false} StageMovesSplit(staged: StagedMap, a: seq<(ActorKey, MovedBounds)>, b: seq<(ActorKey, MovedBounds)>)
    ensures StageMoves(staged, a + b) == StageMoves(StageMoves(staged, a), b)
    decreases |a|
  {
    if |a| > 0 {
      assert (a + b)[0] == a[0] && (a + b)[1..] == a[1..] + b;
      StageMovesSplit(StageOne(staged, a[0].0, a[0].1), a[1..], b);
    } else {
      assert a + b == b;
    }
  }
}

=== FILE: vectors.dfy ===
/**
 * Integer world vectors and their rounding to the node grid of a layer or to
 * the chunk grid. Coordinates are `int32`; a negative coordinate is first
 * shifted by SignOffset so the mask is applied to a non-negative value, and
 * shifted back afterwards. The shift happens on a 64-bit intermediate that
 * is converted back to `int32`, so only its low 32 bits matter: the model
 * computes those directly, with SignOffset32 (the low word of SignOffset).
 */
module Vectors {
  import opened Signed
  import opened Definitions
  import MortonNode
  import MortonChunk

  datatype Vector32 = Vector32(x: Int32, y: Int32, z: Int32)

  /** One component of a sum: `int32` addition, which wraps. */
  function Sum(a: Int32, b: Int32): (r: Int32)
  {
    a + b
  }

  lemma SumIsAddition(a: Int32, b: Int32)
    ensures Sum(a, b) == a + b
  {
  }

  /** Componentwise sum. */
  function Add(a: Vector32, b: Vector32): (r: Vector32)
  {
    Vector32(Sum(a.x, b.x), Sum(a.y, b.y), Sum(a.z, b.z))
  }

  /** Adds the same value to every component. */
  function AddScalar(a: Vector32, k: Int32): (r: Vector32)
  {
    Vector32(Sum(a.x, k), Sum(a.y, k), Sum(a.z, k))
  }

  /** How far `p` lies past `corner` along one axis, wrapping like `int32`. */
  function Offset(p: Int32, corner: Int32): (r: Int32)
  {
    p - corner
  }

  /** Subtraction undoes addition, wrap-around included. */
  lemma OffsetOfSum(a: Int32, b: Int32)
    ensures Offset(Sum(a, b), a) == b
  {
    assert Sum(a, b) == a + b;
    assert Offset(a + b, a) == b;
  }

  lemma AddComponents(a: Vector32, b: Vector32)
    ensures Add(a, b).x == Sum(a.x, b.x) && Add(a, b).y == Sum(a.y, b.y) && Add(a, b).z == Sum(a.z, b.z)
  {
  }

  // ---------------------------------------------------------------------------
  // Rounding one coordinate

  /** `k` is a run of ones starting at bit 0 (possibly empty). */
  predicate LowOnes(k: bv32) { k & (k + 1) == 0 }

  /**
   * A mask that clears the bits below some power of two: it keeps the sign bit,
   * and SignOffset32 is a multiple of that power of two.
   */
  predicate IsGranuleMask(m: bv32)
  {
    LowOnes(!m) && !m < 0x8000_0000 && SignOffset32 & !m == 0
  }

  /** A power-of-two size no larger than a chunk. */
  predicate IsGranule(s: bv32)
  {
    s != 0 && LowOnes(s - 1) && s <= 0x2000
  }

  /** Rounds one coordinate down with mask `m`, taking the SignOffset detour for negative values. */
  function FloorCoord(a: Int32, m: bv32): (r: Int32)
  {
    if !IsNegative(a) then a & m else ((a + SignOffset32) & m) - SignOffset32
  }

  /** Rounds one coordinate up to size `s` with mask `m`, taking the SignOffset detour for negative values. */
  function CeilCoord(a: Int32, s: Int32, m: bv32): (r: Int32)
  {
    if !IsNegative(a) then (a + s - 1) & m else ((a + SignOffset32 + s - 1) & m) - SignOffset32
  }

  /** Adding SignOffset32 before masking and removing it after changes nothing. */
  lemma OffsetCommutesWithMask(a: Int32, m: bv32)
    ensures IsGranuleMask(m) ==> ((a + SignOffset32) & m) - SignOffset32 == a & m
  {
  }

  /** Both branches of FloorCoord compute the same mask. */
  lemma FloorCoordIsMask(a: Int32, m: bv32)
    ensures IsGranuleMask(m) ==> FloorCoord(a, m) == a & m
  {
    OffsetCommutesWithMask(a, m);
  }

  lemma Reassociate(a: Int32, k: bv32, s: bv32)
    ensures a + k + s - 1 == (a + s - 1) + k
  {
  }

  /** Both branches of CeilCoord compute the same mask. */
  lemma CeilCoordIsMask(a: Int32, s: Int32, m: bv32)
    ensures IsGranuleMask(m) ==> CeilCoord(a, s, m) == (a + s - 1) & m
  {
    var b := a + s - 1;
    OffsetCommutesWithMask(b, m);
    Reassociate(a, SignOffset32, s);
    assert IsGranuleMask(m) ==> ((b + SignOffset32) & m) - SignOffset32 == b & m;
  }

  /** `r` is `a` rounded down to a multiple of `s`: not above `a`, less than `s` below it. */
  predicate FloorsTo(a: Int32, r: Int32, s: bv32)
  {
    Le(r, a) && a - r < s && r & (s - 1) == 0
  }

  /** `r` is `a` rounded up to a multiple of `s`: not below `a`, less than `s` above it. */
  predicate CeilsTo(a: Int32, r: Int32, s: bv32)
  {
    Le(a, r) && r - a < s && r & (s - 1) == 0
  }

  /** Rounding up does not overflow: `a + s - 1` stays within `int32`. */
  predicate CeilFits(a: Int32, s: bv32)
  {
    Le(a, 0x7FFF_FFFF - (s - 1))
  }

  lemma GranuleMaskOfSize(s: bv32)
    ensures IsGranule(s) ==> IsGranuleMask(!(s - 1))
  {
  }

  lemma MaskFloors(a: Int32, s: bv32)
    ensures IsGranule(s) ==> FloorsTo(a, a & !(s - 1), s)
  {
  }

  lemma MaskCeils(a: Int32, s: bv32)
    ensures IsGranule(s) && CeilFits(a, s) ==> CeilsTo(a, (a + s - 1) & !(s - 1), s)
  {
  }

  /** FloorCoord with the mask of a granule rounds down to that granule, for every `int32`. */
  lemma FloorCoordFloors(a: Int32, s: bv32)
    ensures IsGranule(s) ==> FloorsTo(a, FloorCoord(a, !(s - 1)), s)
  {
    GranuleMaskOfSize(s);
    FloorCoordIsMask(a, !(s - 1));
    MaskFloors(a, s);
  }

  /** CeilCoord with the mask of a granule rounds up to that granule whenever the sum does not overflow. */
  lemma CeilCoordCeils(a: Int32, s: bv32)
    ensures IsGranule(s) && CeilFits(a, s) ==> CeilsTo(a, CeilCoord(a, s, !(s - 1)), s)
  {
    GranuleMaskOfSize(s);
    CeilCoordIsMask(a, s, !(s - 1));
    MaskCeils(a, s);
  }

  /** A value already on the grid is its own floor and its own ceiling. */
  lemma AlignedIsFixed(a: Int32, s: bv32)
    ensures IsGranule(s) && a & (s - 1) == 0 ==> FloorCoord(a, !(s - 1)) == a && CeilCoord(a, s, !(s - 1)) == a
  {
    GranuleMaskOfSize(s);
    FloorCoordIsMask(a, !(s - 1));
    CeilCoordIsMask(a, s, !(s - 1));
  }

  // ---------------------------------------------------------------------------
  // Rounding vectors

  function FloorBy(v: Vector32, m: bv32): (r: Vector32)
  {
    Vector32(FloorCoord(v.x, m), FloorCoord(v.y, m), FloorCoord(v.z, m))
  }

  function CeilBy(v: Vector32, s: Int32, m: bv32): (r: Vector32)
  {
    Vector32(CeilCoord(v.x, s, m), CeilCoord(v.y, s, m), CeilCoord(v.z, s, m))
  }

  /** Rounds every component down to the node grid of layer `l`. */
  function FloorToLayer(v: Vector32, l: nat): (r: Vector32)
    requires l < TotalLayers
  {
    FloorBy(v, SizesMask[l])
  }

  /** Rounds every component up to the node grid of layer `l`. */
  function CeilToLayer(v: Vector32, l: nat): (r: Vector32)
    requires l < TotalLayers
  {
    CeilBy(v, Sizes[l], SizesMask[l])
  }

  /** Rounds every component down to the chunk grid. */
  function FloorToChunk(v: Vector32): (r: Vector32)
  {
    FloorBy(v, ChunkSizeMask)
  }

  /** Rounds every component up to the chunk grid. */
  function CeilToChunk(v: Vector32): (r: Vector32)
  {
    CeilBy(v, ChunkSize, ChunkSizeMask)
  }

  lemma {:induction false} SizeIsGranule(l: nat)
    requires l < TotalLayers
    ensures IsGranule(Sizes[l]) && SizesMask[l] == !(Sizes[l] - 1)
  {
    SizesMaskIsComplement(l);
    if l == 0 {} else if l == 1 {} else if l == 2 {} else if l == 3 {} else if l == 4 {} else if l == 5 {}
    else if l == 6 {} else if l == 7 {} else if l == 8 {} else if l == 9 {} else if l == 10 {}
    else if l == 11 {} else {}
  }

  lemma FloorByFloors(v: Vector32, s: bv32)
    requires IsGranule(s)
    ensures FloorsTo(v.x, FloorBy(v, !(s - 1)).x, s)
    ensures FloorsTo(v.y, FloorBy(v, !(s - 1)).y, s)
    ensures FloorsTo(v.z, FloorBy(v, !(s - 1)).z, s)
  {
    FloorCoordFloors(v.x, s);
    FloorCoordFloors(v.y, s);
    FloorCoordFloors(v.z, s);
  }

  lemma CeilByCeils(v: Vector32, s: bv32)
    requires IsGranule(s)
    ensures CeilFits(v.x, s) ==> CeilsTo(v.x, CeilBy(v, s, !(s - 1)).x, s)
    ensures CeilFits(v.y, s) ==> CeilsTo(v.y, CeilBy(v, s, !(s - 1)).y, s)
    ensures CeilFits(v.z, s) ==> CeilsTo(v.z, CeilBy(v, s, !(s - 1)).z, s)
  {
    CeilCoordCeils(v.x, s);
    CeilCoordCeils(v.y, s);
    CeilCoordCeils(v.z, s);
  }

  /** FloorToLayer rounds every component down to a multiple of the layer's node size, by less than that size. */
  lemma FloorToLayerFloors(v: Vector32, l: nat)
    requires l < TotalLayers
    ensures FloorsTo(v.x, FloorToLayer(v, l).x, Sizes[l])
    ensures FloorsTo(v.y, FloorToLayer(v, l).y, Sizes[l])
    ensures FloorsTo(v.z, FloorToLayer(v, l).z, Sizes[l])
  {
    SizeIsGranule(l);
    FloorByFloors(v, Sizes[l]);
  }

  /** CeilToLayer rounds every component up to a multiple of the layer's node size, by less than that size. */
  lemma CeilToLayerCeils(v: Vector32, l: nat)
    requires l < TotalLayers
    ensures CeilFits(v.x, Sizes[l]) ==> CeilsTo(v.x, CeilToLayer(v, l).x, Sizes[l])
    ensures CeilFits(v.y, Sizes[l]) ==> CeilsTo(v.y, CeilToLayer(v, l).y, Sizes[l])
    ensures CeilFits(v.z, Sizes[l]) ==> CeilsTo(v.z, CeilToLayer(v, l).z, Sizes[l])
  {
    SizeIsGranule(l);
    CeilByCeils(v, Sizes[l]);
  }

  /** FloorToChunk rounds every component down to a chunk multiple, by less than a chunk. */
  lemma FloorToChunkFloors(v: Vector32)
    ensures FloorsTo(v.x, FloorToChunk(v).x, ChunkSize)
    ensures FloorsTo(v.y, FloorToChunk(v).y, ChunkSize)
    ensures FloorsTo(v.z, FloorToChunk(v).z, ChunkSize)
  {
    FloorByFloors(v, ChunkSize);
  }

  /** CeilToChunk rounds every component up to a chunk multiple, by less than a chunk. */
  lemma CeilToChunkCeils(v: Vector32)
    ensures CeilFits(v.x, ChunkSize) ==> CeilsTo(v.x, CeilToChunk(v).x, ChunkSize)
    ensures CeilFits(v.y, ChunkSize) ==> CeilsTo(v.y, CeilToChunk(v).y, ChunkSize)
    ensures CeilFits(v.z, ChunkSize) ==> CeilsTo(v.z, CeilToChunk(v).z, ChunkSize)
  {
    CeilByCeils(v, ChunkSize);
  }

  /** Rounding a rounded vector again changes nothing, in either direction. */
  lemma FloorToLayerIdempotent(v: Vector32, l: nat)
    requires l < TotalLayers
    ensures FloorToLayer(FloorToLayer(v, l), l) == FloorToLayer(v, l)
    ensures CeilToLayer(FloorToLayer(v, l), l) == FloorToLayer(v, l)
  {
    var f := FloorToLayer(v, l);
    FloorToLayerFloors(v, l);
    SizeIsGranule(l);
    AlignedIsFixed(f.x, Sizes[l]);
    AlignedIsFixed(f.y, Sizes[l]);
    AlignedIsFixed(f.z, Sizes[l]);
  }

  // ---------------------------------------------------------------------------
  // From morton-codes to world locations

  /** A node's local coordinate in world units: its lane value shifted by SizeShift. */
  function LocalOffset(lane: bv32): (r: Int32)
  {
    lane << 3
  }

  /** The world location of the node whose lanes are `lx`, `ly`, `lz` in the chunk whose corner is `chunk`. */
  function FromLanes(chunk: Vector32, lx: bv32, ly: bv32, lz: bv32): (r: Vector32)
  {
    Add(chunk, Vector32(LocalOffset(lx), LocalOffset(ly), LocalOffset(lz)))
  }

  /** The world location of the node with code `c` in the chunk whose corner is `chunk`. */
  function FromNodeMorton(c: MortonNode.NodeMorton, chunk: Vector32): (r: Vector32)
  {
    FromLanes(chunk, MortonNode.LaneX(c), MortonNode.LaneY(c), MortonNode.LaneZ(c))
  }

  /** The world location of a chunk's corner. */
  function FromChunkMorton(c: MortonChunk.ChunkMorton): (r: Vector32)
  {
    var d := MortonChunk.Decode(c);
    Vector32(d.0, d.1, d.2)
  }

  /** A lane offset stays inside the chunk and on the grid of the smallest node. */
  lemma LocalOffsetInChunk(lane: bv32)
    ensures lane <= 0x3FF ==> LocalOffset(lane) < ChunkSize && LocalOffset(lane) & 7 == 0
  {
  }

  lemma FromLanesComponents(chunk: Vector32, lx: bv32, ly: bv32, lz: bv32)
    ensures Offset(FromLanes(chunk, lx, ly, lz).x, chunk.x) == LocalOffset(lx)
    ensures Offset(FromLanes(chunk, lx, ly, lz).y, chunk.y) == LocalOffset(ly)
    ensures Offset(FromLanes(chunk, lx, ly, lz).z, chunk.z) == LocalOffset(lz)
  {
    AddComponents(chunk, Vector32(LocalOffset(lx), LocalOffset(ly), LocalOffset(lz)));
    OffsetOfSum(chunk.x, LocalOffset(lx));
    OffsetOfSum(chunk.y, LocalOffset(ly));
    OffsetOfSum(chunk.z, LocalOffset(lz));
  }

  lemma NodeLanesBounded(c: MortonNode.NodeMorton)
    ensures MortonNode.LaneX(c) <= 0x3FF && MortonNode.LaneY(c) <= 0x3FF && MortonNode.LaneZ(c) <= 0x3FF
  {
  }

  /** A node lies inside its chunk: each offset from the chunk corner is below the chunk size and a multiple of 8. */
  lemma FromNodeMortonInChunk(c: MortonNode.NodeMorton, chunk: Vector32)
    ensures Offset(FromNodeMorton(c, chunk).x, chunk.x) < ChunkSize && Offset(FromNodeMorton(c, chunk).x, chunk.x) & 7 == 0
    ensures Offset(FromNodeMorton(c, chunk).y, chunk.y) < ChunkSize && Offset(FromNodeMorton(c, chunk).y, chunk.y) & 7 == 0
    ensures Offset(FromNodeMorton(c, chunk).z, chunk.z) < ChunkSize && Offset(FromNodeMorton(c, chunk).z, chunk.z) & 7 == 0
  {
    var lx, ly, lz := MortonNode.LaneX(c), MortonNode.LaneY(c), MortonNode.LaneZ(c);
    NodeLanesBounded(c);
    FromLanesComponents(chunk, lx, ly, lz);
    LocalOffsetInChunk(lx);
    LocalOffsetInChunk(ly);
    LocalOffsetInChunk(lz);
  }

  /** The location of an encoded node is the chunk corner plus its local coordinates in world units. */
  lemma FromNodeMortonOfEncode(x: bv32, y: bv32, z: bv32, chunk: Vector32)
    ensures FromNodeMorton(MortonNode.Encode(x, y, z), chunk)
         == Add(chunk, Vector32((x & 0x3FF) << 3, (y & 0x3FF) << 3, (z & 0x3FF) << 3))
  {
    MortonNode.DecodeEncode(x, y, z);
  }

  lemma {:induction false} SizeOfLaneStep(l: nat)
    requires MortonNode.IsLayer(l)
    ensures Sizes[l] == MortonNode.LaneSteps[l] << 3
  {
    if l == 0 {} else if l == 1 {} else if l == 2 {} else if l == 3 {} else if l == 4 {} else if l == 5 {}
    else if l == 6 {} else if l == 7 {} else if l == 8 {} else if l == 9 {} else {}
  }

  lemma ShiftedAligned(lane: bv32, step: bv32)
    ensures lane & (step - 1) == 0 && step <= 0x400 ==> LocalOffset(lane) & ((step << 3) - 1) == 0
  {
  }

  /** A node of layer `l` lies on that layer's world grid, relative to its chunk corner. */
  lemma FromNodeMortonOfNode(c: MortonNode.NodeMorton, l: nat, chunk: Vector32)
    requires MortonNode.IsLayer(l) && MortonNode.IsNodeOfLayer(c, l)
    ensures Offset(FromNodeMorton(c, chunk).x, chunk.x) & (Sizes[l] - 1) == 0
    ensures Offset(FromNodeMorton(c, chunk).y, chunk.y) & (Sizes[l] - 1) == 0
    ensures Offset(FromNodeMorton(c, chunk).z, chunk.z) & (Sizes[l] - 1) == 0
  {
    MortonNode.NodeLaneXAligned(c, l);
    MortonNode.NodeLaneYAligned(c, l);
    MortonNode.NodeLaneZAligned(c, l);
    MortonNode.StepIsPowerOfTwo(l);
    SizeOfLaneStep(l);
    ShiftedAligned(MortonNode.LaneX(c), MortonNode.LaneSteps[l]);
    ShiftedAligned(MortonNode.LaneY(c), MortonNode.LaneSteps[l]);
    ShiftedAligned(MortonNode.LaneZ(c), MortonNode.LaneSteps[l]);
    FromLanesComponents(chunk, MortonNode.LaneX(c), MortonNode.LaneY(c), MortonNode.LaneZ(c));
  }
}

=== FILE: wrappers.dfy ===
/** A value that may be absent: an out-of-range table read, a missing map entry. */
module Wrappers {
  datatype Option<T> = None | Some(value: T)
}
